=== FILE: README.md ===
# sverchok-extra geometry kernel in Dafny

This project models the exact, combinatorial core of the sverchok-extra
add-on's geometry kernel and node helpers, and proves what that core
promises. Numerical routines are parameters of the model: curve and
surface evaluation, scipy's root finders and minimisers, mathutils'
BVH and KD trees, the NURBS library's knot generator, and sqrt, cosh
and atanh. Each parameter is a function value or a function-typed
datatype field. Every raised exception is an `Err` of a `Result`, or a
`None` where the source returns None.

The modules follow the source:

- **Sampling** (`sampling.dfy`): `linspace` and the sign-change bracket scan (utils/geom.py).
- **CurveProjection** (`curve_projection.dfy`): `ortho_project_curve` and `CurveProjectionResult`.
- **SurfaceProjection** (`surface_projection.dfy`): the alternating loop of `ortho_project_surface`, with its iteration budget, axis toggling and final read-out.
- **Raycaster** (`raycaster.dfy`): `SurfaceRaycaster`, covering the quad grid, the face-centre guesses, `_init_guess` and the `skip`/`fail`/`none` policy of `raycast`.
- **Intersections** (`intersections.dfy`): curve–surface, curve–plane and surface–plane (UV) intersection. It covers the retry order, the round budgets and the result counts.
- **MinimalSurface** (`minimal_surface.dfy`): `make_edges_xy`, `make_faces_xy`, the orientation reorder and the matrix round trip of the minimal-surface node.
- **NurbsCommon**, **NurbsSurface**, **NurbsCurve**: `grouper`, 1D chunking, cyclic extension of control nets, auto knot vectors and parameter bounds.
- **Voronoi3D**: ridge-to-site grouping, the open-site rule, `calc_bounds` and the RIDGES filter.
- **SolidMesh**: `mesh_from_faces` over integer vertex ids, with its edge filter and face-ordering walk.
- **CurveExtremes**: `solve` of the curve-extremes node.
- **NearestPoint**: the nearest-point-on-curve node.
- **Catenary**: the frame set-up, the bracket-expansion loop and the failure of `CatenarySolver`, plus the start point and bounds of the catenary curve.
- **Sdf**: `cartesian_product` and `scalar_field_to_sdf`.
- **Shared modules**: Wrappers, Vectors, Arith, MinMax and GeomErrors.

## Model

| member | source | states |
|---|---|---|
| Sampling.Linspace | utils/geom.py:47 | n samples; the first is a and the last is exactly b; strictly increasing when a < b, and inside [a, b] when a ≤ b |
| Sampling.SignChanges | utils/geom.py:49-57 | index k is listed exactly when vals[k]·vals[k+1] < 0, in ascending order |
| Sampling.Brackets | utils/geom.py:49-57 | one interval (us[k], us[k+1]) per sign change, in scan order, and only where the values strictly change sign |
| Sampling.BracketsOrdered | utils/geom.py:49-57 | over ascending samples the brackets are proper, come out in increasing order and share at most an endpoint |
| Sampling.ZeroSampleNeverBounds | utils/geom.py:54 | a sample whose goal is exactly zero bounds no bracket, on either side |
| Sampling.ChangesSignCases | utils/geom.py:54 | the product test holds iff the two values have strictly opposite signs |
| CurveProjection.SolveBrackets | utils/geom.py:59-69 | succeeds iff every bracket's solve succeeds; then exactly one root per bracket, in order, each the solver's answer from the bracket midpoint |
| CurveProjection.NearestIndex | utils/geom.py:28-37 | the KD-tree query returns an index of a point that no other candidate is strictly closer than |
| CurveProjection.OrthoProjectCurve | utils/geom.py:39-74 | raises NoProjection iff no bracket exists; otherwise one root per bracket, and the nearest point is the curve at the nearest root |
| SurfaceProjection.IsoCurve | utils/geom.py:92 | holding U gives a curve over the v-domain whose point at t is s(u, t); holding V gives one over the u-domain whose point at t is s(t, v) |
| SurfaceProjection.ProjectOnIso | utils/geom.py:92-96 | a step returns the point of the held iso-curve at the found parameter, or passes the projection error on |
| SurfaceProjection.AlternatesParity | utils/geom.py:99-102 | toggling after every step means the held axis is the first at even steps and the other at odd steps |
| SurfaceProjection.ProjectLoop | utils/geom.py:88-112 | at most the remaining budget of projections; "No convergence" only after all of them; the held axes alternate |
| SurfaceProjection.OrthoProjectSurfaceAsWritten | utils/geom.py:76-112 | the loop as written makes at most maxiter+1 projections and raises only after using them all |
| SurfaceProjection.ProjectLoopOnSurface | utils/geom.py:107-112 | when the remembered value starts equal to the held value, the returned point is the surface at the returned (u, v) |
| SurfaceProjection.OrthoProjectSurface | utils/geom.py:76-112 | corrected loop: the budget as above, held axes U, V, U, …, and the result point is the surface at the result (u, v) |
| SurfaceProjection.AsWrittenFirstStepSwapsAxes | utils/geom.py:83-110 | as written, convergence on the first step reports the v-midpoint as u: the patch centre comes back as (1, 1) |
| SurfaceProjection.CorrectedFirstStepOnSurface | utils/geom.py:83-112 | the corrected loop reports (0.5, 1), the centre's own parameters, on the same input |
| SurfaceProjection.FirstStepReportsRemembered | utils/geom.py:83-112 | for any surface, a first-step convergence reports (v-mid, v*) as written and (u-mid, v*) corrected |
| Raycaster.GridUs | utils/geom.py:160-164 | the flattened meshgrid has s² entries |
| Raycaster.GridAt | utils/geom.py:160-164 | grid point row·s + col carries us[col] and vs[row] |
| Raycaster.MakeFaces | utils/geom.py:171-187 | Err iff s = 0 (division by zero); otherwise (s−1)² quads, and for s ≥ 2 quad k, in row-major order, is the cell (i, i+s, i+s+1, i+1) with i = row·s + col, its centre guess being the corner's (u, v) shifted by (Δu/2s, Δv/2s) |
| Raycaster.Quads | utils/geom.py:178-181 | (s−1)² quads, quad k being the cell of row k / (s−1) and column k % (s−1) |
| Raycaster.CentreUs | utils/geom.py:178-183 | one u per quad: the u sample of the quad's column, shifted by uh2 |
| Raycaster.CentreVs | utils/geom.py:178-184 | one v per quad: the v sample of the quad's row, shifted by vh2 |
| Raycaster.CornerParams | utils/geom.py:180-183 | the lower-left corner of quad k carries its column's u sample and its row's v sample |
| Raycaster.CellIndexDecodes | utils/geom.py:180 | the corner index i = row·s + col is below s², and decodes back to col and row |
| Raycaster.QuadRowInRange | utils/geom.py:178-180 | quad k lies in a row below s − 1 |
| Raycaster.QuadIndicesInGrid | utils/geom.py:180-181 | every corner index of every quad is below s² |
| Raycaster.QuadSpansCell | utils/geom.py:180-181 | quad k's corners sit at (row, col), (row+1, col), (row+1, col+1) and (row, col+1) of the grid |
| Raycaster.CellIsQuad | utils/geom.py:178-186 | each grid cell is emitted as quad row·(s−1) + col |
| Raycaster.CentreInsideCell | utils/geom.py:173-183 | the half-step offset over 2s falls strictly inside one grid spacing |
| Raycaster.FaceCentresInsideCells | utils/geom.py:171-187 | every centre guess of the coarse mesh lies strictly inside its own cell |
| Raycaster.InitBvh | utils/geom.py:152-169 | Err iff samples = 0; otherwise it keeps the surface, installs the BVH and builds (samples−1)² quads |
| Raycaster.InitBvhKnowsFaces | utils/geom.py:167-169 | a BVH over these quads only ever names one of them |
| Raycaster.Guesses | utils/geom.py:193-208 | one entry per ray pair (zip length), entry k being the first guess of ray k; all_good iff no entry is a miss |
| Raycaster.GuessInsideHitCell | utils/geom.py:171-206 | after init_bvh over a non-degenerate domain, the first guess of a ray that hits (its quad's centre) lies strictly inside that quad's parameter cell |
| Raycaster.AllHit | utils/geom.py:193-201 | true iff every entry is a hit |
| Raycaster.InitGuess | utils/geom.py:189-208 | raises iff init_bvh was not called, and otherwise gives the per-ray guesses |
| Raycaster.HitIndices | utils/geom.py:223-226 | the indices of the rays that hit, ascending |
| Raycaster.RayUV | utils/geom.py:234-244 | precise mode returns the solver's (u, v) or raises on its failure; coarse mode returns the face centre |
| Raycaster.Walk | utils/geom.py:223-249 | a miss is skipped, raises, returns None or raises "invalid", by policy; a result is produced iff no miss meets a non-skip policy and no refinement fails; it then holds one u, v and uv per hit ray, in ray order, each the ray's refined (or coarse) parameters, plus the coarse points when not precise |
| Raycaster.WalkFirstStop | utils/geom.py:223-249 | the first ray that misses under a non-skip policy, or whose refinement fails, decides the outcome whatever the later rays do: "no initial guess" under fail, None under none, "invalid" under another policy, "refinement failed" for a failed solve |
| Raycaster.PolicyIrrelevantWithoutMiss | utils/geom.py:224-232 | when no ray misses, the policy is never consulted |
| Raycaster.Raycast | utils/geom.py:217-254 | raises without a BVH; when precise with calc_points, the points are the surface at the reported (u, v); when precise without them, there are no points; when coarse, the points are the BVH hit points of the hit rays, in ray order |
| Raycaster.CoarseSkipReportsCentres | utils/geom.py:223-249 | with skip and coarse mode, each hit ray reports its quad's centre, in order |
| Intersections.CastOne | utils/geom.py:270-272 | a single raycast with the none policy is None exactly when the BVH misses, and otherwise a point on the surface |
| Intersections.CasterOfCastsOnto | utils/geom.py:251-252 | every hit of those casts lies on the surface |
| Intersections.DoRaycast | utils/geom.py:268-278 | casts along sign·tangent first; on a miss, casts along −sign·tangent and reports the flipped sign |
| Intersections.NearestOnCurve | utils/geom.py:309-311 | the projection's nearest point is the curve at the returned parameter |
| Intersections.CurveSurfaceLoop | utils/geom.py:301-329 | at most the remaining rounds; "maximum iterations" only when they are used up; any answer lies on the curve or the surface |
| Intersections.InitialCast | utils/geom.py:280-299 | the first cast is from curve(u_min) along +tangent; on a miss, from curve(u_max) along −tangent; None iff both miss |
| Intersections.IntersectCurveSurface | utils/geom.py:262-329 | Err iff raycast_samples = 0 (zero samples); round budget of maxiter; no rounds before a start is found |
| Intersections.NoStartRaises | utils/geom.py:288-299 | when both initial rays miss, the intersection raises "no initial raycast" |
| Intersections.SampleSides | utils/geom.py:333-335 | value i is the plane's signed side of the curve point at the i-th of `samples` evenly spaced parameters |
| Intersections.PlaneStart | utils/geom.py:344-360 | the tangent line at the bracket's lower end is tried first, then the upper end; raises iff neither meets the plane |
| Intersections.CurvePlaneLoop | utils/geom.py:362-392 | round budget of maxiter; the errors are exactly those the loop can raise; started from a tangent line's meeting point with the plane, a returned point is a curve point within tol of such a meeting point, or such a meeting point within tol of a curve point |
| Intersections.SolveBracket | utils/geom.py:344-394 | the start error is raised exactly when neither tangent line meets the plane; a solution is a curve point within tol of a tangent line's meeting point with the plane, or such a meeting point within tol of a curve point |
| Intersections.SolveEach | utils/geom.py:343-396 | succeeds iff every bracket succeeds; then one solution per bracket, in order; otherwise the error is that of the first failing bracket |
| Intersections.IntersectCurvePlane | utils/geom.py:331-396 | `[]` when no sampled interval changes side; it succeeds iff every bracket's solve succeeds, and otherwise fails with the first failing bracket's error; on success exactly one solution per bracket, each the bracket's own solve, and every solution a curve point within tol of a tangent line's meeting point with the plane or such a meeting point within tol of a curve point |
| Intersections.IsoCurves | utils/geom.py:440-455 | entry k < samples_u is the U iso-curve at the k-th u sample, and entry samples_u + k the V iso-curve at the k-th v sample |
| Intersections.ConcatIntersections | utils/geom.py:443-455 | succeeds iff every curve succeeds; the count is the total number of brackets, with the first curve's solutions first |
| Intersections.ConcatIntersectionsAppend | utils/geom.py:443-455 | the intersections of two concatenated curve lists are the two lists' intersections concatenated, and succeed iff both do |
| Intersections.IntersectSurfacePlaneUV | utils/geom.py:436-456 | succeeds iff every iso-curve's intersection does; the result is the U iso-curves' solutions followed by the V iso-curves' solutions, one per bracket |
| MinimalSurface.RowEdges | nodes/surface/minimal_surface.py:148 | one row emits n − 1 edges |
| MinimalSurface.ColEdges | nodes/surface/minimal_surface.py:151 | one row-to-row step emits n edges |
| MinimalSurface.EdgesFromCount | nodes/surface/minimal_surface.py:145-153 | count of the edges emitted from a given row on |
| MinimalSurface.EdgesXYCount | nodes/surface/minimal_surface.py:145-153 | make_edges_xy(n) has exactly 2·n·(n−1) edges |
| MinimalSurface.RowEdgesMembers | nodes/surface/minimal_surface.py:148 | a row's edges are exactly the (a, a+1) edges starting in that row |
| MinimalSurface.ColEdgesMembers | nodes/surface/minimal_surface.py:151 | a row's column edges are exactly the (a, a+n) edges starting in that row |
| MinimalSurface.EdgesFromMembers | nodes/surface/minimal_surface.py:147-152 | the rows from a given row on emit exactly the grid edges starting in those rows |
| MinimalSurface.EdgesXYMembers | nodes/surface/minimal_surface.py:145-153 | the edges are exactly the row edges (a, a+1) and column edges (a, a+n), each with a < b < n² |
| MinimalSurface.FacesRow | nodes/surface/minimal_surface.py:158-161 | the inner loop emits n − 1 quads |
| MinimalSurface.FacesFromCount | nodes/surface/minimal_surface.py:157-161 | count of the quads emitted from a given row on |
| MinimalSurface.FacesFromAt | nodes/surface/minimal_surface.py:157-161 | the quad at position q·(n−1) + r is the one at outer index row + q and inner index r |
| MinimalSurface.FacesXYCount | nodes/surface/minimal_surface.py:155-162 | make_faces_xy(n) returns (n−1)² quads |
| MinimalSurface.FaceAtIsCell | nodes/surface/minimal_surface.py:159-160 | (i, i+n, i+n+1, i+1) with i = row + col·n is a grid cell, every index below n² |
| MinimalSurface.FacesXYAt | nodes/surface/minimal_surface.py:155-162 | quad row·(n−1) + col is that cell |
| MinimalSurface.CellIsFace | nodes/surface/minimal_surface.py:155-162 | every grid cell is one of the quads |
| MinimalSurface.FacesXYMembers | nodes/surface/minimal_surface.py:155-162 | the quads are exactly the cells of the n × n grid |
| MinimalSurface.RowEdgeJoinsNeighbours | nodes/surface/minimal_surface.py:275-279 | a row edge joins two meshgrid points with the same y sample and neighbouring x samples |
| MinimalSurface.ColEdgeJoinsNeighbours | nodes/surface/minimal_surface.py:275-279 | a column edge joins two meshgrid points with the same x sample and neighbouring y samples |
| MinimalSurface.ReorderRoundTrip | nodes/surface/minimal_surface.py:246-289 | the output tuple swap inverts the input column reorder, both ways; Z is the identity |
| MinimalSurface.MatrixRoundTrip | nodes/surface/minimal_surface.py:240-332 | q ↦ M·(q − t) undoes p ↦ M⁻¹·p + t |
| MinimalSurface.PipelineRoundTrip | nodes/surface/minimal_surface.py:240-332 | an input point carried into the fit frame (matrix, then reorder) and out again comes back unchanged |
| MinimalSurface.GeneratedCount | nodes/surface/minimal_surface.py:271-327 | GRID makes n² vertices, EXPLICIT one per target, NONE none; EXPLICIT mode raises iff the target lists differ in length or, in UV mode, one of them is empty |
| MinimalSurface.NodeMesh | nodes/surface/minimal_surface.py:271-337 | fails exactly when the vertex generation fails; otherwise the generated vertex count, 2·n·(n−1) edges and (n−1)² faces |
| MinimalSurface.TopologyIgnoresMode | nodes/surface/minimal_surface.py:336-337 | edges and faces come from grid_points, whatever the generate mode |
| MinimalSurface.GridMeshIsClosed | nodes/surface/minimal_surface.py:274-337 | in GRID mode every edge and face index names a generated vertex |
| MinimalSurface.NoneModeEdgesDangle | nodes/surface/minimal_surface.py:271-337 | in NONE mode the edges still exist but name vertices that were never generated |
| NurbsCommon.FullList | nodes/curve/nurbs_curve.py:102 | pads with the last element up to count and keeps the prefix; an empty list that needs padding fails |
| NurbsCommon.ExtendRow | nodes/curve/nurbs_curve.py:104-105 | the row followed by its first degree+1 entries (the whole row when shorter) |
| NurbsCommon.CyclicKnots | nodes/curve/nurbs_curve.py:127 | range(n + degree + 1): length n + degree + 1, starting at 0 with unit steps, hence strictly increasing |
| NurbsCommon.ChooseKnots | nodes/curve/nurbs_curve.py:124-146 | EXPLICIT mode keeps the given knots; AUTO non-cyclic mode takes the generator's vector for (degree, n); AUTO cyclic mode is range(n + degree + 1), whose cyclic bounds are (degree, n − 1) for n ≥ 1 and an index error for n = 0 |
| NurbsCommon.Bounds | nodes/curve/nurbs_curve.py:139-146 | cyclic: (knots[d], knots[−d−2]), failing iff fewer than d+2 knots; otherwise the least and greatest knot, failing iff there are none |
| NurbsCommon.CyclicAutoBounds | nodes/curve/nurbs_curve.py:124-146 | uniform knots of n ≥ 1 points give bounds (degree, n − 1) |
| NurbsCommon.CyclicSpanInsideFullSpan | nodes/curve/nurbs_curve.py:139-146 | on ascending knots the cyclic span lies inside (min, max) = (first, last) |
| NurbsCurve.BuildCurve | nodes/curve/nurbs_curve.py:101-146 | weights are applied iff linked and NURBS, and are then the given weights padded to the vertex count, extended like the points in AUTO cyclic mode; points are extended only in AUTO cyclic mode; the knots are ChooseKnots for the extended point count (the generator's vector or range(n_total + degree + 1) under AUTO, the given knots under EXPLICIT); it succeeds iff the weights can be padded and the bounds rule succeeds on those knots, and the bounds are then exactly that rule's result |
| NurbsCurve.CyclicCurveBounds | nodes/curve/nurbs_curve.py:101-146 | AUTO cyclic: n_total = n + degree + 1, the knots are range(n_total + degree + 1), the bounds are (degree, n_total − 1), and linked weights are the padded weights followed by their first degree + 1 entries |
| NurbsCurve.ExplicitCyclicBounds | nodes/curve/nurbs_curve.py:132-146 | in EXPLICIT mode a cyclic curve still reads its bounds at knots[d] and knots[−d−2] |
| NurbsCurve.NonCyclicBoundsSpanKnots | nodes/curve/nurbs_curve.py:143-146 | non-cyclic bounds contain every knot |
| NurbsCurve.BuildAll | nodes/curve/nurbs_curve.py:97-148 | succeeds iff every input builds; then one curve per input, and knots_out[i] is curve i's knot vector |
| NurbsCurve.BuildCurves | nodes/curve/nurbs_curve.py:95-148 | the same, for the node's curve builder |
| NurbsSurface.Grouper | nodes/surface/nurbs_surface.py:14-18 | rows of exactly n; flattening gives xs followed by fewer than n fill values; no rows when n = 0 |
| NurbsSurface.GrouperCount | nodes/surface/nurbs_surface.py:14-18 | ceil(len / n) chunks |
| NurbsSurface.GrouperChunk | nodes/surface/nurbs_surface.py:14-18 | a whole chunk i is xs[i·n .. i·n+n] |
| NurbsSurface.GrouperExact | nodes/surface/nurbs_surface.py:14-18 | when n divides the length there is no padding, and every chunk is a slice |
| NurbsSurface.Chunk1D | nodes/surface/nurbs_surface.py:180-202 | missing weights for a non-empty point list fail first; then u_size = 0 fails; it succeeds iff neither happens, giving rows of n_u = len // u_size for both points and weights |
| NurbsSurface.Chunk1DExact | nodes/surface/nurbs_surface.py:197-202 | when divisible, u_size rows of k, entry (i, j) being point i·k + j, with the weights alike |
| NurbsSurface.Chunk1DRagged | nodes/surface/nurbs_surface.py:197-202 | when n_u = len // u_size ≥ 1 does not divide the point count, the chunking succeeds and the last of its ceil(len / n_u) rows carries None padding |
| NurbsSurface.ExtendCyclicV | nodes/surface/nurbs_surface.py:205-208 | each row is extended by its own first degree_v+1 entries |
| NurbsSurface.ExtendCyclicU | nodes/surface/nurbs_surface.py:209-211 | the first degree_u+1 rows are appended |
| NurbsSurface.ExtendNetRectangular | nodes/surface/nurbs_surface.py:204-211 | equal-length rows stay equal-length, with the new width and row count |
| NurbsSurface.ExtendNetWraps | nodes/surface/nurbs_surface.py:204-211 | entry (i, j) of the extended net is entry (i mod rows, j mod width) of the input |
| NurbsSurface.BuildSurface | nodes/surface/nurbs_surface.py:204-259 | an empty net fails; EXPLICIT keeps the given knots, points and weights; AUTO extends points and weights identically; the knots are ChooseKnots for n_u = the net's row count and n_v = its first row's length; the returned u and v bounds are exactly Bounds of those knots |
| NurbsSurface.CyclicSurfaceBounds | nodes/surface/nurbs_surface.py:223-259 | AUTO cyclic U and V: uniform knots, and bounds (degree, n_total − 1) in each direction |
| NurbsSurface.ExplicitBoundsFollowCyclicFlag | nodes/surface/nurbs_surface.py:237-259 | in EXPLICIT mode the bounds still follow the cyclic flags |
| Voronoi3D.AddFace | nodes/spatial/voronoi3d.py:99-100 | appends the face to one site's list, creating the key on first use, and changes nothing else |
| Voronoi3D.Step | nodes/spatial/voronoi3d.py:92-100 | an open ridge opens both its sites and adds no face; a finite ridge adds its face to both sites |
| Voronoi3D.GroupRidges | nodes/spatial/voronoi3d.py:87-100 | a site is open iff one of its ridges reaches infinity; a site is a key iff a finite ridge bounds it; its list holds those faces in ridge order |
| Voronoi3D.NoFiniteRidgeNoFaces | nodes/spatial/voronoi3d.py:99-106 | a site with no finite ridge is never a key, so it yields no region |
| Voronoi3D.FacesOfAreFinite | nodes/spatial/voronoi3d.py:95-100 | every listed face is finite and belongs to a ridge of that site |
| Voronoi3D.CollectRegions | nodes/spatial/voronoi3d.py:106-128 | a key yields its region iff kept (not closed_only, or neither open nor unclosed), and every region comes from a kept key |
| Voronoi3D.CollectRegionsDistinct | nodes/spatial/voronoi3d.py:106-128 | distinct keys give distinct region sites |
| Voronoi3D.MakeRegions | nodes/spatial/voronoi3d.py:87-140 | a site yields a region iff it has finite faces and, under closed_only, is not open and its mesh is closed; at most one region per site |
| Voronoi3D.AxisBounds | nodes/spatial/voronoi3d.py:181-189 | exactly (min − c, max + c): every value lies at least c inside both ends and each end is exactly c beyond some value; every value is inside when c ≥ 0 |
| Voronoi3D.CalcBounds | nodes/spatial/voronoi3d.py:180-189 | None iff there are no sites; otherwise per axis exactly (min − clipping, max + clipping): every site lies at least clipping inside each face and each face lies exactly clipping beyond some site; with clipping ≥ 0 every site is inside the box |
| Voronoi3D.FiniteRidges | nodes/spatial/voronoi3d.py:242 | keeps exactly the faces without −1, each as often as in the input; the length is unchanged iff none was open |
| Voronoi3D.KeepFiniteCounts | nodes/spatial/voronoi3d.py:242 | the comprehension keeps each finite face as often as it occurs and no open face; it keeps every face iff none is open |
| Voronoi3D.KeepFiniteAppend | nodes/spatial/voronoi3d.py:242 | the comprehension of a concatenation is the concatenation of the comprehensions |
| Voronoi3D.FiniteRidgesAppend | nodes/spatial/voronoi3d.py:242 | filtering a concatenation filters each part and concatenates, so the kept faces stay in input order |
| Voronoi3D.FiniteRidgesIdempotent | nodes/spatial/voronoi3d.py:242 | filtering twice is filtering once |
| Voronoi3D.FiniteRidgesKeepsAll | nodes/spatial/voronoi3d.py:242 | a list without open faces passes unchanged |
| SolidMesh.TwoVertexEdges | nodes/spatial/voronoi_on_solid_surface.py:52-56 | exactly the edges with two vertices are emitted, each as often as in the input |
| SolidMesh.TwoVertexEdgesAppend | nodes/spatial/voronoi_on_solid_surface.py:52-56 | filtering a concatenation filters each part and concatenates, so the edges stay in input order |
| SolidMesh.Link | nodes/spatial/voronoi_on_solid_surface.py:64-66 | adds j to i's set and i to j's set, and nothing else |
| SolidMesh.Incidence | nodes/spatial/voronoi_on_solid_surface.py:60-66 | each id maps to exactly its neighbours along the face's two-vertex edges |
| SolidMesh.IncidenceSymmetric | nodes/spatial/voronoi_on_solid_surface.py:60-66 | v is incident to u iff u is incident to v |
| SolidMesh.Unvisited | nodes/spatial/voronoi_on_solid_surface.py:75 | exactly the listed ids not yet on the path |
| SolidMesh.Walk | nodes/spatial/voronoi_on_solid_surface.py:70-80 | the path keeps its prefix, gains at most `steps` ids, never repeats one, and consecutive ids are incident |
| SolidMesh.WalkStopsAtDeadEnd | nodes/spatial/voronoi_on_solid_surface.py:73-77 | a walk that stops early ends at a vertex whose neighbours are all on the path |
| SolidMesh.OrderFace | nodes/spatial/voronoi_on_solid_surface.py:68-80 | fails iff the face has no vertex; otherwise starts at face[0], has no duplicates and at most len(face)+1 entries, and consecutive entries are neighbours |
| SolidMesh.OrderedFaces | nodes/spatial/voronoi_on_solid_surface.py:58-83 | fails iff some face has no vertex; otherwise every face's ordering with more than 2 ids is kept, and every kept entry is such an ordering |
| SolidMesh.KeepLong | nodes/spatial/voronoi_on_solid_surface.py:59-83 | a face list is emitted iff every face can be ordered; then every ordering with more than 2 ids is kept, and every kept entry is one of them |
| SolidMesh.LongOrdersKeeps | nodes/spatial/voronoi_on_solid_surface.py:59-83 | the ordering loop aborts iff some face cannot be ordered; otherwise it keeps every ordering with more than 2 ids and nothing else |
| SolidMesh.LongOrdersAppend | nodes/spatial/voronoi_on_solid_surface.py:59-83 | the ordering loop over concatenated face lists aborts iff a part does, and otherwise concatenates the parts' results |
| SolidMesh.KeepLongAppend | nodes/spatial/voronoi_on_solid_surface.py:59-83 | the output for concatenated face lists is the two outputs concatenated, so kept orderings come in face order |
| SolidMesh.MeshFromFaces | nodes/spatial/voronoi_on_solid_surface.py:41-85 | fails iff some face has no vertex; otherwise the two-vertex edges together with the kept ordered faces |
| CurveExtremes.GoalOrder | nodes/curve/extremes.py:78-84 | under MIN the goal orders parameters as the field does, and under MAX it reverses that order |
| CurveExtremes.SubIntervals | nodes/curve/extremes.py:86-92 | exactly `samples` contiguous intervals from t_min to t_max |
| CurveExtremes.Candidates | nodes/curve/extremes.py:92-108 | raises iff FAIL and some search failed; candidates are exactly the successful results inside [t_min, t_max] |
| CurveExtremes.CandidatesEmpty | nodes/curve/extremes.py:92-108 | when the candidates are computed, there is one iff some search succeeds inside [t_min, t_max] |
| CurveExtremes.WithValue | nodes/curve/extremes.py:117 | the parameters of the candidates with exactly that value, each as often as such a candidate occurs |
| CurveExtremes.WithValueAppend | nodes/curve/extremes.py:117 | filtering a concatenation filters each part and concatenates, so the parameters keep candidate order |
| CurveExtremes.Select | nodes/curve/extremes.py:115-118 | non-empty; exactly the parameters of the candidates holding the least value, in candidate order and with multiplicity |
| CurveExtremes.LeastValue | nodes/curve/extremes.py:115-116 | the minimum of the candidate values is some candidate's value and no candidate lies below it |
| CurveExtremes.Solve | nodes/curve/extremes.py:76-118 | the search error iff FAIL and a search failed; "no candidates" iff FAIL, no search failed and none landed in range; SKIP never raises; a result is non-empty iff some search landed in range; results lie in range and are the least-valued candidates' parameters, in order |
| CurveExtremes.ExtremeFieldFound | nodes/curve/extremes.py:78-118 | when every search succeeds in range and reports the goal at its point, the result is non-empty, and every returned t has the least field value of all search results under MIN and the greatest under MAX |
| CurveExtremes.SelectedGoalLeast | nodes/curve/extremes.py:88-118 | when every search succeeds in range, each selected t has a goal value at most that of every search result |
| NearestPoint.NearestSample | nodes/curve/nearest_point.py:24-34 | a sampled parameter whose curve point no other sample beats |
| NearestPoint.InitGuess | nodes/curve/nearest_point.py:18-36 | one parameter and one point per query point; the parameter is a sample, the point is the curve there, and it is the nearest sample |
| NearestPoint.BracketAround | nodes/curve/nearest_point.py:98-103 | init_t is in the middle; the bracket falls into one of the three cases |
| NearestPoint.BracketOrdered | nodes/curve/nearest_point.py:98-103 | with init_t in [t_min, t_max], the triple is strictly ordered |
| NearestPoint.Refine | nodes/curve/nearest_point.py:96-111 | succeeds iff every search succeeds, each from the bracket around its own guess |
| NearestPoint.NearestOnCurve | nodes/curve/nearest_point.py:95-119 | non-precise returns the guesses; precise raises iff a search fails; points are the curve at the results when linked |
| NearestPoint.PreciseUsesGuessBracket | nodes/curve/nearest_point.py:97-111 | each precise result is the minimiser's answer on the bracket centred on its guess |
| Catenary.InitFrame | utils/catenary.py:116-127 | dy = −dv·f and dx_v = dv + dy·f; the swap happens iff the norm is negative, and then negates dy and dx and starts from point2 |
| Catenary.RunOrthogonalToForce | utils/catenary.py:113-121 | for a unit force, dx_v is orthogonal to the force |
| Catenary.InitNeverSwaps | utils/catenary.py:121-127 | a non-negative norm never triggers the swap |
| Catenary.RightHandSide | utils/catenary.py:129 | raises iff L² < dy²; otherwise S ≥ 0 and S² + dy² = L² |
| Catenary.InitGuess | utils/catenary.py:134-139 | S = dx is a division by zero (no initial range); for dx ≥ 0 and S ≥ 0 a square root of a negative number happens iff S < dx; otherwise A0 ≥ 0 with 4·A0² = dx²(5dx + √(5dx(6S − dx)))/(60(S − dx)) |
| Catenary.GuessSign | utils/catenary.py:138 | with a non-negative first root, x2 is negative when 0 ≤ S < dx and non-negative when 0 ≤ dx < S |
| Catenary.GuesserOf | utils/catenary.py:134-139 | the guesser handed to the solver computes `_init_guess` for every (dx, S) |
| Catenary.Bracket | utils/catenary.py:141-154 | None iff none of the 16 attempts changes sign; otherwise the symmetric pair of the first attempt that does, with A0 strictly inside it (its index returned alongside as a ghost) |
| Catenary.Solve | utils/catenary.py:156-172 | raises iff the initial guess raises (passing its error on) or none of the 16 attempts brackets the root; otherwise A is the root found on the first bracketing attempt around the guess, x0 = dx/2 − A·atanh(dy/L), and the curve starts at point1 |
| Catenary.StartsAtPoint1 | utils/catenary.py:24-30 | the curve evaluated at the lower bound 0 of get_u_bounds (0, 1) is point1 |
| Sdf.Flat | utils/sdf.py:38-41 | the row-major position of an index tuple is below ∏len(a_i) |
| Sdf.Blocks | utils/sdf.py:39-41 | one block per element: |xs|·|rows| rows, each an element followed by a row |
| Sdf.BlocksAt | utils/sdf.py:39-41 | entry j of block i is xs[i] followed by rows[j] |
| Sdf.Product | utils/sdf.py:35-41 | ∏len(a_i) rows of k columns, column i drawn from a_i |
| Sdf.CartesianProduct | utils/sdf.py:35-41 | raises with no arrays; otherwise ∏len(a_i) rows of k columns, column i drawn from a_i |
| Sdf.ProductAt | utils/sdf.py:38-41 | the row at the row-major position of (i_0, …, i_{k−1}) is (a_0[i_0], …, a_{k−1}[i_{k−1}]), with the last index varying fastest |
| Sdf.Unflat | utils/sdf.py:41 | every row position is the position of some index tuple |
| Sdf.RowIsPick | utils/sdf.py:38-41 | every row is the pick of the index tuple at its position |
| Sdf.FlatInjective | utils/sdf.py:41 | distinct index tuples sit at distinct positions |
| Sdf.SdfValues | utils/sdf.py:24-33 | one value per point; zero iff the field equals iso_value there, negative iff below and positive iff above; differences of values are differences of field values |

## Left out

- Numerics are parameters, and their accuracy and convergence are not modelled. This covers curve and surface evaluation, tangents, scipy's `root_scalar`, `root`, `minimize_scalar` and `Rbf`, BVH ray casts, the NURBS library's `knotvector.generate`, and sqrt, sinh, cosh and atanh.
- Normalisation of directions before a solve (utils/geom.py:235-236, 347, 355, 379) happens inside the solver or plane parameters.
- A norm test `‖d‖ < tol` is modelled as `tol > 0 ∧ ‖d‖² < tol²`, which is the same test without a square root.
- CurveProjection.NearestIndex: the KD tree may break distance ties either way; the model keeps the earliest index, so only "no closer point" is promised.
- `intersect_surface_plane_msquares` is not modelled: it depends on skimage contours and on a helper that is not part of this model.
- The 4×4 to 3×3 matrix split and numpy's inverse are not modelled. The inverse is a parameter, and the round trip assumes it is a right inverse, so singular matrices are not covered.
- `make_uv` and the arc-length parametrisation are not modelled; they are floating-point geometry.
- Blender node plumbing (`process` bodies beyond the modelled helpers, sockets, drawing, registration) is not modelled.
- bmesh construction, clipping and normals in the Voronoi node are not modelled. The "mesh has a boundary vertex" test of make_regions is a parameter (`closedMesh`).
- FreeCAD calls in the Voronoi-on-solid node are not modelled. Vertices are already integer ids, so `find_vertex` is the identity.
- SolidMesh.Walk: Python's set iteration order is unspecified. The listing of a neighbour set is a parameter, and every property holds for any listing that lists members only.
- The `fullList` helper belongs to the host's data_structure module, which is not part of this model. NurbsCommon.FullList takes it to pad with the last element.
- NurbsSurface.BuildSurface: 2D-mode weight padding (nodes/surface/nurbs_surface.py:182-187) is not modelled; the builder takes weight rows already padded.
- NurbsSurface.ExtendNetRectangular: stated only for nets with more rows than degree_u+1 and rows wider than degree_v+1. Smaller nets wrap around by the whole net, which ExtendRow's own contract covers.
- The NURBS library's `normalize_kv` knot normalisation is not modelled. Bounds are read from the knot vector as it was set.
- NearestPoint.InitGuess: requires samples ≥ 1. With no samples the KD tree is empty and the lookup fails, and the node's property never offers that value.
- NearestPoint.NearestOnCurve: the same samples ≥ 1 requirement.
- Catenary.Solve: requires a non-zero length. numpy would give nan for dy/length rather than raise, and that is not modelled.
- Catenary.Solve: the goal 2A·sinh(dx/2A) and x_direction = dx_v/dx are parameters. x_direction divides by zero when the end points lie on one force line. The initial guess is passed in as a function; `GuesserOf(sqrt)` is the one computing `_init_guess`.
- Catenary.InitGuess: S = dx divides by zero. numpy gives inf or nan there rather than raising, and then no attempt of the bracket loop changes sign, so the model raises "no initial range" at once. A negative square-root argument raises a math domain error.
- Catenary.Evaluate: requires A ≠ 0; numpy would give inf/nan there. Only the start point is proved.
- `estimate_bounds`, `SvExSdfScalarField` and the sdf library's primitives are not modelled; they are a floating-point shrinking loop and library wrappers.
- `evaluate_array`, `tangent_array` and the derivative methods of the catenary curve are not modelled; they are batch and derivative variants of `evaluate`.
- Intersections.CurveSurfaceLoop, Intersections.CurvePlaneLoop: with maxiter ≤ 0 the source's loops never run and reading the unset result raises UnboundLocalError (utils/geom.py:299-331, 360-370); the model reports the maximum-iterations error there instead.
- NurbsSurface.BuildSurface: under cyclic V the source extends only the first len(vertices) weight rows (nodes/surface/nurbs_surface.py:205-208). The model extends every weight row, which differs only when there are more weight rows than vertex rows, as in 1D mode with more weights than vertices.
- NurbsCurve.BuildCurves, NurbsSurface.BuildSurface: every input tuple is taken as an independent copy. The source changes the caller's lists in place: `fullList` pads the weight list itself (nodes/curve/nurbs_curve.py:102, nodes/surface/nurbs_surface.py:181, 185, 187), and 2D AUTO cyclic mode `.extend`s the input rows and the net (nodes/surface/nurbs_surface.py:204-210). `zip_long_repeat` hands later tuples the same last list, so they see the earlier padding or extension. For example, `weights_s = [[1.0, 2.0]]` with vertex lists of 4 and then 2 points gives the second curve the weights [1, 2, 2, 2] in the source and [1, 2] in the model. A 2D net repeated for a second degree under AUTO cyclic mode is extended twice in the source and once in the model.
- Settings, dependency probing, export and the thin wrapper nodes are not modelled; they are I/O or library calls with no local logic.

## Findings

| source | as written | input that shows it | evidently intended | confidence | as-written member | corrected member |
|---|---|---|---|---|---|---|
| utils/geom.py:83-85 | `prev_fixed_axis_value` starts as the v-midpoint although U is held at the u-midpoint, so a loop that converges on its first step reports (u, v) = (v0, v*) | the flat patch z = 0 over [0, 1] × [0, 2], source point (0.5, 1, 0), 2 samples, a solver returning the bracket midpoint: it reports (1, 1), whose surface point is (1, 1, 0) | start the remembered value at the u-midpoint, giving (0.5, 1) | not executed | SurfaceProjection.AsWrittenFirstStepSwapsAxes | SurfaceProjection.CorrectedFirstStepOnSurface |

Two further points where the code and its documentation differ; the model follows the code:

- `intersect_curve_surface` tries two initial rays, from the start forwards and from the end backwards.
- The NURBS builders choose the bounds rule by the cyclic flag even when the knots are given explicitly.

=== FILE: arith.dfy ===
/**
 * Small facts of integer and real arithmetic that the index and
 * parameter computations rely on; the solver does not find them on its
 * own once a variable multiplies a variable.
 */
module Arith {

  /** Position of entry j of block i, for blocks of n entries, counted block by block. */
  function BlockPos(i: nat, n: nat, j: nat): nat {
    if i == 0 then j else n + BlockPos(i - 1, n, j)
  }

  /** Counting block by block lands on i·n + j. */
  lemma {:induction false} BlockPosIs(i: nat, n: nat, j: nat)
    ensures BlockPos(i, n, j) == i * n + j
  {
    if i > 0 {
      BlockPosIs(i - 1, n, j);
      MulSucc(i - 1, n);
    }
  }

  lemma MulLe(a: nat, b: nat, s: nat)
    requires a <= b
    ensures a * s <= b * s
  {
    var d := b - a;
    assert b * s == a * s + d * s;
  }

  /** One more block of s adds s. */
  lemma MulSucc(k: nat, s: nat)
    ensures (k + 1) * s == k * s + s
  {
  }

  /** Euclidean division has a unique quotient and remainder. */
  lemma DivModUnique(x: nat, s: nat, q: nat, r: nat)
    requires s >= 1 && r < s && x == q * s + r
    ensures x / s == q && x % s == r
  {
    var q0, r0 := x / s, x % s;
    assert x == q0 * s + r0;
    if q0 < q {
      MulLe(q0 + 1, q, s);
      assert false;
    } else if q < q0 {
      MulLe(q + 1, q0, s);
      assert false;
    }
  }

  /** A whole number of s-blocks leaves no remainder. */
  lemma MulMod(k: nat, s: nat)
    requires s >= 1
    ensures (k * s) % s == 0
  {
    DivModUnique(k * s, s, k, 0);
  }

  /**
   * Index row * s + col of an s-column grid with row < rows and col < s
   * lies below rows * s and decodes back to (row, col).
   */
  lemma GridIndex(row: nat, col: nat, rows: nat, s: nat)
    requires row < rows && col < s
    ensures row * s + col < rows * s
    ensures (row * s + col) / s == row && (row * s + col) % s == col
  {
    MulLe(row + 1, rows, s);
    DivModUnique(row * s + col, s, row, col);
  }

  /** A number below m whole s-blocks has a block index below m. */
  lemma DivBelow(x: nat, s: nat, m: nat)
    requires s >= 1 && x < m * s
    ensures x / s < m
  {
    if x / s >= m {
      MulLe(m, x / s, s);
      assert false;
    }
  }

  /** A number at or past `m` whole s-blocks has a block index of at least m. */
  lemma DivAtLeast(x: nat, s: nat, m: nat)
    requires s >= 1 && m * s <= x
    ensures m <= x / s
  {
    if x / s < m {
      MulLe(x / s + 1, m, s);
      assert false;
    }
  }

  /** In an n × n grid a point not in the last column has its right neighbour inside the grid. */
  lemma NextInRow(x: nat, n: nat)
    requires n >= 1 && x < n * n && x % n < n - 1
    ensures x + 1 < n * n
  {
    var q, r := x / n, x % n;
    DivBelow(x, n, n);
    MulLe(q + 1, n, n);
    assert (q + 1) * n == q * n + n;
  }

  /** In an n × n grid a point below the last row has its upper neighbour inside the grid. */
  lemma NextRow(x: nat, n: nat)
    requires n >= 1 && x < n * (n - 1)
    ensures x + n < n * n
  {
    assert n * (n - 1) + n == n * n;
  }

  /** The far corner of cell (row, col) of an n × n grid lies inside the grid. */
  lemma CellCorner(row: nat, col: nat, n: nat)
    requires row < n - 1 && col < n - 1
    ensures row + col * n + n + 1 < n * n
  {
    MulLe(col + 2, n, n);
    assert (col + 2) * n == col * n + 2 * n;
  }

  lemma MulLessReal(q: real, b: real, a: real)
    requires q > 0.0 && b < a
    ensures q * b < q * a
  {
  }

  lemma MulLeReal(h: real, q: real, b: real)
    requires b > 0.0 && h <= q
    ensures h * b <= q * b
  {
  }

  /** For d > 0 and s >= 2, half of d split into s pieces is less than d split into s − 1. */
  lemma HalfStepBelowSpacing(d: real, s: nat)
    requires d > 0.0 && s >= 2
    ensures 0.0 < d / (2 * s) as real < d / (s - 1) as real
  {
    var a := (2 * s) as real;
    var b := (s - 1) as real;
    var q := d / a;
    var h := d / b;
    assert q * a == d;
    assert h * b == d;
    calc {
      q * b;
    <  { MulLessReal(q, b, a); }
      q * a;
    ==
      h * b;
    }
    if q >= h {
      MulLeReal(h, q, b);
      assert false;
    }
  }
}

=== FILE: catenary.dfy ===
/**
 * The catenary solver and curve (utils/catenary.py). What is modelled is
 * the exact part: the frame set-up of `_init` (the drop dy along the
 * force and the horizontal run orthogonal to it), the error when the
 * length is shorter than the drop, the bracket-expansion loop of
 * `_bracket`, the failure of `solve` when no bracket is found, and the
 * curve's bounds and start point. sinh, cosh, atanh, sqrt, the norm and
 * the Ridder root finder are parameters.
 */
module Catenary {
  import opened Wrappers
  import opened Vectors
  import opened Sampling

  /**
   * The projected frame of `_init`: the start point, the drop dy along the
   * force, the run vector dx_v, the run length dx, and whether the sign
   * test swapped the end points.
   */
  datatype Frame = Frame(point1: Vec3, dy: real, dxVec: Vec3, dx: real, swapped: bool)

  /**
   * `_init` up to the square root: dy = -(p2 - p1)·f,
   * dx_v = (p2 - p1) + dy·f and dx = ‖dx_v‖. When dx < 0 the end points
   * are swapped and dx, dy negated.
   */
  function InitFrame(p1: Vec3, p2: Vec3, f: Vec3, norm: Vec3 -> real): (fr: Frame)
    ensures fr.dxVec == Add(Sub(p2, p1), Scale(-Dot(Sub(p2, p1), f), f))
    ensures fr.swapped <==> norm(fr.dxVec) < 0.0
    ensures !fr.swapped ==> fr.point1 == p1 && fr.dy == -Dot(Sub(p2, p1), f) && fr.dx == norm(fr.dxVec)
    ensures fr.swapped ==> fr.point1 == p2 && fr.dy == Dot(Sub(p2, p1), f) && fr.dx == -norm(fr.dxVec)
    ensures fr.dx >= 0.0
  {
    var dv := Sub(p2, p1);
    var dy := -Dot(dv, f);
    var dxv := Add(dv, Scale(dy, f));
    var dx := norm(dxv);
    if dx < 0.0 then Frame(p2, -dy, dxv, -dx, true) else Frame(p1, dy, dxv, dx, false)
  }

  /** With a unit force, the run vector dx_v is orthogonal to the force. */
  lemma RunOrthogonalToForce(p1: Vec3, p2: Vec3, f: Vec3, norm: Vec3 -> real)
    requires Dot(f, f) == 1.0
    ensures Dot(InitFrame(p1, p2, f, norm).dxVec, f) == 0.0
  {
    var dv := Sub(p2, p1);
    var dy := -Dot(dv, f);
    calc {
      Dot(Add(dv, Scale(dy, f)), f);
      == Dot(dv, f) + dy * Dot(f, f);
      == Dot(dv, f) + dy;
      == 0.0;
    }
  }

  /**
   * A norm is never negative, so the swap branch of `_init` is never
   * taken: the frame starts at point1 and dy is the drop towards point2.
   */
  lemma InitNeverSwaps(p1: Vec3, p2: Vec3, f: Vec3, norm: Vec3 -> real)
    requires forall v :: norm(v) >= 0.0
    ensures !InitFrame(p1, p2, f, norm).swapped
    ensures InitFrame(p1, p2, f, norm).point1 == p1
    ensures InitFrame(p1, p2, f, norm).dy == -Dot(Sub(p2, p1), f)
  {
  }

  datatype CatenaryError =
    | LengthBelowDrop   // sqrt(L² - dy²) of a negative number
    | GuessDomain       // a square root of a negative number in `_init_guess`
    | NoInitialRange    // `_bracket` gave up

  /** `sqrt` is the square root on the non-negative reals. */
  ghost predicate IsSqrt(sqrt: real -> real) {
    forall x :: x >= 0.0 ==> sqrt(x) >= 0.0 && sqrt(x) * sqrt(x) == x
  }

  /**
   * S = sqrt(L² - dy²); a length shorter than the drop has no real S. With
   * a true square root, S is the non-negative leg of the right triangle
   * whose hypotenuse is the length and whose other leg is the drop.
   */
  function RightHandSide(length: real, dy: real, sqrt: real -> real): (r: Result<real, CatenaryError>)
    ensures r.Err? <==> length * length < dy * dy
    ensures r.Err? ==> r.error == LengthBelowDrop
    ensures r.Ok? && IsSqrt(sqrt) ==> r.value >= 0.0 && r.value * r.value + dy * dy == length * length
  {
    if length * length - dy * dy < 0.0 then Err(LengthBelowDrop)
    else Ok(sqrt(length * length - dy * dy))
  }

  /**
   * `_init_guess`: A0 from approximation (3),
   * 4·A0² = dx²·(5·dx + sqrt(5·dx·(6·S − dx))) / (60·(S − dx)).
   * A negative square-root argument raises. When S = dx the division is by
   * a floating-point zero: A0 comes out infinite or NaN, every goal value
   * is NaN, no attempt of `_bracket` succeeds and `solve` raises for want
   * of an initial range, which is the error given here.
   */
  function InitGuess(d: real, s: real, sqrt: real -> real): (r: Result<real, CatenaryError>)
    ensures r == Err(NoInitialRange) <==> s == d
    ensures IsSqrt(sqrt) && 0.0 <= d && 0.0 <= s ==> (r == Err(GuessDomain) <==> s < d)
    ensures r.Ok? && IsSqrt(sqrt) ==> r.value >= 0.0 && 4.0 * r.value * r.value == GuessSquare(d, s, sqrt)
  {
    var inner := 5.0 * d * (6.0 * s - d);
    if inner < 0.0 then
      assert s != d && (0.0 <= d && 0.0 <= s ==> s < d) by {
        InnerSign(d, s);
      }
      Err(GuessDomain)
    else if s == d then Err(NoInitialRange)
    else
      var root := sqrt(inner);
      var x2 := GuessSquare(d, s, sqrt);
      assert IsSqrt(sqrt) && 0.0 <= d && 0.0 <= s ==> (x2 < 0.0 <==> s < d) by {
        if IsSqrt(sqrt) && 0.0 <= d && 0.0 <= s {
          GuessSign(d, s, root);
        }
      }
      if x2 < 0.0 then Err(GuessDomain)
      else
        Ok(HalfRoot(x2, sqrt))
  }

  /**
   * The right-hand side of equation (3) of the catenary notes, the
   * approximation of 4·A² from the first three Taylor terms of the goal.
   */
  function GuessSquare(d: real, s: real, sqrt: real -> real): real
    requires s != d
  {
    d * d * (5.0 * d + sqrt(5.0 * d * (6.0 * s - d))) / (60.0 * (s - d))
  }

  /** The first square-root argument is non-negative at and above the chord (S ≥ dx ≥ 0). */
  lemma InnerSign(d: real, s: real)
    ensures s == d ==> 5.0 * d * (6.0 * s - d) >= 0.0
    ensures 0.0 <= d <= s ==> 5.0 * d * (6.0 * s - d) >= 0.0
  {
    if s == d {
      assert 5.0 * d * (6.0 * s - d) == 25.0 * (d * d);
    }
    if 0.0 <= d <= s {
      assert 6.0 * s - d >= 0.0;
    }
  }

  /**
   * The sign of the second square-root argument: negative below the chord
   * (0 ≤ S < dx), non-negative above it (0 ≤ dx < S), for any non-negative
   * first root.
   */
  lemma GuessSign(d: real, s: real, root: real)
    requires s != d
    ensures 0.0 <= s < d && root >= 0.0 ==> d * d * (5.0 * d + root) / (60.0 * (s - d)) < 0.0
    ensures 0.0 <= d < s && root >= 0.0 ==> d * d * (5.0 * d + root) / (60.0 * (s - d)) >= 0.0
  {
    var num := d * d * (5.0 * d + root);
    var den := 60.0 * (s - d);
    if 0.0 <= s < d && root >= 0.0 {
      assert d * d > 0.0;
      assert num > 0.0;
      assert den < 0.0;
    }
    if 0.0 <= d < s && root >= 0.0 {
      assert d * d >= 0.0;
      assert num >= 0.0;
      assert den > 0.0;
    }
  }

  /** Half the square root: squared and multiplied by 4 it gives back the radicand. */
  function HalfRoot(x: real, sqrt: real -> real): (h: real)
    ensures IsSqrt(sqrt) && x >= 0.0 ==> h >= 0.0 && 4.0 * h * h == x
  {
    var root := sqrt(x);
    assert IsSqrt(sqrt) && x >= 0.0 ==> 4.0 * (root / 2.0) * (root / 2.0) == root * root;
    root / 2.0
  }

  /** Half-width of the k-th attempted bracket: 0.1 doubled k times. */
  function Width(k: nat): (w: real)
    ensures w > 0.0
  {
    if k == 0 then 0.1 else 2.0 * Width(k - 1)
  }

  /** Attempt k succeeds when goal − S changes sign across (A0 − w, A0 + w). */
  predicate Brackets(goal: real -> real, s: real, a0: real, k: nat) {
    ChangesSign(goal(a0 - Width(k)) - s, goal(a0 + Width(k)) - s)
  }

  /** No attempt brackets the root. */
  ghost predicate NoBracket(goal: real -> real, s: real, a0: real) {
    forall k :: 0 <= k < Attempts ==> !Brackets(goal, s, a0, k)
  }

  /** Attempt k is the first that brackets the root. */
  ghost predicate FirstBracket(goal: real -> real, s: real, a0: real, k: nat) {
    k < Attempts && Brackets(goal, s, a0, k) && forall j :: 0 <= j < k ==> !Brackets(goal, s, a0, j)
  }

  /** `_bracket` gives up once `counter > 15`, i.e. after 16 attempts. */
  const Attempts: nat := 16

  /**
   * `_bracket`: try half-widths 0.1, 0.2, 0.4, ... around A0 and return
   * the first symmetric pair whose goal values straddle S; give up after
   * 16 failed attempts. The ghost `k` names the successful attempt.
   */
  method Bracket(goal: real -> real, s: real, a0: real) returns (r: Option<(real, real)>, ghost k: nat)
    ensures r.None? <==> NoBracket(goal, s, a0)
    ensures r.Some? ==> FirstBracket(goal, s, a0, k) && r.value == (a0 - Width(k), a0 + Width(k))
    ensures r.Some? ==> r.value.0 < a0 < r.value.1
  {
    var dA := 0.1;
    var counter := 0;
    while true
      invariant 0 <= counter < Attempts
      invariant dA == Width(counter)
      invariant forall j :: 0 <= j < counter ==> !Brackets(goal, s, a0, j)
      decreases Attempts - counter
    {
      var y1 := goal(a0 - dA) - s;
      var y2 := goal(a0 + dA) - s;
      if y1 * y2 < 0.0 {
        assert Brackets(goal, s, a0, counter);
        return Some((a0 - dA, a0 + dA)), counter;
      }
      dA := dA * 2.0;
      counter := counter + 1;
      if counter > 15 {
        return None, 0;
      }
    }
  }

  /** The curve `solve` builds: A, x0, start point, force, run direction and run length. */
  datatype CatenaryCurve = CatenaryCurve(a: real, x0: real, point1: Vec3, force: Vec3, xDirection: Vec3, xRange: real)

  /** The residual of equation (1): goal(A) − S. */
  function Residual(goal: real -> real, s: real): real -> real {
    a => goal(a) - s
  }

  /** Ridder's method on a function over a bracket, started at A0. */
  type RootFinder = (real -> real, real, real, real) -> real

  /** The initial-guess rule as a value: A0 from the run length dx and S. */
  type Guesser = (real, real) -> Result<real, CatenaryError>

  /** `guess` is `_init_guess` computed with the square root `sqrt`. */
  ghost predicate GuessesWith(guess: Guesser, sqrt: real -> real) {
    forall d, s :: guess(d, s) == InitGuess(d, s, sqrt)
  }

  /** `_init_guess` with its square root fixed. */
  function GuesserOf(sqrt: real -> real): (g: Guesser)
    ensures GuessesWith(g, sqrt)
  {
    (d, s) => InitGuess(d, s, sqrt)
  }

  /**
   * `solve` after the frame is set up: take A0 from approximation (3),
   * then bracket and solve from it. A failed guess or no bracket raises.
   */
  method Solve(goal: real -> real, s: real, fr: Frame, length: real, force: Vec3, xDirection: Vec3,
               root: RootFinder, atanh: real -> real, guess: Guesser)
    returns (r: Result<CatenaryCurve, CatenaryError>, ghost k: nat)
    requires length != 0.0
    ensures r.Err? <==> guess(fr.dx, s).Err? || NoBracket(goal, s, guess(fr.dx, s).value)
    ensures guess(fr.dx, s).Err? ==> r == Err(guess(fr.dx, s).error)
    ensures guess(fr.dx, s).Ok? && r.Err? ==> r.error == NoInitialRange
    ensures r.Ok? ==> var a0 := guess(fr.dx, s).value;
      FirstBracket(goal, s, a0, k) && r.value.a == root(Residual(goal, s), a0 - Width(k), a0 + Width(k), a0)
    ensures r.Ok? ==> r.value.x0 == fr.dx / 2.0 - r.value.a * atanh(fr.dy / length)
    ensures r.Ok? ==> r.value.point1 == fr.point1 && r.value.xRange == fr.dx && r.value.force == force
  {
    var g := guess(fr.dx, s);
    if g.Err? {
      return Err(g.error), 0;
    }
    var a0 := g.value;
    var range;
    range, k := Bracket(goal, s, a0);
    if range.None? {
      return Err(NoInitialRange), k;
    }
    var a := root(Residual(goal, s), range.value.0, range.value.1, a0);
    var x3 := fr.dx / 2.0;
    r := Ok(CatenaryCurve(a, x3 - a * atanh(fr.dy / length), fr.point1, force, xDirection, fr.dx));
  }

  /** `get_u_bounds`: the curve runs over t in [0, 1]. */
  function UBounds(c: CatenaryCurve): (real, real) {
    (0.0, 1.0)
  }

  /**
   * `evaluate(t)`: point1 + t·x_range·x_direction − (y − y1)·force with
   * y = A·cosh((t·x_range − x0)/A) and y1 = A·cosh(−x0/A).
   */
  function Evaluate(c: CatenaryCurve, cosh: real -> real, t: real): Vec3
    requires c.a != 0.0
  {
    var tt := t * c.xRange;
    var dx := Scale(tt, c.xDirection);
    var y := c.a * cosh((tt - c.x0) / c.a);
    var y1 := c.a * cosh((-c.x0) / c.a);
    Add(Add(c.point1, dx), Scale(-(y - y1), c.force))
  }

  /** At the lower bound of its parameter range the curve is at point1. */
  lemma StartsAtPoint1(c: CatenaryCurve, cosh: real -> real)
    requires c.a != 0.0
    ensures UBounds(c) == (0.0, 1.0)
    ensures Evaluate(c, cosh, UBounds(c).0) == c.point1
  {
    var tt := 0.0 * c.xRange;
    assert tt == 0.0;
    assert (tt - c.x0) / c.a == (-c.x0) / c.a;
  }
}

=== FILE: curve_extremes.dfy ===
/**
 * `solve` of the curve-extremes node (nodes/curve/extremes.py:78-118):
 * the parameter range is cut into `samples` equal sub-intervals, a
 * bounded scalar minimiser runs on each, the successful in-range results
 * become candidates, and the candidates of least goal value are returned.
 * The minimiser (scipy's `minimize_scalar`) is an oracle.
 */
module CurveExtremes {
  import opened Wrappers
  import opened Vectors
  import opened Sampling
  import opened MinMax

  datatype Direction = Min | Max
  datatype OnFail = Fail | Skip

  datatype ExtremeError =
    | SearchFailed     // a sub-interval search failed under FAIL
    | NoCandidates     // no candidate at all under FAIL

  /** What `minimize_scalar` reports for one sub-interval. */
  datatype Search = Failed | Found(x: real, fun: real)

  /** The bounded minimiser, applied to the goal on one sub-interval. */
  type Minimiser = Interval -> Search

  /** The goal: the field at the curve point, negated when looking for the maximum. */
  function Goal(dir: Direction, field: Vec3 -> real, curve: real -> Vec3, t: real): real {
    var v := field(curve(t));
    if dir == Max then -v else v
  }

  /**
   * Minimising the goal minimises the field under MIN and maximises it
   * under MAX: the goal orders two parameters as the field does under MIN
   * and in reverse under MAX.
   */
  lemma GoalOrder(dir: Direction, field: Vec3 -> real, curve: real -> Vec3, t1: real, t2: real)
    ensures dir == Min ==> (Goal(dir, field, curve, t1) <= Goal(dir, field, curve, t2) <==> field(curve(t1)) <= field(curve(t2)))
    ensures dir == Max ==> (Goal(dir, field, curve, t1) <= Goal(dir, field, curve, t2) <==> field(curve(t1)) >= field(curve(t2)))
  {
  }

  /**
   * The sub-intervals (tknots[i], tknots[i+1]) of
   * `linspace(t_min, t_max, samples+1)`: exactly `samples` of them,
   * end to end, from t_min to t_max.
   */
  function SubIntervals(tMin: real, tMax: real, samples: nat): (r: seq<Interval>)
    ensures |r| == samples
    ensures forall i :: 0 <= i < samples - 1 ==> r[i].hi == r[i + 1].lo
    ensures samples >= 1 ==> r[0].lo == tMin && r[samples - 1].hi == tMax
    ensures tMin < tMax ==> forall i :: 0 <= i < samples ==> tMin <= r[i].lo < r[i].hi <= tMax
  {
    var knots := Linspace(tMin, tMax, samples + 1);
    seq(samples, i requires 0 <= i < samples => Interval(knots[i], knots[i + 1]))
  }

  /** A candidate: parameter and goal value. */
  datatype Candidate = Candidate(t: real, v: real)

  /** A search result is kept only when it succeeded inside [t_min, t_max]. */
  predicate Accepted(s: Search, tMin: real, tMax: real) {
    s.Found? && tMin <= s.x <= tMax
  }

  /**
   * The search loop. Under FAIL a failed search raises; under SKIP it is
   * ignored. A successful search outside [t_min, t_max] is only logged.
   * The candidates are the accepted results in interval order.
   */
  function Candidates(ivs: seq<Interval>, minimise: Minimiser, tMin: real, tMax: real, onFail: OnFail): (r: Result<seq<Candidate>, ExtremeError>)
    ensures r.Err? <==> onFail == Fail && exists i :: 0 <= i < |ivs| && minimise(ivs[i]).Failed?
    ensures r.Err? ==> r.error == SearchFailed
    ensures r.Ok? ==> |r.value| <= |ivs|
    ensures r.Ok? ==> forall c :: c in r.value ==> tMin <= c.t <= tMax
    ensures r.Ok? ==> forall c :: c in r.value ==> exists i :: 0 <= i < |ivs| && minimise(ivs[i]) == Found(c.t, c.v)
    ensures r.Ok? ==> forall i :: 0 <= i < |ivs| && Accepted(minimise(ivs[i]), tMin, tMax) ==>
      Candidate(minimise(ivs[i]).x, minimise(ivs[i]).fun) in r.value
  {
    if |ivs| == 0 then Ok([])
    else
      var s := minimise(ivs[0]);
      assert forall i :: 1 <= i < |ivs| ==> ivs[i] == ivs[1..][i - 1];
      if s.Failed? && onFail == Fail then Err(SearchFailed)
      else
        match Candidates(ivs[1..], minimise, tMin, tMax, onFail)
        case Err(e) =>
          assert exists i :: 0 <= i < |ivs| && minimise(ivs[i]).Failed? by {
            var j :| 0 <= j < |ivs[1..]| && minimise(ivs[1..][j]).Failed?;
            assert ivs[j + 1] == ivs[1..][j];
          }
          Err(e)
        case Ok(rest) =>
          if Accepted(s, tMin, tMax) then Ok([Candidate(s.x, s.fun)] + rest) else Ok(rest)
  }

  function Values(cs: seq<Candidate>): (vs: seq<real>)
    ensures |vs| == |cs| && forall i :: 0 <= i < |cs| ==> vs[i] == cs[i].v
  {
    seq(|cs|, i requires 0 <= i < |cs| => cs[i].v)
  }

  /**
   * The parameters of the candidates whose value is `target`, in order and
   * with repeats: each parameter occurs as often as its candidate does.
   */
  function WithValue(cs: seq<Candidate>, target: real): (ts: seq<real>)
    ensures forall t :: multiset(ts)[t] == multiset(cs)[Candidate(t, target)]
    ensures forall t :: t in ts <==> Candidate(t, target) in cs
    ensures |ts| <= |cs|
  {
    if |cs| == 0 then []
    else
      var rest := WithValue(cs[1..], target);
      assert cs == [cs[0]] + cs[1..];
      assert forall c :: multiset(cs)[c] == multiset([cs[0]])[c] + multiset(cs[1..])[c];
      if cs[0].v == target then [cs[0].t] + rest else rest
  }

  /**
   * The selection keeps candidate order: selecting from a concatenation
   * concatenates the selections, and a single candidate is kept alone
   * exactly when its value is the target.
   */
  lemma {:induction false} WithValueAppend(a: seq<Candidate>, b: seq<Candidate>, target: real)
    ensures WithValue(a + b, target) == WithValue(a, target) + WithValue(b, target)
    decreases |a|
  {
    if |a| > 0 {
      assert (a + b)[1..] == a[1..] + b;
      WithValueAppend(a[1..], b, target);
    } else {
      assert a + b == b;
    }
  }

  /** No candidate has a value below v. */
  ghost predicate Least(cs: seq<Candidate>, v: real) {
    forall c :: c in cs ==> v <= c.v
  }

  /** The least of the candidates' values is attained and no candidate lies below it. */
  lemma LeastValue(cs: seq<Candidate>)
    requires |cs| > 0
    ensures exists i :: 0 <= i < |cs| && cs[i].v == SeqMin(Values(cs))
    ensures Least(cs, SeqMin(Values(cs)))
  {
    var vs := Values(cs);
    var i :| 0 <= i < |vs| && vs[i] == SeqMin(vs);
    forall c | c in cs ensures SeqMin(vs) <= c.v {
      var j :| 0 <= j < |cs| && cs[j] == c;
      assert vs[j] == c.v;
    }
  }

  /** `v` is the least candidate value: some candidate has it and none lies below. */
  ghost predicate IsMinimum(cs: seq<Candidate>, v: real) {
    v in Values(cs) && Least(cs, v)
  }

  /**
   * The selection: the parameters of exactly the candidates whose value is
   * the least, in candidate order; at least one when there are candidates.
   */
  function Select(cs: seq<Candidate>): (ts: seq<real>)
    requires |cs| > 0
    ensures |ts| >= 1
    ensures forall v :: IsMinimum(cs, v) ==> ts == WithValue(cs, v)
    ensures forall t :: t in ts <==> exists v :: Candidate(t, v) in cs && Least(cs, v)
  {
    var target := SeqMin(Values(cs));
    var ts := WithValue(cs, target);
    LeastValue(cs);
    var i :| 0 <= i < |cs| && cs[i].v == target;
    assert cs[i] == Candidate(cs[i].t, target);
    assert cs[i].t in ts;
    assert forall t, v :: Candidate(t, v) in cs && Least(cs, v) ==> v == target by {
      forall t, v | Candidate(t, v) in cs && Least(cs, v) ensures v == target {
        assert cs[i] in cs;
      }
    }
    assert forall v :: IsMinimum(cs, v) ==> v == target by {
      forall v | IsMinimum(cs, v) ensures v == target {
        var j :| 0 <= j < |cs| && Values(cs)[j] == v;
        assert cs[i] in cs && cs[j] in cs;
      }
    }
    ts
  }

  /** Some sub-interval search failed. */
  ghost predicate AnyFailed(ivs: seq<Interval>, minimise: Minimiser) {
    exists i :: 0 <= i < |ivs| && minimise(ivs[i]).Failed?
  }

  /** Some sub-interval search succeeded inside [t_min, t_max]. */
  ghost predicate AnyAccepted(ivs: seq<Interval>, minimise: Minimiser, tMin: real, tMax: real) {
    exists i :: 0 <= i < |ivs| && Accepted(minimise(ivs[i]), tMin, tMax)
  }

  /** There are candidates exactly when some search was accepted. */
  lemma CandidatesEmpty(ivs: seq<Interval>, minimise: Minimiser, tMin: real, tMax: real, onFail: OnFail)
    requires Candidates(ivs, minimise, tMin, tMax, onFail).Ok?
    ensures |Candidates(ivs, minimise, tMin, tMax, onFail).value| > 0 <==> AnyAccepted(ivs, minimise, tMin, tMax)
  {
    var cs := Candidates(ivs, minimise, tMin, tMax, onFail).value;
    if |cs| > 0 {
      assert cs[0] in cs;
      var i :| 0 <= i < |ivs| && minimise(ivs[i]) == Found(cs[0].t, cs[0].v);
      assert Accepted(minimise(ivs[i]), tMin, tMax);
    }
    if AnyAccepted(ivs, minimise, tMin, tMax) {
      var i :| 0 <= i < |ivs| && Accepted(minimise(ivs[i]), tMin, tMax);
      assert Candidate(minimise(ivs[i]).x, minimise(ivs[i]).fun) in cs;
    }
  }

  /**
   * `solve`: search every sub-interval, then pick the best candidates;
   * with no candidate, FAIL raises and SKIP returns nothing. The result
   * lists, in search order, the parameters of the candidates whose goal
   * value is the least.
   */
  function Solve(tMin: real, tMax: real, samples: nat, minimise: Minimiser, onFail: OnFail): (r: Result<seq<real>, ExtremeError>)
    ensures var ivs := SubIntervals(tMin, tMax, samples);
      r == Err(SearchFailed) <==> onFail == Fail && AnyFailed(ivs, minimise)
    ensures var ivs := SubIntervals(tMin, tMax, samples);
      r == Err(NoCandidates) <==> onFail == Fail && !AnyFailed(ivs, minimise) && !AnyAccepted(ivs, minimise, tMin, tMax)
    ensures onFail == Skip ==> r.Ok?
    ensures r.Ok? ==> (|r.value| > 0 <==> AnyAccepted(SubIntervals(tMin, tMax, samples), minimise, tMin, tMax))
    ensures r.Ok? ==> forall t :: t in r.value ==> tMin <= t <= tMax
    ensures r.Ok? ==> var cs := Candidates(SubIntervals(tMin, tMax, samples), minimise, tMin, tMax, onFail).value;
      forall v :: IsMinimum(cs, v) ==> r.value == WithValue(cs, v)
    ensures r.Ok? ==> var cs := Candidates(SubIntervals(tMin, tMax, samples), minimise, tMin, tMax, onFail).value;
      forall t :: t in r.value <==> exists v :: Candidate(t, v) in cs && Least(cs, v)
  {
    var ivs := SubIntervals(tMin, tMax, samples);
    match Candidates(ivs, minimise, tMin, tMax, onFail)
    case Err(e) => Err(e)
    case Ok(cs) =>
      CandidatesEmpty(ivs, minimise, tMin, tMax, onFail);
      if |cs| == 0 then
        assert forall v :: !IsMinimum(cs, v);
        if onFail == Fail then Err(NoCandidates) else Ok([])
      else
        var ts := Select(cs);
        assert forall t :: t in ts ==> tMin <= t <= tMax by {
          forall t | t in ts ensures tMin <= t <= tMax {
            var v :| Candidate(t, v) in cs && Least(cs, v);
          }
        }
        Ok(ts)
  }

  /**
   * When every search succeeds inside the range and reports the goal at
   * its point, the result is non-empty and every returned parameter has
   * the least field value over all sub-interval results under MIN and the
   * greatest under MAX.
   */
  lemma ExtremeFieldFound(tMin: real, tMax: real, samples: nat, minimise: Minimiser, onFail: OnFail,
                          dir: Direction, field: Vec3 -> real, curve: real -> Vec3)
    requires samples >= 1
    requires forall iv :: minimise(iv).Found? && minimise(iv).fun == Goal(dir, field, curve, minimise(iv).x)
    requires forall iv :: tMin <= minimise(iv).x <= tMax
    ensures Solve(tMin, tMax, samples, minimise, onFail).Ok?
    ensures |Solve(tMin, tMax, samples, minimise, onFail).value| >= 1
    ensures dir == Min ==> forall t, i :: t in Solve(tMin, tMax, samples, minimise, onFail).value && 0 <= i < samples ==>
      field(curve(t)) <= field(curve(minimise(SubIntervals(tMin, tMax, samples)[i]).x))
    ensures dir == Max ==> forall t, i :: t in Solve(tMin, tMax, samples, minimise, onFail).value && 0 <= i < samples ==>
      field(curve(minimise(SubIntervals(tMin, tMax, samples)[i]).x)) <= field(curve(t))
  {
    var ivs := SubIntervals(tMin, tMax, samples);
    var cs := Candidates(ivs, minimise, tMin, tMax, onFail).value;
    assert Accepted(minimise(ivs[0]), tMin, tMax);
    assert |cs| > 0;
    var ts := Select(cs);
    assert Solve(tMin, tMax, samples, minimise, onFail) == Ok(ts);
    SelectedGoalLeast(ivs, minimise, tMin, tMax, onFail, dir, field, curve);
    forall t, i | t in ts && 0 <= i < samples
      ensures dir == Min ==> field(curve(t)) <= field(curve(minimise(ivs[i]).x))
      ensures dir == Max ==> field(curve(minimise(ivs[i]).x)) <= field(curve(t))
    {
      GoalOrder(dir, field, curve, t, minimise(ivs[i]).x);
    }
  }

  /**
   * With every search succeeding inside the range, each selected parameter
   * has a goal value no larger than that of any search result.
   */
  lemma SelectedGoalLeast(ivs: seq<Interval>, minimise: Minimiser, tMin: real, tMax: real, onFail: OnFail,
                          dir: Direction, field: Vec3 -> real, curve: real -> Vec3)
    requires forall iv :: minimise(iv).Found? && minimise(iv).fun == Goal(dir, field, curve, minimise(iv).x)
    requires forall iv :: tMin <= minimise(iv).x <= tMax
    requires Candidates(ivs, minimise, tMin, tMax, onFail).Ok? && |Candidates(ivs, minimise, tMin, tMax, onFail).value| > 0
    ensures var cs := Candidates(ivs, minimise, tMin, tMax, onFail).value;
      forall t, i :: t in Select(cs) && 0 <= i < |ivs| ==> Goal(dir, field, curve, t) <= Goal(dir, field, curve, minimise(ivs[i]).x)
  {
    var cs := Candidates(ivs, minimise, tMin, tMax, onFail).value;
    forall t, i | t in Select(cs) && 0 <= i < |ivs|
      ensures Goal(dir, field, curve, t) <= Goal(dir, field, curve, minimise(ivs[i]).x)
    {
      var v :| Candidate(t, v) in cs && Least(cs, v);
      var s := minimise(ivs[i]);
      assert Accepted(s, tMin, tMax);
      assert Candidate(s.x, s.fun) in cs;
      var j :| 0 <= j < |ivs| && minimise(ivs[j]) == Found(t, v);
      assert v == Goal(dir, field, curve, t);
    }
  }
}

=== FILE: curve_projection.dfy ===
/**
 * Orthogonal projection of a point onto a curve (`ortho_project_curve`,
 * utils/geom.py:39-74) and the nearest-candidate record built from its
 * roots (`CurveProjectionResult`, utils/geom.py:22-37).
 */
module CurveProjection {
  import opened Wrappers
  import opened Vectors
  import opened Sampling
  import opened GeomErrors

  /** A parametric curve as the kernel sees it: evaluation, tangent and parameter bounds. */
  datatype Curve = Curve(eval: real -> Vec3, tangent: real -> Vec3, uMin: real, uMax: real)

  /**
   * A bracketed scalar root finder (scipy's `root_scalar` with Ridder's
   * method): goal, bracket ends and starting point in, the root out, or
   * `None` when the library raises.
   */
  type RootFinder = (real -> real, real, real, real) -> Option<real>

  /** (source − curve(t)) · tangent(t): zero exactly at a foot of a normal. */
  function Goal(src: Vec3, c: Curve, t: real): real {
    Dot(Sub(src, c.eval(t)), c.tangent(t))
  }

  function GoalFn(src: Vec3, c: Curve): real -> real {
    t => Goal(src, c, t)
  }

  function Mid(b: Interval): real {
    (b.lo + b.hi) / 2.0
  }

  /** The `init_samples` evenly spaced parameters scanned for sign changes. */
  function SampleParams(c: Curve, samples: nat): seq<real> {
    Linspace(c.uMin, c.uMax, samples)
  }

  function SampleGoals(src: Vec3, c: Curve, samples: nat): (vals: seq<real>)
    ensures |vals| == samples
  {
    var us := SampleParams(c, samples);
    seq(|us|, k requires 0 <= k < |us| => Goal(src, c, us[k]))
  }

  /** The bracketing intervals of the goal over the sampled parameters. */
  function CurveBrackets(src: Vec3, c: Curve, samples: nat): seq<Interval> {
    Brackets(SampleParams(c, samples), SampleGoals(src, c, samples))
  }

  /**
   * One root per bracket, solved in bracket order from the bracket's
   * midpoint; the first solver failure aborts the whole scan.
   */
  function SolveBrackets(g: real -> real, bs: seq<Interval>, solve: RootFinder): (r: Result<seq<real>, GeomError>)
    ensures r.Ok? <==> forall k :: 0 <= k < |bs| ==> solve(g, bs[k].lo, bs[k].hi, Mid(bs[k])).Some?
    ensures r.Err? ==> r.error == RootFailed
    ensures r.Ok? ==> |r.value| == |bs|
    ensures r.Ok? ==> forall k :: 0 <= k < |bs| ==> solve(g, bs[k].lo, bs[k].hi, Mid(bs[k])) == Some(r.value[k])
  {
    if |bs| == 0 then Ok([])
    else
      match solve(g, bs[0].lo, bs[0].hi, Mid(bs[0]))
      case None => Err(RootFailed)
      case Some(u) =>
        var rest := SolveBrackets(g, bs[1..], solve);
        assert forall k :: 1 <= k < |bs| ==> bs[k] == bs[1..][k - 1];
        if rest.Err? then Err(rest.error) else Ok([u] + rest.value)
  }

  /**
   * The nearest of a non-empty set of candidate points (`KDTree.find`):
   * no candidate is strictly closer to the source. The tree may break
   * ties either way; this model keeps the earliest minimiser.
   */
  function NearestIndex(points: seq<Vec3>, src: Vec3): (i: nat)
    requires |points| > 0
    ensures i < |points|
    ensures forall j :: 0 <= j < |points| ==> DistSq(points[i], src) <= DistSq(points[j], src)
  {
    if |points| == 1 then 0
    else
      var last := |points| - 1;
      var k := NearestIndex(points[..last], src);
      assert forall j :: 0 <= j < last ==> points[..last][j] == points[j];
      if DistSq(points[last], src) < DistSq(points[k], src) then last else k
  }

  /** `CurveProjectionResult`: all roots, their points, and the nearest one. */
  datatype Projection = Projection(us: seq<real>, points: seq<Vec3>, nearestIdx: nat, nearest: Vec3, nearestU: real)

  /**
   * `p` is the projection record of `src` on `c` for the roots `us`:
   * one curve point per root, and the nearest candidate with its index,
   * point and parameter.
   */
  ghost predicate IsProjection(src: Vec3, c: Curve, us: seq<real>, p: Projection) {
    && p.us == us
    && |p.points| == |us|
    && (forall k :: 0 <= k < |us| ==> p.points[k] == c.eval(us[k]))
    && p.nearestIdx < |us|
    && p.nearest == p.points[p.nearestIdx]
    && p.nearestU == us[p.nearestIdx]
    && (forall k :: 0 <= k < |us| ==> DistSq(p.nearest, src) <= DistSq(p.points[k], src))
  }

  /**
   * `ortho_project_curve`: raises `NoProjection` exactly when no sampled
   * interval brackets a sign change; otherwise every bracket yields
   * exactly one root (or the solver's failure), and the record's nearest
   * point lies on the curve at the nearest parameter.
   */
  function OrthoProjectCurve(src: Vec3, c: Curve, samples: nat, solve: RootFinder): (r: Result<Projection, GeomError>)
    ensures r == Err(NoProjection) <==> |CurveBrackets(src, c, samples)| == 0
    ensures r.Err? ==> r.error == NoProjection || r.error == RootFailed
    ensures r.Ok? ==>
              var bs := CurveBrackets(src, c, samples);
              && |r.value.us| == |bs| > 0
              && (forall k :: 0 <= k < |bs| ==> solve(GoalFn(src, c), bs[k].lo, bs[k].hi, Mid(bs[k])) == Some(r.value.us[k]))
              && IsProjection(src, c, r.value.us, r.value)
    ensures r.Ok? ==> r.value.nearest == c.eval(r.value.nearestU)
  {
    var bs := CurveBrackets(src, c, samples);
    var roots := SolveBrackets(GoalFn(src, c), bs, solve);
    if roots.Err? then Err(roots.error)
    else if |roots.value| == 0 then Err(NoProjection)
    else
      var us := roots.value;
      var points := seq(|us|, k requires 0 <= k < |us| => c.eval(us[k]));
      var i := NearestIndex(points, src);
      Ok(Projection(us, points, i, points[i], us[i]))
  }
}

=== FILE: geom_errors.dfy ===
/**
 * The exceptions raised by the projection and intersection kernel
 * (utils/geom.py), one constructor per distinct `raise`.
 */
module GeomErrors {

  datatype GeomError =
    | NoProjection        // no sign change of the orthogonality goal was sampled
    | RootFailed          // the bracketed scalar root finder raised
    | NoConvergence       // alternating surface projection ran out of iterations
    | NoBvh               // raycast before `init_bvh`
    | ZeroSamples         // `init_bvh` with no samples divides by zero in the face-centre offset
    | NoInitialGuess      // a ray missed the coarse mesh under the `fail` policy
    | InvalidPolicy       // a ray missed and the policy is not skip/fail/none
    | RefinementFailed    // the 3-unknown system solver did not converge
    | NoInitialRaycast    // curve–surface: neither endpoint ray hit the surface
    | RaycastMissed       // curve–surface: both tangent directions missed
    | MaxIterations       // curve–surface / curve–plane round budget exceeded
    | NoInitialPoint      // curve–plane: neither endpoint tangent meets the plane
    | LineMissesPlane     // curve–plane: a refining tangent line misses the plane
}

=== FILE: intersections.dfy ===
/**
 * Curve–surface, curve–plane and surface–plane intersection by
 * alternating between an orthogonal projection onto the curve and a
 * straight step along the curve's tangent (utils/geom.py:262-396 and
 * utils/geom.py:436-457). Only the retry order, the round budget, the
 * exits and the result counts are modelled.
 */
module Intersections {
  import opened Wrappers
  import opened Vectors
  import opened Sampling
  import opened GeomErrors
  import opened CurveProjection
  import opened SurfaceProjection
  import opened Raycaster
  import opened Seqs

  // ---------------------------------------------------------------------
  // Curve–surface (`intersect_curve_surface`)
  // ---------------------------------------------------------------------

  /** `sign * tangent` for the integer direction sign ±1. */
  function Signed(sign: int, t: Vec3): Vec3 {
    Scale(sign as real, t)
  }

  /** Some parameter pair of the surface evaluates to `q`. */
  ghost predicate OnSurface(q: Vec3, s: Surface) {
    exists u, v :: q == s.eval(u, v)
  }

  /**
   * A single precise raycast with `calc_points` and the `none` policy:
   * `None` exactly when the BVH misses the ray, and otherwise the surface
   * point at the refined (u, v) of that ray.
   */
  function CastOne(rc: SurfaceRaycaster, p: Vec3, d: Vec3, solve: RaySolver): (r: Result<Option<Vec3>, GeomError>)
    requires HitsKnownFaces(rc) && rc.index.Some?
    ensures r.Err? ==> r.error == RefinementFailed
    ensures r == Ok(None) <==> rc.index.value.bvh(p, d).None?
    ensures r.Ok? && r.value.Some? ==>
              var idx := rc.index.value;
              && idx.bvh(p, d).Some?
              && var h := GuessOf(idx.faces, idx.bvh(p, d).value);
              && solve(p, d, h).Some?
              && r.value.value == rc.surface.eval(solve(p, d, h).value.0, solve(p, d, h).value.1)
    ensures r.Ok? && r.value.Some? ==> OnSurface(r.value.value, rc.surface)
  {
    var g := Guesses(rc.index.value, [p], [d]);
    assert |g.entries| == 1;
    var hits := HitIndices(g.entries, 0);
    assert g.entries[0].Some? ==> 0 in hits;
    var res :- Raycast(rc, [p], [d], true, true, ReturnNone, solve);
    match res
    case None => Ok(None)
    case Some(o) =>
      assert !MissFrom(g.entries, 0);
      assert 0 in hits;
      assert hits[0] < |g.entries|;
      Ok(Some(o.points[0]))
  }

  /**
   * What the curve–surface loop sees of the raycaster: one precise
   * single-ray cast from a point along a direction.
   */
  type Caster = (Vec3, Vec3) -> Result<Option<Vec3>, GeomError>

  /** The single-ray casts of an initialised raycaster. */
  function CasterOf(rc: SurfaceRaycaster, solve: RaySolver): (cast: Caster)
    requires HitsKnownFaces(rc) && rc.index.Some?
    ensures forall p, d :: cast(p, d) == CastOne(rc, p, d, solve)
  {
    (p, d) => CastOne(rc, p, d, solve)
  }

  /** Every hit of the casts lies on the surface; the casts fail only in refinement. */
  ghost predicate CastsOnto(cast: Caster, s: Surface) {
    forall p, d :: (cast(p, d).Err? ==> cast(p, d).error == RefinementFailed)
                   && (cast(p, d).Ok? && cast(p, d).value.Some? ==> OnSurface(cast(p, d).value.value, s))
  }

  /** An initialised raycaster's casts hit its own surface. */
  lemma CasterOfCastsOnto(rc: SurfaceRaycaster, solve: RaySolver)
    requires HitsKnownFaces(rc) && rc.index.Some?
    ensures CastsOnto(CasterOf(rc, solve), rc.surface)
  {
    var cast := CasterOf(rc, solve);
    forall p, d ensures (cast(p, d).Err? ==> cast(p, d).error == RefinementFailed)
                        && (cast(p, d).Ok? && cast(p, d).value.Some? ==> OnSurface(cast(p, d).value.value, rc.surface)) {
      assert cast(p, d) == CastOne(rc, p, d, solve);
    }
  }

  /**
   * `do_raycast`: cast along `sign * tangent`, and when that misses cast
   * once more along the opposite direction, reporting the flipped sign.
   */
  function DoRaycast(cast: Caster, p: Vec3, t: Vec3, sign: int): (r: Result<(int, Option<Vec3>), GeomError>)
    ensures r.Err? ==> cast(p, Signed(sign, t)) == Err(r.error) || cast(p, Signed(-sign, t)) == Err(r.error)
    ensures r.Ok? ==> r.value.0 == sign || r.value.0 == -sign
    ensures r.Ok? && r.value.0 == sign && sign != 0 ==> cast(p, Signed(sign, t)) == Ok(r.value.1) && r.value.1.Some?
    ensures r.Ok? && r.value.0 != sign ==>
              cast(p, Signed(sign, t)) == Ok(None) && cast(p, Signed(-sign, t)) == Ok(r.value.1)
  {
    var first :- cast(p, Signed(sign, t));
    if first.None? then
      var second :- cast(p, Signed(-sign, t));
      Ok((-sign, second))
    else Ok((sign, first))
  }

  /**
   * The nearest orthogonal projection of `src` onto the curve, as its
   * parameter and its point, which is the curve at that parameter.
   */
  function NearestOnCurve(src: Vec3, c: Curve, samples: nat, solve: RootFinder): (r: Result<(real, Vec3), GeomError>)
    ensures r.Err? ==> r.error == NoProjection || r.error == RootFailed
    ensures r.Ok? ==> r.value.1 == c.eval(r.value.0)
  {
    var p :- OrthoProjectCurve(src, c, samples, solve);
    Ok((p.nearestU, p.nearest))
  }

  /** What the alternating loops see of `ortho_project_curve`: the nearest projection of a point. */
  type Projector = Vec3 -> Result<(real, Vec3), GeomError>

  /** The projections land on the curve, and fail only for want of a root. */
  ghost predicate ProjectsOnto(project: Projector, c: Curve) {
    forall p :: (project(p).Err? ==> project(p).error == NoProjection || project(p).error == RootFailed)
                && (project(p).Ok? ==> project(p).value.1 == c.eval(project(p).value.0))
  }

  /** The nearest projections onto `c` with a given sample count and root finder. */
  function ProjectorOf(c: Curve, samples: nat, solve: RootFinder): (project: Projector)
    ensures forall p :: project(p) == NearestOnCurve(p, c, samples, solve)
  {
    p => NearestOnCurve(p, c, samples, solve)
  }

  /** `ortho_project_curve` projects onto its own curve. */
  lemma ProjectorOfProjectsOnto(c: Curve, samples: nat, solve: RootFinder)
    ensures ProjectsOnto(ProjectorOf(c, samples, solve), c)
  {
    var project := ProjectorOf(c, samples, solve);
    forall p ensures (project(p).Err? ==> project(p).error == NoProjection || project(p).error == RootFailed)
                     && (project(p).Ok? ==> project(p).value.1 == c.eval(project(p).value.0)) {
      assert project(p) == NearestOnCurve(p, c, samples, solve);
    }
  }

  /**
   * The raycast half of a round: `do_raycast` along the tangent, raising
   * when both directions miss; a hit lies on the surface.
   */
  function TangentStep(cast: Caster, s: Surface, point: Vec3, t: Vec3, sign: int): (r: Result<(int, Vec3), GeomError>)
    requires CastsOnto(cast, s)
    ensures r.Err? ==> r.error == RefinementFailed || r.error == RaycastMissed
    ensures r.Err? && r.error == RaycastMissed <==> DoRaycast(cast, point, t, sign) == Ok((-sign, None))
    ensures r.Ok? ==> DoRaycast(cast, point, t, sign) == Ok((r.value.0, Some(r.value.1)))
    ensures r.Ok? ==> OnSurface(r.value.1, s)
  {
    match DoRaycast(cast, point, t, sign)
    case Err(e) =>
      assert cast(point, Signed(sign, t)) == Err(e) || cast(point, Signed(-sign, t)) == Err(e);
      Err(e)
    case Ok((sign', hit)) =>
      if hit.None? then Err(RaycastMissed)
      else
        assert OnSurface(hit.value, s) by {
          assert cast(point, Signed(sign', t)) == Ok(hit);
        }
        Ok((sign', hit.value))
  }

  /** The surface's point at some parameter pair, or the curve's point at some parameter. */
  ghost predicate OnCurveOrSurface(q: Vec3, c: Curve, s: Surface) {
    (exists u :: q == c.eval(u)) || OnSurface(q, s)
  }

  /** The outcome of the alternating loop and how many rounds it started. */
  datatype Rounds = Rounds(outcome: Result<Vec3, GeomError>, rounds: nat)

  /**
   * Round `i` (counted from 1) of the curve–surface loop: raise once the
   * round number exceeds `maxiter`; project the last point onto the
   * curve and stop if it moved less than `tol`; otherwise cast along the
   * curve's tangent there (retrying backwards), raise if both directions
   * miss, stop if the hit moved less than `tol`, else go round again.
   */
  function CurveSurfaceLoop(c: Curve, s: Surface, cast: Caster, project: Projector, tol: real, maxiter: int,
                            i: nat, sign: int, prevPoint: Vec3): (run: Rounds)
    requires CastsOnto(cast, s) && ProjectsOnto(project, c)
    requires i >= 1
    decreases Budget(maxiter, i)
    ensures run.rounds <= Budget(maxiter, i)
    ensures run.outcome == Err(MaxIterations) ==> run.rounds == Budget(maxiter, i)
    ensures run.outcome.Err? ==> run.outcome.error in {MaxIterations, NoProjection, RootFailed, RefinementFailed, RaycastMissed}
    ensures run.outcome.Ok? ==> OnCurveOrSurface(run.outcome.value, c, s)
  {
    if i > maxiter then Rounds(Err(MaxIterations), 0)
    else
      match project(prevPoint)
      case Err(e) => Rounds(Err(e), 1)
      case Ok((u, point)) =>
        if Near(point, prevPoint, tol) then Rounds(Ok(point), 1)
        else
          match TangentStep(cast, s, point, c.tangent(u), sign)
          case Err(e) => Rounds(Err(e), 1)
          case Ok((sign', q)) =>
            if Near(q, point, tol) then Rounds(Ok(q), 1)
            else
              var rest := CurveSurfaceLoop(c, s, cast, project, tol, maxiter, i + 1, sign', q);
              Rounds(rest.outcome, rest.rounds + 1)
  }

  /** Where the loop starts: the hit point and the sign of the first ray that hit. */
  datatype Start = Start(sign: int, point: Vec3)

  /**
   * The first raycast: from curve(u_min) along its tangent, and when that
   * misses, from curve(u_max) along the reversed tangent there; `None`
   * when both miss.
   */
  function InitialCast(c: Curve, cast: Caster): (r: Result<Option<Start>, GeomError>)
    ensures r.Err? ==>
              cast(c.eval(c.uMin), Signed(1, c.tangent(c.uMin))) == Err(r.error)
              || cast(c.eval(c.uMax), Signed(-1, c.tangent(c.uMax))) == Err(r.error)
    ensures r == Ok(None) <==>
              cast(c.eval(c.uMin), Signed(1, c.tangent(c.uMin))) == Ok(None)
              && cast(c.eval(c.uMax), Signed(-1, c.tangent(c.uMax))) == Ok(None)
    ensures r.Ok? && r.value.Some? ==> r.value.value.sign == 1 || r.value.value.sign == -1
    ensures r.Ok? && r.value.Some? && r.value.value.sign == 1 ==>
              cast(c.eval(c.uMin), Signed(1, c.tangent(c.uMin))) == Ok(Some(r.value.value.point))
    ensures r.Ok? && r.value.Some? && r.value.value.sign == -1 ==>
              && cast(c.eval(c.uMin), Signed(1, c.tangent(c.uMin))) == Ok(None)
              && cast(c.eval(c.uMax), Signed(-1, c.tangent(c.uMax))) == Ok(Some(r.value.value.point))
  {
    var first :- cast(c.eval(c.uMin), Signed(1, c.tangent(c.uMin)));
    if first.Some? then Ok(Some(Start(1, first.value)))
    else
      var second :- cast(c.eval(c.uMax), Signed(-1, c.tangent(c.uMax)));
      if second.Some? then Ok(Some(Start(-1, second.value))) else Ok(None)
  }

  /**
   * `intersect_curve_surface`: build the raycaster, find the first hit
   * (start forwards, then end backwards), raise if there is none, and
   * run at most `maxiter` rounds of the alternating loop; the answer lies
   * on the curve or on the surface.
   */
  function IntersectCurveSurface(c: Curve, s: Surface, raycastSamples: nat, bvh: Bvh, orthoSamples: nat, tol: real,
                                 maxiter: int, rootSolve: RootFinder, raySolve: RaySolver): (run: Rounds)
    requires HitsBelow(bvh, (raycastSamples - 1) * (raycastSamples - 1))
    ensures run.outcome == Err(ZeroSamples) <==> raycastSamples == 0
    ensures run.rounds <= Budget(maxiter, 1)
    ensures run.outcome == Err(MaxIterations) ==> run.rounds == Budget(maxiter, 1)
    ensures run.outcome == Err(NoInitialRaycast) ==> run.rounds == 0
    ensures run.outcome.Ok? ==> OnCurveOrSurface(run.outcome.value, c, s)
  {
    match InitBvh(NewRaycaster(s), raycastSamples, bvh)
    case Err(e) => Rounds(Err(e), 0)
    case Ok(rc) =>
      InitBvhKnowsFaces(NewRaycaster(s), raycastSamples, bvh);
      var cast := CasterOf(rc, raySolve);
      CasterOfCastsOnto(rc, raySolve);
      match InitialCast(c, cast)
      case Err(e) =>
        assert e == RefinementFailed;
        Rounds(Err(e), 0)
      case Ok(None) => Rounds(Err(NoInitialRaycast), 0)
      case Ok(Some(start)) =>
        ProjectorOfProjectsOnto(c, orthoSamples, rootSolve);
        CurveSurfaceLoop(c, s, cast, ProjectorOf(c, orthoSamples, rootSolve), tol, maxiter, 1, start.sign, start.point)
  }

  /** When the BVH misses both initial rays, the intersection raises. */
  lemma NoStartRaises(c: Curve, s: Surface, raycastSamples: nat, bvh: Bvh, orthoSamples: nat, tol: real,
                      maxiter: int, rootSolve: RootFinder, raySolve: RaySolver)
    requires HitsBelow(bvh, (raycastSamples - 1) * (raycastSamples - 1))
    requires raycastSamples > 0
    requires bvh(c.eval(c.uMin), Signed(1, c.tangent(c.uMin))).None?
    requires bvh(c.eval(c.uMax), Signed(-1, c.tangent(c.uMax))).None?
    ensures IntersectCurveSurface(c, s, raycastSamples, bvh, orthoSamples, tol, maxiter, rootSolve, raySolve).outcome
              == Err(NoInitialRaycast)
  {
    var rc := InitBvh(NewRaycaster(s), raycastSamples, bvh).value;
    InitBvhKnowsFaces(NewRaycaster(s), raycastSamples, bvh);
    var cast := CasterOf(rc, raySolve);
    assert cast(c.eval(c.uMin), Signed(1, c.tangent(c.uMin))) == Ok(None);
    assert cast(c.eval(c.uMax), Signed(-1, c.tangent(c.uMax))) == Ok(None);
    assert InitialCast(c, cast) == Ok(None);
  }

  // ---------------------------------------------------------------------
  // Curve–plane (`intersect_curve_plane`)
  // ---------------------------------------------------------------------

  /**
   * A plane as the kernel uses it: which side of it a point lies on
   * (`side_of_points`, signed) and where the line through a point along
   * a direction meets it (`intersect_with_line`; `None` when parallel).
   * The unit-length scaling of the direction happens inside `meet`.
   */
  datatype Plane = Plane(side: Vec3 -> real, meet: (Vec3, Vec3) -> Option<Vec3>)

  /** Where the tangent line of the curve at `u` meets the plane. */
  function TangentMeet(c: Curve, pl: Plane, u: real): Option<Vec3> {
    pl.meet(c.tangent(u), c.eval(u))
  }

  /** `p` is where the tangent line of the curve at some parameter meets the plane. */
  ghost predicate IsTangentMeet(c: Curve, pl: Plane, p: Vec3) {
    exists v :: TangentMeet(c, pl, v) == Some(p)
  }

  /**
   * What a converged curve–plane run returns: a curve point within the
   * tolerance of some tangent line's meeting point with the plane, or
   * such a meeting point within the tolerance of some curve point.
   */
  ghost predicate PlaneSolution(c: Curve, pl: Plane, tol: real, p: Vec3) {
    exists u, v :: TangentMeet(c, pl, v).Some? &&
      ((p == c.eval(u) && Near(p, TangentMeet(c, pl, v).value, tol)) ||
       (p == TangentMeet(c, pl, v).value && Near(p, c.eval(u), tol)))
  }

  /** The plane side of every sampled curve point. */
  function SampleSides(c: Curve, pl: Plane, samples: nat): (vals: seq<real>)
    ensures |vals| == samples
    ensures forall i :: 0 <= i < samples ==> vals[i] == pl.side(c.eval(Linspace(c.uMin, c.uMax, samples)[i]))
  {
    var us := Linspace(c.uMin, c.uMax, samples);
    seq(|us|, k requires 0 <= k < |us| => pl.side(c.eval(us[k])))
  }

  /** The parameter intervals whose end points lie strictly on opposite sides. */
  function PlaneBrackets(c: Curve, pl: Plane, samples: nat): seq<Interval> {
    Brackets(Linspace(c.uMin, c.uMax, samples), SampleSides(c, pl, samples))
  }

  /**
   * The starting point for one bracket: the tangent line at its lower
   * end, else at its upper end, meets the plane; raise if neither does.
   */
  function PlaneStart(c: Curve, pl: Plane, b: Interval): (r: Result<Vec3, GeomError>)
    ensures r.Err? <==> TangentMeet(c, pl, b.lo).None? && TangentMeet(c, pl, b.hi).None?
    ensures r.Err? ==> r.error == NoInitialPoint
    ensures r.Ok? ==> Some(r.value) == TangentMeet(c, pl, b.lo) || Some(r.value) == TangentMeet(c, pl, b.hi)
    ensures TangentMeet(c, pl, b.lo).Some? ==> r == Ok(TangentMeet(c, pl, b.lo).value)
  {
    match TangentMeet(c, pl, b.lo)
    case Some(p) => Ok(p)
    case None =>
      match TangentMeet(c, pl, b.hi)
      case Some(p) => Ok(p)
      case None => Err(NoInitialPoint)
  }

  /**
   * Round `i` of the curve–plane loop: as for the surface, with the
   * tangent line's meeting point with the plane in place of the raycast.
   */
  function CurvePlaneLoop(c: Curve, pl: Plane, project: Projector, tol: real, maxiter: int,
                          i: nat, prevPoint: Vec3): (run: Rounds)
    requires ProjectsOnto(project, c)
    requires i >= 1
    decreases Budget(maxiter, i)
    ensures run.rounds <= Budget(maxiter, i)
    ensures run.outcome == Err(MaxIterations) ==> run.rounds == Budget(maxiter, i)
    ensures run.outcome.Err? ==> run.outcome.error in {MaxIterations, NoProjection, RootFailed, LineMissesPlane}
    ensures run.outcome.Ok? && IsTangentMeet(c, pl, prevPoint) ==> PlaneSolution(c, pl, tol, run.outcome.value)
  {
    if i > maxiter then Rounds(Err(MaxIterations), 0)
    else
      match project(prevPoint)
      case Err(e) => Rounds(Err(e), 1)
      case Ok((u, point)) =>
        if Near(point, prevPoint, tol) then
          assert IsTangentMeet(c, pl, prevPoint) ==> PlaneSolution(c, pl, tol, point) by {
            if IsTangentMeet(c, pl, prevPoint) {
              var v :| TangentMeet(c, pl, v) == Some(prevPoint);
              assert point == c.eval(u);
            }
          }
          Rounds(Ok(point), 1)
        else
          match TangentMeet(c, pl, u)
          case None => Rounds(Err(LineMissesPlane), 1)
          case Some(q) =>
            if Near(q, point, tol) then
              assert PlaneSolution(c, pl, tol, q) by {
                assert point == c.eval(u);
              }
              Rounds(Ok(q), 1)
            else
              var rest := CurvePlaneLoop(c, pl, project, tol, maxiter, i + 1, q);
              Rounds(rest.outcome, rest.rounds + 1)
  }

  /** The solution started from one bracket. */
  function SolveBracket(c: Curve, pl: Plane, b: Interval, orthoSamples: nat, tol: real, maxiter: int,
                        rootSolve: RootFinder): (r: Result<Vec3, GeomError>)
    ensures r.Err? ==> r.error in {NoInitialPoint, MaxIterations, NoProjection, RootFailed, LineMissesPlane}
    ensures r.Err? && r.error == NoInitialPoint <==> TangentMeet(c, pl, b.lo).None? && TangentMeet(c, pl, b.hi).None?
    ensures r.Ok? ==> PlaneSolution(c, pl, tol, r.value)
  {
    var start :- PlaneStart(c, pl, b);
    assert IsTangentMeet(c, pl, start) by {
      if TangentMeet(c, pl, b.lo) != Some(start) {
        assert TangentMeet(c, pl, b.hi) == Some(start);
      }
    }
    ProjectorOfProjectsOnto(c, orthoSamples, rootSolve);
    CurvePlaneLoop(c, pl, ProjectorOf(c, orthoSamples, rootSolve), tol, maxiter, 1, start).outcome
  }

  /**
   * One solution per bracket, in bracket order; the first failure aborts.
   * `solve` stands for the per-bracket solution.
   */
  function SolveEach(bs: seq<Interval>, solve: Interval -> Result<Vec3, GeomError>): (r: Result<seq<Vec3>, GeomError>)
    ensures r.Ok? <==> forall k :: 0 <= k < |bs| ==> solve(bs[k]).Ok?
    ensures r.Ok? ==> |r.value| == |bs| && forall k :: 0 <= k < |bs| ==> solve(bs[k]) == Ok(r.value[k])
    ensures r.Err? ==> exists k :: 0 <= k < |bs| && solve(bs[k]) == Err(r.error) &&
                                   forall j :: 0 <= j < k ==> solve(bs[j]).Ok?
  {
    if |bs| == 0 then Ok([])
    else
      var first :- solve(bs[0]);
      var rest := SolveEach(bs[1..], solve);
      assert forall k :: 1 <= k < |bs| ==> bs[k] == bs[1..][k - 1];
      if rest.Err? then
        ghost var k :| 0 <= k < |bs[1..]| && solve(bs[1..][k]) == Err(rest.error) &&
                       forall j :: 0 <= j < k ==> solve(bs[1..][j]).Ok?;
        assert solve(bs[k + 1]) == Err(rest.error);
        assert forall j :: 0 <= j < k + 1 ==> solve(bs[j]).Ok?;
        Err(rest.error)
      else Ok([first] + rest.value)
  }

  /**
   * `intersect_curve_plane`: `[]` when no sampled interval changes side;
   * otherwise exactly one solution per bracket, in bracket order, or the
   * error of the first bracket whose solve fails.
   */
  function IntersectCurvePlane(c: Curve, pl: Plane, samples: nat, orthoSamples: nat, tol: real, maxiter: int,
                               rootSolve: RootFinder): (r: Result<seq<Vec3>, GeomError>)
    ensures |PlaneBrackets(c, pl, samples)| == 0 ==> r == Ok([])
    ensures r.Ok? ==> |r.value| == |PlaneBrackets(c, pl, samples)|
    ensures r.Ok? ==>
              var bs := PlaneBrackets(c, pl, samples);
              forall k :: 0 <= k < |bs| ==> SolveBracket(c, pl, bs[k], orthoSamples, tol, maxiter, rootSolve) == Ok(r.value[k])
    ensures r.Ok? <==>
              var bs := PlaneBrackets(c, pl, samples);
              forall k :: 0 <= k < |bs| ==> SolveBracket(c, pl, bs[k], orthoSamples, tol, maxiter, rootSolve).Ok?
    ensures r.Err? ==>
              var bs := PlaneBrackets(c, pl, samples);
              exists k :: 0 <= k < |bs| && SolveBracket(c, pl, bs[k], orthoSamples, tol, maxiter, rootSolve) == Err(r.error) &&
                          forall j :: 0 <= j < k ==> SolveBracket(c, pl, bs[j], orthoSamples, tol, maxiter, rootSolve).Ok?
    ensures r.Ok? ==> forall k :: 0 <= k < |r.value| ==> PlaneSolution(c, pl, tol, r.value[k])
    ensures r.Err? ==> r.error in {NoInitialPoint, MaxIterations, NoProjection, RootFailed, LineMissesPlane}
  {
    var bs := PlaneBrackets(c, pl, samples);
    if |bs| == 0 then Ok([])
    else
      var r := SolveEach(bs, b => SolveBracket(c, pl, b, orthoSamples, tol, maxiter, rootSolve));
      r
  }

  // ---------------------------------------------------------------------
  // Surface–plane through iso-curves (`intersect_surface_plane_uv`)
  // ---------------------------------------------------------------------

  /** The U iso-curves at the sampled u, then the V iso-curves at the sampled v. */
  function IsoCurves(s: Surface, samplesU: nat, samplesV: nat): (cs: seq<Curve>)
    ensures |cs| == samplesU + samplesV
    ensures forall k :: 0 <= k < samplesU ==> cs[k] == IsoCurve(s, U, Linspace(s.uMin, s.uMax, samplesU)[k])
    ensures forall k :: 0 <= k < samplesV ==> cs[samplesU + k] == IsoCurve(s, V, Linspace(s.vMin, s.vMax, samplesV)[k])
  {
    var us := Linspace(s.uMin, s.uMax, samplesU);
    var vs := Linspace(s.vMin, s.vMax, samplesV);
    seq(|us|, k requires 0 <= k < |us| => IsoCurve(s, U, us[k])) + seq(|vs|, k requires 0 <= k < |vs| => IsoCurve(s, V, vs[k]))
  }

  /** How many brackets the curves have altogether. */
  function TotalBrackets(cs: seq<Curve>, pl: Plane, samples: nat): nat {
    if |cs| == 0 then 0 else |PlaneBrackets(cs[0], pl, samples)| + TotalBrackets(cs[1..], pl, samples)
  }

  /**
   * The curves' plane intersections concatenated in curve order: the
   * first curve's solutions come first, the count is the total number of
   * brackets, and the first failing curve's error is passed on.
   */
  function ConcatIntersections(cs: seq<Curve>, pl: Plane, samples: nat, orthoSamples: nat, tol: real, maxiter: int,
                               rootSolve: RootFinder): (r: Result<seq<Vec3>, GeomError>)
    ensures r.Ok? <==> forall k :: 0 <= k < |cs| ==> IntersectCurvePlane(cs[k], pl, samples, orthoSamples, tol, maxiter, rootSolve).Ok?
    ensures r.Ok? ==> |r.value| == TotalBrackets(cs, pl, samples)
    ensures r.Ok? && |cs| > 0 ==>
              var head := IntersectCurvePlane(cs[0], pl, samples, orthoSamples, tol, maxiter, rootSolve).value;
              |head| <= |r.value| && r.value[..|head|] == head
  {
    if |cs| == 0 then Ok([])
    else
      var head :- IntersectCurvePlane(cs[0], pl, samples, orthoSamples, tol, maxiter, rootSolve);
      var rest := ConcatIntersections(cs[1..], pl, samples, orthoSamples, tol, maxiter, rootSolve);
      assert forall k :: 1 <= k < |cs| ==> cs[k] == cs[1..][k - 1];
      if rest.Err? then Err(rest.error)
      else
        assert (head + rest.value)[..|head|] == head;
        Ok(head + rest.value)
  }

  /** One curve's outcome put in front of the outcome of the curves after it. */
  function Prepend(h: Result<seq<Vec3>, GeomError>, rest: Result<seq<Vec3>, GeomError>): Result<seq<Vec3>, GeomError> {
    if h.Err? then Err(h.error) else if rest.Err? then Err(rest.error) else Ok(h.value + rest.value)
  }

  lemma PrependAppend(h: Result<seq<Vec3>, GeomError>, rest: Result<seq<Vec3>, GeomError>,
                      restA: Result<seq<Vec3>, GeomError>, rb: Result<seq<Vec3>, GeomError>)
    requires rest.Ok? <==> restA.Ok? && rb.Ok?
    requires rest.Ok? ==> rest.value == restA.value + rb.value
    ensures Prepend(h, rest).Ok? <==> Prepend(h, restA).Ok? && rb.Ok?
    ensures Prepend(h, rest).Ok? ==> Prepend(h, rest).value == Prepend(h, restA).value + rb.value
  {
  }

  /**
   * Concatenating the curve lists concatenates their intersections, and
   * the whole succeeds exactly when both parts do.
   */
  lemma {:induction false} ConcatIntersectionsAppend(a: seq<Curve>, b: seq<Curve>, pl: Plane, samples: nat, orthoSamples: nat,
                                                     tol: real, maxiter: int, rootSolve: RootFinder)
    ensures var r := ConcatIntersections(a + b, pl, samples, orthoSamples, tol, maxiter, rootSolve);
      var ra := ConcatIntersections(a, pl, samples, orthoSamples, tol, maxiter, rootSolve);
      var rb := ConcatIntersections(b, pl, samples, orthoSamples, tol, maxiter, rootSolve);
      && (r.Ok? <==> ra.Ok? && rb.Ok?)
      && (r.Ok? ==> r.value == ra.value + rb.value)
    decreases |a|
  {
    if |a| > 0 {
      ConcatIntersectionsAppend(a[1..], b, pl, samples, orthoSamples, tol, maxiter, rootSolve);
      SplitHead(a, b);
      var h := IntersectCurvePlane(a[0], pl, samples, orthoSamples, tol, maxiter, rootSolve);
      var r := ConcatIntersections(a + b, pl, samples, orthoSamples, tol, maxiter, rootSolve);
      var ra := ConcatIntersections(a, pl, samples, orthoSamples, tol, maxiter, rootSolve);
      var rest := ConcatIntersections(a[1..] + b, pl, samples, orthoSamples, tol, maxiter, rootSolve);
      var resta := ConcatIntersections(a[1..], pl, samples, orthoSamples, tol, maxiter, rootSolve);
      assert r == Prepend(h, rest);
      assert ra == Prepend(h, resta);
      PrependAppend(h, rest, resta, ConcatIntersections(b, pl, samples, orthoSamples, tol, maxiter, rootSolve));
    } else {
      assert a + b == b;
    }
  }

  /**
   * `intersect_surface_plane_uv`: the plane intersections of all U
   * iso-curves, then of all V iso-curves, one solution per bracket.
   */
  function IntersectSurfacePlaneUV(s: Surface, pl: Plane, samplesU: nat, samplesV: nat, samples: nat, orthoSamples: nat,
                                   tol: real, maxiter: int, rootSolve: RootFinder): (r: Result<seq<Vec3>, GeomError>)
    ensures r.Ok? ==> |r.value| == TotalBrackets(IsoCurves(s, samplesU, samplesV), pl, samples)
    ensures r.Ok? <==>
              var cs := IsoCurves(s, samplesU, samplesV);
              forall k :: 0 <= k < |cs| ==> IntersectCurvePlane(cs[k], pl, samples, orthoSamples, tol, maxiter, rootSolve).Ok?
    ensures r.Ok? ==>
              var cs := IsoCurves(s, samplesU, samplesV);
              var ru := ConcatIntersections(cs[..samplesU], pl, samples, orthoSamples, tol, maxiter, rootSolve);
              var rv := ConcatIntersections(cs[samplesU..], pl, samples, orthoSamples, tol, maxiter, rootSolve);
              ru.Ok? && rv.Ok? && r.value == ru.value + rv.value
  {
    var cs := IsoCurves(s, samplesU, samplesV);
    ConcatIntersectionsAppend(cs[..samplesU], cs[samplesU..], pl, samples, orthoSamples, tol, maxiter, rootSolve);
    assert cs[..samplesU] + cs[samplesU..] == cs;
    ConcatIntersections(cs, pl, samples, orthoSamples, tol, maxiter, rootSolve)
  }
}

=== FILE: min_max.dfy ===
/**
 * Python's `min` and `max` over a non-empty sequence of reals, used by
 * the knot-bounds rule, the Voronoi clip box and the extreme-point
 * selection.
 */
module MinMax {

  /** Smallest element of a non-empty sequence (Python's `min`). */
  function SeqMin(s: seq<real>): (m: real)
    requires |s| > 0
    ensures m in s
    ensures forall i :: 0 <= i < |s| ==> m <= s[i]
  {
    if |s| == 1 then s[0]
    else
      var rest := SeqMin(s[1..]);
      assert forall i :: 1 <= i < |s| ==> s[i] == s[1..][i - 1];
      if s[0] <= rest then s[0] else rest
  }

  /** Largest element of a non-empty sequence (Python's `max`). */
  function SeqMax(s: seq<real>): (m: real)
    requires |s| > 0
    ensures m in s
    ensures forall i :: 0 <= i < |s| ==> s[i] <= m
  {
    if |s| == 1 then s[0]
    else
      var rest := SeqMax(s[1..]);
      assert forall i :: 1 <= i < |s| ==> s[i] == s[1..][i - 1];
      if s[0] >= rest then s[0] else rest
  }
}

=== FILE: minimal_surface.dfy ===
/**
 * The index and frame bookkeeping of the minimal (RBF) surface node
 * (nodes/surface/minimal_surface.py): the n × n grid's edges and quads,
 * the axis reorder that turns the chosen orientation into "height over
 * XY" and back, and the optional matrix that moves the input into a
 * local frame and the generated vertices out of it. The RBF itself is
 * an oracle.
 */
module MinimalSurface {
  import opened Wrappers
  import opened Vectors
  import opened Arith
  import opened Raycaster

  // ---------------------------------------------------------------------
  // Grid edges (`make_edges_xy`)
  // ---------------------------------------------------------------------

  /** An edge between two vertex indices. */
  type Edge = (nat, nat)

  /** An edge joining grid point a to its right-hand neighbour a + 1 in the same row. */
  predicate RowEdge(n: nat, e: Edge) {
    n >= 1 && e.1 == e.0 + 1 && e.0 % n < n - 1 && e.0 < n * n
  }

  /** An edge joining grid point a to the point a + n one row up. */
  predicate ColEdge(n: nat, e: Edge) {
    n >= 1 && e.1 == e.0 + n && e.0 < n * (n - 1)
  }

  /** The row edges of grid row `row`. */
  function RowEdges(n: nat, row: nat): (es: seq<Edge>)
    ensures |es| == if n >= 1 then n - 1 else 0
  {
    if n == 0 then []
    else seq(n - 1, i requires 0 <= i < n - 1 => (i + n * row, (i + 1) + n * row))
  }

  /** The column edges from grid row `row` to the next one. */
  function ColEdges(n: nat, row: nat): (es: seq<Edge>)
    ensures |es| == n
  {
    seq(n, i requires 0 <= i < n => (i + n * row, i + n * (row + 1)))
  }

  /** The edges of rows `row` … n − 1, in the order the loop emits them. */
  function EdgesFrom(n: nat, row: nat): (es: seq<Edge>)
    decreases n - row
  {
    if row >= n then []
    else RowEdges(n, row) + (if row < n - 1 then ColEdges(n, row) else []) + EdgesFrom(n, row + 1)
  }

  /** `make_edges_xy(n)`. */
  function EdgesXY(n: nat): seq<Edge> {
    EdgesFrom(n, 0)
  }

  /** Rows `row` … n − 1 emit n − 1 row edges each and, below the top row, n column edges each. */
  lemma {:induction false} EdgesFromCount(n: nat, row: nat)
    requires row <= n
    ensures |EdgesFrom(n, row)| == (n - row) * (n - 1) + (if row < n then (n - 1 - row) * n else 0)
    decreases n - row
  {
    if row < n {
      EdgesFromCount(n, row + 1);
      var k := n - row - 1;
      MulSucc(k, n - 1);
      if row < n - 1 {
        MulSucc(k - 1, n);
      }
    }
  }

  /** `make_edges_xy(n)` returns exactly 2·n·(n − 1) edges. */
  lemma EdgesXYCount(n: nat)
    ensures |EdgesXY(n)| == 2 * n * (n - 1)
  {
    EdgesFromCount(n, 0);
  }

  /** Row edge i of row `row` joins a point of that row to its right-hand neighbour. */
  lemma RowEdgeOf(n: nat, row: nat, i: nat)
    requires row < n && i < n - 1
    ensures RowEdge(n, RowEdges(n, row)[i]) && RowEdges(n, row)[i].0 / n == row
  {
    GridIndex(row, i, n, n);
  }

  /** A row edge starting in row `row` is row edge e.0 % n of that row. */
  lemma RowEdgeAt(n: nat, row: nat, e: Edge)
    requires RowEdge(n, e) && e.0 / n == row
    ensures e.0 % n < n - 1 && RowEdges(n, row)[e.0 % n] == e
  {
    assert e.0 == row * n + e.0 % n;
  }

  /** The row edges of row `row` are exactly the row edges starting in that row. */
  lemma RowEdgesMembers(n: nat, row: nat, e: Edge)
    requires n >= 1 && row < n
    ensures e in RowEdges(n, row) <==> RowEdge(n, e) && e.0 / n == row
  {
    if e in RowEdges(n, row) {
      var i :| 0 <= i < n - 1 && RowEdges(n, row)[i] == e;
      RowEdgeOf(n, row, i);
    }
    if RowEdge(n, e) && e.0 / n == row {
      RowEdgeAt(n, row, e);
    }
  }

  /** Column edge i from row `row` joins a point of that row to the point above it. */
  lemma ColEdgeOf(n: nat, row: nat, i: nat)
    requires row < n - 1 && i < n
    ensures ColEdge(n, ColEdges(n, row)[i]) && ColEdges(n, row)[i].0 / n == row
  {
    GridIndex(row, i, n - 1, n);
    MulSucc(row, n);
  }

  /** A column edge starting in row `row` is column edge e.0 % n from that row. */
  lemma ColEdgeAt(n: nat, row: nat, e: Edge)
    requires ColEdge(n, e) && e.0 / n == row
    ensures e.0 % n < n && ColEdges(n, row)[e.0 % n] == e
  {
    assert e.0 == row * n + e.0 % n;
    MulSucc(row, n);
  }

  /** The column edges from row `row` are exactly the column edges starting in that row. */
  lemma ColEdgesMembers(n: nat, row: nat, e: Edge)
    requires n >= 1 && row < n - 1
    ensures e in ColEdges(n, row) <==> ColEdge(n, e) && e.0 / n == row
  {
    if e in ColEdges(n, row) {
      var i :| 0 <= i < n && ColEdges(n, row)[i] == e;
      ColEdgeOf(n, row, i);
    }
    if ColEdge(n, e) && e.0 / n == row {
      ColEdgeAt(n, row, e);
    }
  }

  /** Rows `row` … n − 1 emit exactly the grid edges starting in those rows. */
  lemma {:induction false} EdgesFromMembers(n: nat, row: nat, e: Edge)
    requires n >= 1
    ensures e in EdgesFrom(n, row) <==> (RowEdge(n, e) || ColEdge(n, e)) && e.0 / n >= row
    decreases n - row
  {
    if row < n {
      EdgesFromMembers(n, row + 1, e);
      RowEdgesMembers(n, row, e);
      if row < n - 1 {
        ColEdgesMembers(n, row, e);
      } else if ColEdge(n, e) {
        DivBelow(e.0, n, n - 1);
      }
    } else if RowEdge(n, e) {
      DivBelow(e.0, n, n);
    } else if ColEdge(n, e) {
      MulLe(n - 1, n, n);
      DivBelow(e.0, n, n);
    }
  }

  /**
   * The edges of `make_edges_xy(n)` are exactly the grid's row edges
   * (a, a + 1) and column edges (a, a + n); each has a < b < n².
   */
  lemma EdgesXYMembers(n: nat, e: Edge)
    ensures e in EdgesXY(n) <==> RowEdge(n, e) || ColEdge(n, e)
    ensures e in EdgesXY(n) ==> e.0 < e.1 < n * n
  {
    assert EdgesXY(n) == EdgesFrom(n, 0);
    if n >= 1 {
      EdgesFromFirstRow(n, e);
      EdgeInGrid(n, e);
    }
  }

  /** From the first row on, the loop emits every grid edge. */
  lemma EdgesFromFirstRow(n: nat, e: Edge)
    requires n >= 1
    ensures e in EdgesFrom(n, 0) <==> RowEdge(n, e) || ColEdge(n, e)
  {
    EdgesFromMembers(n, 0, e);
    var q := e.0 / n;
    assert q >= 0;
  }

  /** Both ends of a row or column edge are grid points. */
  lemma EdgeInGrid(n: nat, e: Edge)
    ensures RowEdge(n, e) || ColEdge(n, e) ==> e.0 < e.1 < n * n
  {
    if RowEdge(n, e) {
      NextInRow(e.0, n);
    } else if ColEdge(n, e) {
      NextRow(e.0, n);
    }
  }

  // ---------------------------------------------------------------------
  // Grid quads (`make_faces_xy`)
  // ---------------------------------------------------------------------

  /** A grid cell (i, i + n, i + n + 1, i + 1) with i neither in the last column nor the last row. */
  predicate IsCell(n: nat, q: Quad) {
    n >= 1 && q.a % n < n - 1 && q.a < n * (n - 1) && q == Quad(q.a, q.a + n, q.a + n + 1, q.a + 1)
  }

  /** The quad with lower corner i = row + col·n. */
  function FaceAt(n: nat, row: nat, col: nat): Quad {
    var i := row + col * n;
    Quad(i, i + n, i + n + 1, i + 1)
  }

  /** The inner loop of `make_faces_xy`: columns 0 … n − 2 of one row. */
  function FacesRow(n: nat, row: nat): (fs: seq<Quad>)
    ensures |fs| == if n >= 1 then n - 1 else 0
  {
    if n == 0 then [] else seq(n - 1, col requires 0 <= col < n - 1 => FaceAt(n, row, col))
  }

  /** Rows `row` … n − 2 of the outer loop. */
  function FacesFrom(n: nat, row: nat): seq<Quad>
    decreases n - row
  {
    if row + 1 >= n then [] else FacesRow(n, row) + FacesFrom(n, row + 1)
  }

  /** `make_faces_xy(n)`. */
  function FacesXY(n: nat): seq<Quad> {
    FacesFrom(n, 0)
  }

  /** Rows `row` … n − 2 emit n − 1 quads each. */
  lemma {:induction false} FacesFromCount(n: nat, row: nat)
    ensures |FacesFrom(n, row)| == if row + 1 < n then (n - 1 - row) * (n - 1) else 0
    decreases n - row
  {
    if row + 1 < n {
      FacesFromCount(n, row + 1);
      var k := n - 1 - row;
      assert k * (n - 1) == (n - 1) + (k - 1) * (n - 1);
    }
  }

  /** Quad r of block q of rows `row` … n − 2 is the cell of outer index row + q and inner index r. */
  lemma {:induction false} FacesFromBlock(n: nat, row: nat, q: nat, r: nat)
    requires row + q + 1 < n && r < n - 1
    ensures BlockPos(q, n - 1, r) < |FacesFrom(n, row)|
    ensures FacesFrom(n, row)[BlockPos(q, n - 1, r)] == FaceAt(n, row + q, r)
    decreases q
  {
    var head, tail := FacesRow(n, row), FacesFrom(n, row + 1);
    assert FacesFrom(n, row) == head + tail;
    if q == 0 {
      assert (head + tail)[r] == head[r];
    } else {
      FacesFromBlock(n, row + 1, q - 1, r);
      var p := BlockPos(q - 1, n - 1, r);
      assert BlockPos(q, n - 1, r) == |head| + p;
      assert (head + tail)[|head| + p] == tail[p];
    }
  }


  /** Quad q·(n − 1) + r of rows `row` … n − 2 is the cell of outer index row + q and inner index r. */
  lemma FacesFromAt(n: nat, row: nat, q: nat, r: nat)
    requires row + q + 1 < n && r < n - 1
    ensures q * (n - 1) + r < |FacesFrom(n, row)|
    ensures FacesFrom(n, row)[q * (n - 1) + r] == FaceAt(n, row + q, r)
  {
    FacesFromBlock(n, row, q, r);
    BlockPosIs(q, n - 1, r);
  }

  /** `make_faces_xy(n)` returns (n − 1)² quads, none for an empty grid. */
  lemma FacesXYCount(n: nat)
    ensures |FacesXY(n)| == if n >= 1 then (n - 1) * (n - 1) else 0
  {
    FacesFromCount(n, 0);
  }

  /** The quad at (row, col) is a cell of the grid and its far corner is below n². */
  lemma FaceAtIsCell(n: nat, row: nat, col: nat)
    requires row < n - 1 && col < n - 1
    ensures IsCell(n, FaceAt(n, row, col))
    ensures FaceAt(n, row, col).c < n * n
  {
    GridIndex(col, row, n - 1, n);
    CellCorner(row, col, n);
  }

  /**
   * Quad row·(n − 1) + col of `make_faces_xy(n)` is (i, i + n, i + n + 1,
   * i + 1) with i = row + col·n: a cell of the grid with every index
   * below n².
   */
  lemma FacesXYAt(n: nat, row: nat, col: nat)
    requires row < n - 1 && col < n - 1
    ensures row * (n - 1) + col < |FacesXY(n)|
    ensures FacesXY(n)[row * (n - 1) + col] == FaceAt(n, row, col)
    ensures IsCell(n, FacesXY(n)[row * (n - 1) + col]) && FacesXY(n)[row * (n - 1) + col].c < n * n
  {
    FacesFromAt(n, 0, row, col);
    FaceAtIsCell(n, row, col);
  }

  /** The offset and stride index of a cell's lower corner. */
  lemma CellCoords(n: nat, a: nat) returns (row: nat, col: nat)
    requires n >= 1 && a % n < n - 1 && a < n * (n - 1)
    ensures a == row + col * n && row < n - 1 && col < n - 1
  {
    row, col := a % n, a / n;
    DivBelow(a, n, n - 1);
  }

  /** Every grid cell is one of the quads of `make_faces_xy(n)`. */
  lemma CellIsFace(n: nat, q: Quad)
    requires IsCell(n, q)
    ensures q in FacesXY(n)
  {
    var row, col := CellCoords(n, q.a);
    FacesXYAt(n, row, col);
    assert FacesXY(n)[row * (n - 1) + col] == q;
  }

  /** Quad k of the outer-row-major order sits at outer index k / (n − 1) and inner index k % (n − 1). */
  lemma QuadCoords(n: nat, k: nat) returns (row: nat, col: nat)
    requires n >= 2 && k < (n - 1) * (n - 1)
    ensures k == row * (n - 1) + col && row < n - 1 && col < n - 1
  {
    row, col := k / (n - 1), k % (n - 1);
    DivBelow(k, n - 1, n - 1);
  }

  /** The quads of `make_faces_xy(n)` are exactly the cells of the n × n grid. */
  lemma FacesXYMembers(n: nat, q: Quad)
    ensures q in FacesXY(n) <==> IsCell(n, q)
  {
    if q in FacesXY(n) {
      var k :| 0 <= k < |FacesXY(n)| && FacesXY(n)[k] == q;
      FacesXYCount(n);
      var row, col := QuadCoords(n, k);
      FacesXYAt(n, row, col);
    }
    if IsCell(n, q) {
      CellIsFace(n, q);
    }
  }

  // ---------------------------------------------------------------------
  // Grid vertices (`np.meshgrid` of the two target ranges, flattened)
  // ---------------------------------------------------------------------

  /** A row edge joins grid points with the same y sample and neighbouring x samples. */
  lemma RowEdgeJoinsNeighbours(xs: seq<real>, ys: seq<real>, e: Edge)
    requires |xs| == |ys| && RowEdge(|xs|, e)
    ensures e.1 < |GridUs(xs)| && e.0 % |xs| + 1 < |xs|
    ensures GridVs(ys)[e.0] == GridVs(ys)[e.1]
    ensures GridUs(xs)[e.0] == xs[e.0 % |xs|] && GridUs(xs)[e.1] == xs[e.0 % |xs| + 1]
  {
    var n := |xs|;
    NextInRow(e.0, n);
    var row, col := e.0 / n, e.0 % n;
    assert e.1 == row * n + (col + 1);
    DivModUnique(e.1, n, row, col + 1);
  }

  /** A column edge joins grid points with the same x sample and neighbouring y samples. */
  lemma ColEdgeJoinsNeighbours(xs: seq<real>, ys: seq<real>, e: Edge)
    requires |xs| == |ys| && ColEdge(|xs|, e)
    ensures e.1 < |GridUs(xs)| && e.0 / |xs| + 1 < |xs|
    ensures GridUs(xs)[e.0] == GridUs(xs)[e.1]
    ensures GridVs(ys)[e.0] == ys[e.0 / |xs|] && GridVs(ys)[e.1] == ys[e.0 / |xs| + 1]
  {
    var n := |xs|;
    NextRow(e.0, n);
    DivBelow(e.0, n, n - 1);
    var row, col := e.0 / n, e.0 % n;
    assert e.1 == (row + 1) * n + col;
    DivModUnique(e.1, n, row + 1, col);
  }

  // ---------------------------------------------------------------------
  // Orientation (the axis reorder in `process`)
  // ---------------------------------------------------------------------

  /** Which input axis is the height the RBF interpolates. */
  datatype Orientation = X | Y | Z

  /** The input column reorder: X → (y, z, x), Y → (z, x, y), Z unchanged. */
  function Reorder(o: Orientation, p: Vec3): Vec3 {
    match o
    case X => Vec3(p.y, p.z, p.x)
    case Y => Vec3(p.z, p.x, p.y)
    case Z => p
  }

  /**
   * The tuple swap on the generated (XI, YI, ZI): for X the new y, z, x
   * are the old x, y, z; for Y the new z, x, y are the old x, y, z.
   */
  function Unorder(o: Orientation, q: Vec3): Vec3 {
    match o
    case X => Vec3(q.z, q.x, q.y)
    case Y => Vec3(q.y, q.z, q.x)
    case Z => q
  }

  /** The output swap exactly undoes the input reorder, and the other way round. */
  lemma ReorderRoundTrip(o: Orientation, p: Vec3)
    ensures Unorder(o, Reorder(o, p)) == p
    ensures Reorder(o, Unorder(o, p)) == p
    ensures o == Z ==> Reorder(o, p) == p
  {
  }

  // ---------------------------------------------------------------------
  // The input matrix
  // ---------------------------------------------------------------------

  /** A 3 × 3 matrix by rows. */
  datatype Mat3 = Mat3(r0: Vec3, r1: Vec3, r2: Vec3)

  const Identity := Mat3(Vec3(1.0, 0.0, 0.0), Vec3(0.0, 1.0, 0.0), Vec3(0.0, 0.0, 1.0))

  function Apply(m: Mat3, p: Vec3): Vec3 {
    Vec3(Dot(m.r0, p), Dot(m.r1, p), Dot(m.r2, p))
  }

  function Col0(m: Mat3): Vec3 { Vec3(m.r0.x, m.r1.x, m.r2.x) }
  function Col1(m: Mat3): Vec3 { Vec3(m.r0.y, m.r1.y, m.r2.y) }
  function Col2(m: Mat3): Vec3 { Vec3(m.r0.z, m.r1.z, m.r2.z) }

  function MatMul(a: Mat3, b: Mat3): Mat3 {
    Mat3(Vec3(Dot(a.r0, Col0(b)), Dot(a.r0, Col1(b)), Dot(a.r0, Col2(b))),
         Vec3(Dot(a.r1, Col0(b)), Dot(a.r1, Col1(b)), Dot(a.r1, Col2(b))),
         Vec3(Dot(a.r2, Col0(b)), Dot(a.r2, Col1(b)), Dot(a.r2, Col2(b))))
  }

  /** One row of a product applied to a point is that row applied to the point's image. */
  lemma RowApply(r: Vec3, b: Mat3, p: Vec3)
    ensures Dot(r, Apply(b, p)) == Dot(Vec3(Dot(r, Col0(b)), Dot(r, Col1(b)), Dot(r, Col2(b))), p)
  {
  }

  /** Applying b then a is applying their product. */
  lemma ApplyMul(a: Mat3, b: Mat3, p: Vec3)
    ensures Apply(a, Apply(b, p)) == Apply(MatMul(a, b), p)
  {
    RowApply(a.r0, b, p);
    RowApply(a.r1, b, p);
    RowApply(a.r2, b, p);
  }

  lemma ApplyIdentity(p: Vec3)
    ensures Apply(Identity, p) == p
  {
  }

  /** The node's `Matrix` input: a linear part and a translation. */
  datatype Affine = Affine(lin: Mat3, t: Vec3)

  /** Blender's default `Matrix()`. */
  const IdentityAffine := Affine(Identity, Zero)

  /** How the input vertices are read. */
  datatype CoordMode = XY | UV

  /** A matrix is used only in XY mode, and only when one is given and it is not the identity. */
  predicate HasMatrix(coord: CoordMode, m: Option<Affine>) {
    coord == XY && m.Some? && m.value != IdentityAffine
  }

  /** Input side: p ↦ M⁻¹·p + t, with `inv` the inverse numpy computes. */
  function ToLocal(inv: Mat3, a: Affine, p: Vec3): Vec3 {
    Add(Apply(inv, p), a.t)
  }

  /** Output side: q ↦ M·(q − t). */
  function ToWorld(a: Affine, q: Vec3): Vec3 {
    Apply(a.lin, Sub(q, a.t))
  }

  /** The output transform undoes the input transform whenever `inv` is a right inverse of M. */
  lemma MatrixRoundTrip(a: Affine, inv: Mat3, p: Vec3)
    requires MatMul(a.lin, inv) == Identity
    ensures ToWorld(a, ToLocal(inv, a, p)) == p
  {
    assert Sub(ToLocal(inv, a, p), a.t) == Apply(inv, p);
    ApplyMul(a.lin, inv, p);
    ApplyIdentity(p);
  }

  // ---------------------------------------------------------------------
  // One vertex through the XY pipeline of `process`
  // ---------------------------------------------------------------------

  /** What `generate_mode` asks for. */
  datatype GenerateMode = Grid | Explicit | NoGenerate

  /** An input vertex in the frame the RBF is fitted in: matrix first (if any), then the reorder. */
  function FitFrame(o: Orientation, m: Option<Affine>, inv: Mat3, p: Vec3): Vec3 {
    var local := if HasMatrix(XY, m) then ToLocal(inv, m.value, p) else p;
    Reorder(o, local)
  }

  /** A generated (XI, YI, ZI) in world coordinates: the tuple swap, then the matrix (if any). */
  function OutputVertex(o: Orientation, m: Option<Affine>, gen: GenerateMode, q: Vec3): Vec3 {
    var back := Unorder(o, q);
    if HasMatrix(XY, m) && gen != NoGenerate then ToWorld(m.value, back) else back
  }

  /**
   * In XY mode a vertex generated exactly at a fitted input point (as an
   * interpolating RBF does at its nodes) comes out as that input point:
   * the output swap and matrix undo the input matrix and reorder.
   */
  lemma PipelineRoundTrip(o: Orientation, m: Option<Affine>, inv: Mat3, gen: GenerateMode, p: Vec3)
    requires gen != NoGenerate
    requires HasMatrix(XY, m) ==> MatMul(m.value.lin, inv) == Identity
    ensures OutputVertex(o, m, gen, FitFrame(o, m, inv, p)) == p
  {
    var local := if HasMatrix(XY, m) then ToLocal(inv, m.value, p) else p;
    ReorderRoundTrip(o, local);
    if HasMatrix(XY, m) {
      MatrixRoundTrip(m.value, inv, p);
    }
  }

  // ---------------------------------------------------------------------
  // The mesh outputs
  // ---------------------------------------------------------------------

  /**
   * `process` raises when UV-mode explicit targets are missing, and the
   * interpolant's evaluation raises when the explicit target lists differ
   * in length.
   */
  datatype NodeError = NoTargetU | NoTargetV | TargetLengthsDiffer

  /** The vertices, edges and faces the node emits for one input set. */
  datatype Mesh = Mesh(vertexCount: nat, edges: seq<Edge>, faces: seq<Quad>)

  /**
   * How many vertices are generated: the full grid in GRID mode, one per
   * target in EXPLICIT mode (which in UV mode needs both target lists, and
   * in either mode needs them equally long), none in NONE mode.
   */
  function GeneratedCount(coord: CoordMode, gen: GenerateMode, gridPoints: nat, targetUs: seq<real>, targetVs: seq<real>)
    : (r: Result<nat, NodeError>)
    ensures r.Err? <==> gen == Explicit && ((coord == UV && (|targetUs| == 0 || |targetVs| == 0)) || |targetUs| != |targetVs|)
    ensures r == Err(TargetLengthsDiffer) <==>
      gen == Explicit && |targetUs| != |targetVs| && !(coord == UV && (|targetUs| == 0 || |targetVs| == 0))
    ensures r.Ok? && gen == Grid ==> r.value == gridPoints * gridPoints
    ensures r.Ok? && gen == Explicit ==> r.value == |targetUs| == |targetVs|
    ensures r.Ok? && gen == NoGenerate ==> r.value == 0
  {
    match gen
    case Grid => Ok(gridPoints * gridPoints)
    case NoGenerate => Ok(0)
    case Explicit =>
      if coord == UV && |targetUs| == 0 then Err(NoTargetU)
      else if coord == UV && |targetVs| == 0 then Err(NoTargetV)
      else if |targetUs| != |targetVs| then Err(TargetLengthsDiffer)
      else Ok(|targetUs|)
  }

  /** The node's mesh: the generated vertices with the grid's edges and faces. */
  function NodeMesh(coord: CoordMode, gen: GenerateMode, gridPoints: nat, targetUs: seq<real>, targetVs: seq<real>)
    : (r: Result<Mesh, NodeError>)
    ensures r.Err? <==> gen == Explicit && ((coord == UV && (|targetUs| == 0 || |targetVs| == 0)) || |targetUs| != |targetVs|)
    ensures r.Ok? ==> r.value.vertexCount == GeneratedCount(coord, gen, gridPoints, targetUs, targetVs).value
    ensures r.Ok? ==> |r.value.edges| == 2 * gridPoints * (gridPoints - 1)
    ensures r.Ok? ==> |r.value.faces| == if gridPoints >= 1 then (gridPoints - 1) * (gridPoints - 1) else 0
  {
    EdgesXYCount(gridPoints);
    FacesXYCount(gridPoints);
    var count :- GeneratedCount(coord, gen, gridPoints, targetUs, targetVs);
    Ok(Mesh(count, EdgesXY(gridPoints), FacesXY(gridPoints)))
  }

  /**
   * The edges and faces depend only on `grid_points`: two generate modes
   * that both succeed give the same topology.
   */
  lemma TopologyIgnoresMode(coord: CoordMode, g1: GenerateMode, g2: GenerateMode, gridPoints: nat,
                            targetUs: seq<real>, targetVs: seq<real>)
    requires NodeMesh(coord, g1, gridPoints, targetUs, targetVs).Ok? && NodeMesh(coord, g2, gridPoints, targetUs, targetVs).Ok?
    ensures NodeMesh(coord, g1, gridPoints, targetUs, targetVs).value.edges == NodeMesh(coord, g2, gridPoints, targetUs, targetVs).value.edges
    ensures NodeMesh(coord, g1, gridPoints, targetUs, targetVs).value.faces == NodeMesh(coord, g2, gridPoints, targetUs, targetVs).value.faces
  {
  }

  /** In GRID mode every edge and face index names a generated vertex. */
  lemma GridMeshIsClosed(coord: CoordMode, gridPoints: nat, targetUs: seq<real>, targetVs: seq<real>)
    ensures var mesh := NodeMesh(coord, Grid, gridPoints, targetUs, targetVs).value;
            && (forall e :: e in mesh.edges ==> e.0 < mesh.vertexCount && e.1 < mesh.vertexCount)
            && (forall q :: q in mesh.faces ==> q.a < mesh.vertexCount && q.b < mesh.vertexCount
                                                 && q.c < mesh.vertexCount && q.d < mesh.vertexCount)
  {
    var n := gridPoints;
    forall e | e in EdgesXY(n) ensures e.0 < n * n && e.1 < n * n {
      EdgesXYMembers(n, e);
    }
    forall q | q in FacesXY(n) ensures q.a < n * n && q.b < n * n && q.c < n * n && q.d < n * n {
      FacesXYMembers(n, q);
      var row, col := CellCoords(n, q.a);
      FaceAtIsCell(n, row, col);
    }
  }

  /**
   * In NONE mode no vertex is generated, yet a grid of two or more points
   * still emits edges, all of which name missing vertices.
   */
  lemma NoneModeEdgesDangle(coord: CoordMode, gridPoints: nat, targetUs: seq<real>, targetVs: seq<real>)
    requires gridPoints >= 2
    ensures var mesh := NodeMesh(coord, NoGenerate, gridPoints, targetUs, targetVs).value;
            mesh.vertexCount == 0 && |mesh.edges| > 0
  {
    EdgesXYCount(gridPoints);
    MulLe(1, gridPoints - 1, 2 * gridPoints);
  }
}

=== FILE: nearest_point.dfy ===
/**
 * The nearest-point-on-curve node (nodes/curve/nearest_point.py:18-119):
 * a coarse guess from the nearest of `samples` evenly spaced curve
 * points, then, in precise mode, a bounded Brent search bracketed around
 * that guess. The KD-tree query is modelled exactly (the first sample of
 * least distance); the scalar minimiser is an oracle.
 */
module NearestPoint {
  import opened Wrappers
  import opened Vectors
  import opened Sampling
  import opened CurveProjection

  /** `init_guess`: per query point, the parameter and point of the nearest sample. */
  datatype Guesses = Guesses(ts: seq<real>, points: seq<Vec3>)

  /** The KD-tree query over the sampled points: the parameter and point of the nearest sample. */
  function NearestSample(c: Curve, us: seq<real>, src: Vec3): (r: (real, Vec3))
    requires |us| > 0
    ensures r.0 in us && r.1 == c.eval(r.0)
    ensures forall j :: 0 <= j < |us| ==> DistSq(r.1, src) <= DistSq(c.eval(us[j]), src)
  {
    var pts := seq(|us|, i requires 0 <= i < |us| => c.eval(us[i]));
    var i := NearestIndex(pts, src);
    assert forall j :: 0 <= j < |us| ==> pts[j] == c.eval(us[j]);
    (us[i], pts[i])
  }

  function InitGuess(c: Curve, srcs: seq<Vec3>, samples: nat): (g: Guesses)
    requires samples >= 1
    ensures |g.ts| == |srcs| && |g.points| == |srcs|
    ensures forall k :: 0 <= k < |srcs| ==> g.ts[k] in Linspace(c.uMin, c.uMax, samples)
    ensures forall k :: 0 <= k < |srcs| ==> g.points[k] == c.eval(g.ts[k])
    ensures forall k, j :: 0 <= k < |srcs| && 0 <= j < samples ==>
      DistSq(g.points[k], srcs[k]) <= DistSq(c.eval(Linspace(c.uMin, c.uMax, samples)[j]), srcs[k])
  {
    var us := Linspace(c.uMin, c.uMax, samples);
    var found := seq(|srcs|, k requires 0 <= k < |srcs| => NearestSample(c, us, srcs[k]));
    Guesses(seq(|srcs|, k requires 0 <= k < |srcs| => found[k].0),
            seq(|srcs|, k requires 0 <= k < |srcs| => found[k].1))
  }

  /** The Brent bracket (a, b, c) around the guess. */
  datatype Bracket = Bracket(a: real, b: real, c: real)

  /**
   * The bracket always has the guess in the middle: the full range when
   * the guess is interior, and a 0.1-wide step outside the range at the
   * end the guess sits on.
   */
  function BracketAround(initT: real, tMin: real, tMax: real): (br: Bracket)
    ensures br.b == initT
    ensures tMin < initT < tMax ==> br == Bracket(tMin, initT, tMax)
    ensures initT <= tMin ==> br == Bracket(initT - 0.1, initT, tMax)
    ensures tMin < initT && initT >= tMax ==> br == Bracket(tMin, initT, initT + 0.1)
  {
    if initT <= tMin then Bracket(initT - 0.1, initT, tMax)
    else if initT >= tMax then Bracket(tMin, initT, initT + 0.1)
    else Bracket(tMin, initT, tMax)
  }

  /**
   * Whenever the guess lies in [t_min, t_max] and the range is proper,
   * the bracket is strictly ordered a < b < c with the guess as b.
   */
  lemma BracketOrdered(initT: real, tMin: real, tMax: real)
    requires tMin < tMax && tMin <= initT <= tMax
    ensures BracketAround(initT, tMin, tMax).a < initT < BracketAround(initT, tMin, tMax).c
  {
  }

  /** `minimize_scalar(goal, bounds, bracket, 'Brent')` for one query point: None when unsuccessful. */
  type Minimiser = (Vec3, Bracket) -> Option<real>

  datatype NearestError = SearchFailed

  /** The precise searches, one per query point, stopping at the first failure. */
  function Refine(srcs: seq<Vec3>, initTs: seq<real>, tMin: real, tMax: real, minimise: Minimiser): (r: Result<seq<real>, NearestError>)
    requires |initTs| == |srcs|
    ensures r.Ok? <==> forall k :: 0 <= k < |srcs| ==> minimise(srcs[k], BracketAround(initTs[k], tMin, tMax)).Some?
    ensures r.Ok? ==> |r.value| == |srcs|
    ensures r.Ok? ==> forall k :: 0 <= k < |srcs| ==> minimise(srcs[k], BracketAround(initTs[k], tMin, tMax)) == Some(r.value[k])
  {
    if |srcs| == 0 then Ok([])
    else
      match minimise(srcs[0], BracketAround(initTs[0], tMin, tMax))
      case None => Err(SearchFailed)
      case Some(t) =>
        match Refine(srcs[1..], initTs[1..], tMin, tMax, minimise)
        case Err(e) =>
          assert exists k :: 0 <= k < |srcs| && minimise(srcs[k], BracketAround(initTs[k], tMin, tMax)).None? by {
            var j :| 0 <= j < |srcs[1..]| && minimise(srcs[1..][j], BracketAround(initTs[1..][j], tMin, tMax)).None?;
            assert srcs[j + 1] == srcs[1..][j] && initTs[j + 1] == initTs[1..][j];
          }
          Err(e)
        case Ok(rest) =>
          assert forall k :: 1 <= k < |srcs| ==> srcs[k] == srcs[1..][k - 1] && initTs[k] == initTs[1..][k - 1];
          Ok([t] + rest)
  }

  /** The node's T and Point outputs for one curve and its query points. */
  datatype Nearest = Nearest(ts: seq<real>, points: seq<Vec3>)

  /**
   * Precise mode: one searched parameter per query point, and the curve
   * points at them when the Point output is linked (none otherwise);
   * an unsuccessful search raises. Non-precise mode: the coarse guesses
   * themselves.
   */
  function NearestOnCurve(c: Curve, srcs: seq<Vec3>, samples: nat, precise: bool, pointLinked: bool, minimise: Minimiser): (r: Result<Nearest, NearestError>)
    requires samples >= 1
    ensures !precise ==> r == Ok(Nearest(InitGuess(c, srcs, samples).ts, InitGuess(c, srcs, samples).points))
    ensures precise ==> (r.Err? <==> exists k :: 0 <= k < |srcs| && minimise(srcs[k], BracketAround(InitGuess(c, srcs, samples).ts[k], c.uMin, c.uMax)).None?)
    ensures r.Ok? ==> |r.value.ts| == |srcs|
    ensures r.Ok? && (!precise || pointLinked) ==> |r.value.points| == |srcs| && forall k :: 0 <= k < |srcs| ==> r.value.points[k] == c.eval(r.value.ts[k])
    ensures r.Ok? && precise && !pointLinked ==> r.value.points == []
  {
    var g := InitGuess(c, srcs, samples);
    if !precise then Ok(Nearest(g.ts, g.points))
    else
      match Refine(srcs, g.ts, c.uMin, c.uMax, minimise)
      case Err(e) => Err(e)
      case Ok(ts) =>
        var pts := if pointLinked then seq(|ts|, k requires 0 <= k < |ts| => c.eval(ts[k])) else [];
        Ok(Nearest(ts, pts))
  }

  /**
   * In precise mode each searched parameter is the minimiser's answer for
   * the bracket centred on that point's coarse guess.
   */
  lemma PreciseUsesGuessBracket(c: Curve, srcs: seq<Vec3>, samples: nat, pointLinked: bool, minimise: Minimiser, k: nat)
    requires samples >= 1 && k < |srcs|
    requires NearestOnCurve(c, srcs, samples, true, pointLinked, minimise).Ok?
    ensures var g := InitGuess(c, srcs, samples);
      minimise(srcs[k], BracketAround(g.ts[k], c.uMin, c.uMax)) == Some(NearestOnCurve(c, srcs, samples, true, pointLinked, minimise).value.ts[k])
      && BracketAround(g.ts[k], c.uMin, c.uMax).b == g.ts[k]
  {
  }
}

=== FILE: nurbs_common.dfy ===
/**
 * List padding, cyclic wrap-around, knot vectors and parameter bounds
 * shared by the NURBS curve and surface builders
 * (nodes/curve/nurbs_curve.py, nodes/surface/nurbs_surface.py).
 * `fullList` belongs to the host's data_structure module, which is not
 * part of this model; it is taken here to pad with the last element.
 *
 * In AUTO knot mode a cyclic direction gets the uniform vector
 * 0, 1, ..., n + degree; a non-cyclic one gets the clamped vector of the
 * NURBS library, which stays an oracle here. The parameter bounds are
 * read off the knot vector: the cyclic rule picks the knots that bracket
 * the valid span, the other rule takes the extreme knots.
 */
module NurbsCommon {
  import opened Wrappers
  import opened MinMax

  datatype KnotError =
    | KnotIndex     // `knots[degree]` or `knots[-degree-2]` is out of range
    | EmptyKnots    // `min`/`max` of an empty knot vector

  datatype KnotMode = Auto | Explicit

  /** `xs` followed by `k` copies of `fill`. */
  function Repeat<T>(fill: T, k: nat): (r: seq<T>)
    ensures |r| == k
    ensures forall i :: 0 <= i < k ==> r[i] == fill
  {
    seq(k, _ => fill)
  }

  /**
   * `fullList(l, count)`: pad `l` with copies of its last element up to
   * `count` items; a longer list is left alone. An empty list that needs
   * padding has no last element.
   */
  function FullList<T>(l: seq<T>, count: nat): (r: Option<seq<T>>)
    ensures r.None? <==> |l| == 0 && count > 0
    ensures r.Some? ==> |r.value| == (if count > |l| then count else |l|)
    ensures r.Some? ==> r.value[..|l|] == l
    ensures r.Some? ==> forall i :: |l| <= i < |r.value| ==> r.value[i] == l[|l| - 1]
  {
    if count <= |l| then Some(l)
    else if |l| == 0 then None
    else Some(l + Repeat(l[|l| - 1], count - |l|))
  }

  /** One row extended by its own first degree+1 entries (`row[:degree+1]`). */
  function ExtendRow<T>(row: seq<T>, degree: nat): (r: seq<T>)
    ensures |r| == |row| + (if degree + 1 < |row| then degree + 1 else |row|)
    ensures r[..|row|] == row
    ensures forall j :: |row| <= j < |r| ==> r[j] == row[j - |row|]
  {
    if degree + 1 < |row| then row + row[..degree + 1] else row + row
  }

  /** The library's clamped knot generator, `knotvector.generate(degree, count)`. */
  type KnotGenerator = (nat, nat) -> seq<real>

  /**
   * `list(range(n + degree + 1))`: the uniform knot vector of a cyclic
   * direction, starting at 0 with consecutive knots one apart, hence
   * strictly increasing.
   */
  function CyclicKnots(n: nat, degree: nat): (ks: seq<real>)
    ensures |ks| == n + degree + 1
    ensures ks[0] == 0.0
    ensures forall i :: 0 <= i < |ks| - 1 ==> ks[i + 1] - ks[i] == 1.0
    ensures forall i, j :: 0 <= i < j < |ks| ==> ks[i] < ks[j]
  {
    seq(n + degree + 1, i requires 0 <= i < n + degree + 1 => i as real)
  }

  /** The knot vector AUTO mode assigns to one direction with `n` control points. */
  function AutoKnots(cyclic: bool, n: nat, degree: nat, generate: KnotGenerator): seq<real> {
    if cyclic then CyclicKnots(n, degree) else generate(degree, n)
  }

  /** The knot vector in force: generated in AUTO mode, the given one otherwise. */
  function ChooseKnots(mode: KnotMode, cyclic: bool, n: nat, degree: nat, given: seq<real>, generate: KnotGenerator): (ks: seq<real>)
    ensures mode == Explicit ==> ks == given
    ensures mode == Auto && !cyclic ==> ks == generate(degree, n)
    ensures mode == Auto && cyclic ==> |ks| == n + degree + 1
    ensures mode == Auto && cyclic ==> forall i :: 0 <= i < |ks| ==> ks[i] == i as real
    ensures mode == Auto && cyclic ==>
      Bounds(ks, degree, true) == if n >= 1 then Ok((degree as real, (n - 1) as real)) else Err(KnotIndex)
  {
    CyclicAutoBounds(n, degree);
    match mode
    case Auto => AutoKnots(cyclic, n, degree, generate)
    case Explicit => given
  }

  /**
   * The parameter bounds of one direction. Cyclic: the knots at `degree`
   * and at `-degree-2` (Python's negative index), which exist only when
   * the vector has at least degree + 2 knots. Otherwise the smallest and
   * largest knot, which need a non-empty vector.
   */
  function Bounds(knots: seq<real>, degree: nat, cyclic: bool): (r: Result<(real, real), KnotError>)
    ensures cyclic ==> (r.Err? <==> |knots| < degree + 2)
    ensures cyclic && r.Ok? ==> r.value == (knots[degree], knots[|knots| - degree - 2])
    ensures !cyclic ==> (r.Err? <==> |knots| == 0)
    ensures !cyclic && r.Ok? ==> r.value.0 in knots && r.value.1 in knots
    ensures !cyclic && r.Ok? ==> forall i :: 0 <= i < |knots| ==> r.value.0 <= knots[i] <= r.value.1
    ensures r.Err? ==> r.error == (if cyclic then KnotIndex else EmptyKnots)
  {
    if cyclic then
      if |knots| < degree + 2 then Err(KnotIndex)
      else Ok((knots[degree], knots[|knots| - degree - 2]))
    else
      if |knots| == 0 then Err(EmptyKnots)
      else Ok((SeqMin(knots), SeqMax(knots)))
  }

  /**
   * For the uniform cyclic knots of n >= 1 control points the bounds are
   * (degree, n - 1); with no control point the vector is too short.
   */
  lemma CyclicAutoBounds(n: nat, degree: nat)
    ensures n >= 1 ==> Bounds(CyclicKnots(n, degree), degree, true) == Ok((degree as real, (n - 1) as real))
    ensures n == 0 ==> Bounds(CyclicKnots(n, degree), degree, true) == Err(KnotIndex)
  {
  }

  /**
   * On an ascending knot vector the two rules differ only in how far in
   * they read: the cyclic span lies inside the (min, max) span.
   */
  lemma CyclicSpanInsideFullSpan(knots: seq<real>, degree: nat)
    requires |knots| >= degree + 2
    requires forall i, j :: 0 <= i <= j < |knots| ==> knots[i] <= knots[j]
    ensures Bounds(knots, degree, false).Ok?
    ensures Bounds(knots, degree, false).value.0 <= Bounds(knots, degree, true).value.0
    ensures Bounds(knots, degree, true).value.1 <= Bounds(knots, degree, false).value.1
    ensures Bounds(knots, degree, false).value == (knots[0], knots[|knots| - 1])
  {
    var lo := SeqMin(knots);
    var hi := SeqMax(knots);
    assert lo <= knots[0] && knots[0] <= lo by {
      var k :| 0 <= k < |knots| && knots[k] == lo;
    }
    assert hi == knots[|knots| - 1] by {
      var k :| 0 <= k < |knots| && knots[k] == hi;
    }
  }
}

=== FILE: nurbs_curve.dfy ===
/**
 * The NURBS curve builder (nodes/curve/nurbs_curve.py:84-148): weight
 * padding, cyclic extension of the control polygon, the knot vector in
 * AUTO and EXPLICIT mode, the u-bounds rule and which outputs carry what.
 * Control points are abstract (type parameter `P`); evaluating the curve
 * is the NURBS library's business and is not modelled.
 */
module NurbsCurve {
  import opened Wrappers
  import opened NurbsCommon

  datatype CurveKind = Nurbs | BSpline

  datatype CurveError =
    | NoWeights              // padding an empty weight list reads `l[-1]`
    | BadKnots(e: KnotError)

  /** One (control points, weights, knots, degree) tuple of the input sockets. */
  datatype CurveInput<P> = CurveInput(vertices: seq<P>, weights: seq<real>, knots: seq<real>, degree: nat)

  /**
   * What one iteration hands to the NURBS library: control points,
   * weights when they are set (otherwise the library's default of 1),
   * the knot vector and the u-bounds.
   */
  datatype BuiltCurve<P> = BuiltCurve(ctrlpts: seq<P>, weights: Option<seq<real>>, knots: seq<real>, uBounds: (real, real))

  /** The node's settings that shape every curve it builds. */
  datatype Settings = Settings(kind: CurveKind, mode: KnotMode, cyclic: bool, hasWeights: bool)

  function BuildCurve<P>(inp: CurveInput<P>, cfg: Settings, generate: KnotGenerator): (r: Result<BuiltCurve<P>, CurveError>)
    ensures |inp.weights| == 0 && |inp.vertices| > 0 ==> r == Err(NoWeights)
    ensures r.Ok? ==> (r.value.weights.Some? <==> cfg.hasWeights && cfg.kind == Nurbs)
    ensures r.Ok? && !(cfg.mode == Auto && cfg.cyclic) ==> r.value.ctrlpts == inp.vertices
    ensures r.Ok? && cfg.mode == Auto && cfg.cyclic ==> r.value.ctrlpts == ExtendRow(inp.vertices, inp.degree)
    ensures r.Ok? && r.value.weights.Some? ==>
      var padded := FullList(inp.weights, |inp.vertices|).value;
      r.value.weights.value == if cfg.mode == Auto && cfg.cyclic then ExtendRow(padded, inp.degree) else padded
    ensures r.Ok? && cfg.mode == Explicit ==> r.value.knots == inp.knots
    ensures r.Ok? ==> r.value.knots == ChooseKnots(cfg.mode, cfg.cyclic, |r.value.ctrlpts|, inp.degree, inp.knots, generate)
    ensures r.Ok? <==>
      var k := if inp.degree + 1 < |inp.vertices| then inp.degree + 1 else |inp.vertices|;
      var n := |inp.vertices| + if cfg.mode == Auto && cfg.cyclic then k else 0;
      FullList(inp.weights, |inp.vertices|).Some? &&
      Bounds(ChooseKnots(cfg.mode, cfg.cyclic, n, inp.degree, inp.knots, generate), inp.degree, cfg.cyclic).Ok?
    ensures r.Ok? ==> Bounds(r.value.knots, inp.degree, cfg.cyclic) == Ok(r.value.uBounds)
    ensures r.Err? && r.error.BadKnots? ==> r.error.e == (if cfg.cyclic then KnotIndex else EmptyKnots)
  {
    match FullList(inp.weights, |inp.vertices|)
    case None => Err(NoWeights)
    case Some(padded) =>
      var extend := cfg.mode == Auto && cfg.cyclic;
      var pts := if extend then ExtendRow(inp.vertices, inp.degree) else inp.vertices;
      var wts := if extend then ExtendRow(padded, inp.degree) else padded;
      var knots := ChooseKnots(cfg.mode, cfg.cyclic, |pts|, inp.degree, inp.knots, generate);
      match Bounds(knots, inp.degree, cfg.cyclic)
      case Err(e) => Err(BadKnots(e))
      case Ok(b) =>
        var w := if cfg.hasWeights && cfg.kind == Nurbs then Some(wts) else None;
        Ok(BuiltCurve(pts, w, knots, b))
  }

  /**
   * AUTO cyclic mode with at least degree+1 control points: the polygon
   * wraps around by its first degree+1 points, so n_total is
   * n_source + degree + 1; the knots are 0, 1, ..., n_total + degree and
   * the u-bounds are (degree, n_total - 1).
   */
  lemma CyclicCurveBounds<P>(inp: CurveInput<P>, kind: CurveKind, hasWeights: bool, generate: KnotGenerator)
    requires |inp.vertices| >= inp.degree + 1 && |inp.weights| >= 1
    ensures BuildCurve(inp, Settings(kind, Auto, true, hasWeights), generate).Ok?
    ensures var c := BuildCurve(inp, Settings(kind, Auto, true, hasWeights), generate).value;
      var nTotal := |inp.vertices| + inp.degree + 1;
      |c.ctrlpts| == nTotal
      && c.ctrlpts[..|inp.vertices|] == inp.vertices
      && c.ctrlpts[|inp.vertices|..] == inp.vertices[..inp.degree + 1]
      && c.knots == CyclicKnots(nTotal, inp.degree)
      && c.uBounds == (inp.degree as real, (nTotal - 1) as real)
    ensures var c := BuildCurve(inp, Settings(kind, Auto, true, hasWeights), generate).value;
      var padded := FullList(inp.weights, |inp.vertices|).value;
      c.weights.Some? ==>
      && |c.weights.value| == |padded| + inp.degree + 1
      && c.weights.value[..|padded|] == padded
      && c.weights.value[|padded|..] == padded[..inp.degree + 1]
  {
    var cfg := Settings(kind, Auto, true, hasWeights);
    var c := BuildCurve(inp, cfg, generate);
    var pts := ExtendRow(inp.vertices, inp.degree);
    var nTotal := |inp.vertices| + inp.degree + 1;
    assert |pts| == nTotal;
    CyclicAutoBounds(nTotal, inp.degree);
    assert c.Ok?;
    assert c.value.ctrlpts == pts;
    assert pts[|inp.vertices|..] == inp.vertices[..inp.degree + 1];
    var padded := FullList(inp.weights, |inp.vertices|).value;
    var wts := ExtendRow(padded, inp.degree);
    assert wts[|padded|..] == padded[..inp.degree + 1];
  }

  /**
   * The u-bounds follow the cyclic flag in EXPLICIT mode as well: a
   * cyclic flag reads knots[degree] and knots[-degree-2] of the given
   * vector, although the control polygon is left unextended.
   */
  lemma ExplicitCyclicBounds<P>(inp: CurveInput<P>, kind: CurveKind, hasWeights: bool, generate: KnotGenerator)
    requires |inp.knots| >= inp.degree + 2 && |inp.weights| >= 1
    ensures BuildCurve(inp, Settings(kind, Explicit, true, hasWeights), generate).Ok?
    ensures var c := BuildCurve(inp, Settings(kind, Explicit, true, hasWeights), generate).value;
      c.ctrlpts == inp.vertices
      && c.uBounds == (inp.knots[inp.degree], inp.knots[|inp.knots| - inp.degree - 2])
  {
  }

  /**
   * Non-cyclic curves span from the smallest to the largest knot whatever
   * the knot mode.
   */
  lemma NonCyclicBoundsSpanKnots<P>(inp: CurveInput<P>, cfg: Settings, generate: KnotGenerator)
    requires !cfg.cyclic
    requires BuildCurve(inp, cfg, generate).Ok?
    ensures var c := BuildCurve(inp, cfg, generate).value;
      c.uBounds.0 in c.knots && c.uBounds.1 in c.knots
      && forall i :: 0 <= i < |c.knots| ==> c.uBounds.0 <= c.knots[i] <= c.uBounds.1
  {
    var c := BuildCurve(inp, cfg, generate).value;
    assert Bounds(c.knots, inp.degree, false) == Ok(c.uBounds);
  }

  /** Building one curve from one input tuple. */
  type Builder<!P> = CurveInput<P> -> Result<BuiltCurve<P>, CurveError>

  /**
   * The node loop: one curve per input tuple, in order, and beside each
   * curve its knot vector; the first failing tuple stops the node.
   */
  function BuildAll<P>(inputs: seq<CurveInput<P>>, build: Builder<P>): (r: Result<(seq<BuiltCurve<P>>, seq<seq<real>>), CurveError>)
    ensures r.Ok? <==> forall i :: 0 <= i < |inputs| ==> build(inputs[i]).Ok?
    ensures r.Ok? ==> |r.value.0| == |inputs| && |r.value.1| == |inputs|
    ensures r.Ok? ==> forall i :: 0 <= i < |inputs| ==> Ok(r.value.0[i]) == build(inputs[i])
    ensures r.Ok? ==> forall i :: 0 <= i < |inputs| ==> r.value.1[i] == r.value.0[i].knots
  {
    if |inputs| == 0 then Ok(([], []))
    else
      match build(inputs[0])
      case Err(e) => Err(e)
      case Ok(c) =>
        match BuildAll(inputs[1..], build)
        case Err(e) =>
          assert exists i :: 0 <= i < |inputs| && build(inputs[i]).Err? by {
            var j :| 0 <= j < |inputs[1..]| && build(inputs[1..][j]).Err?;
            assert inputs[1..][j] == inputs[j + 1];
          }
          Err(e)
        case Ok(rest) =>
          assert forall i :: 1 <= i < |inputs| ==> inputs[i] == inputs[1..][i - 1];
          Ok(([c] + rest.0, [c.knots] + rest.1))
  }

  /** The node's two outputs: the curves and, beside each, its knot vector. */
  function BuildCurves<P>(inputs: seq<CurveInput<P>>, cfg: Settings, generate: KnotGenerator): (r: Result<(seq<BuiltCurve<P>>, seq<seq<real>>), CurveError>)
    ensures r.Ok? <==> forall i :: 0 <= i < |inputs| ==> BuildCurve(inputs[i], cfg, generate).Ok?
    ensures r.Ok? ==> |r.value.0| == |inputs| && |r.value.1| == |inputs|
    ensures r.Ok? ==> forall i :: 0 <= i < |inputs| ==> Ok(r.value.0[i]) == BuildCurve(inputs[i], cfg, generate)
    ensures r.Ok? ==> forall i :: 0 <= i < |inputs| ==> r.value.1[i] == r.value.0[i].knots
  {
    BuildAll(inputs, inp => BuildCurve(inp, cfg, generate))
  }
}

=== FILE: nurbs_surface.dfy ===
/**
 * The control-net handling of the NURBS surface builder
 * (nodes/surface/nurbs_surface.py): fixed-size chunking of a flat point
 * list into rows, padding of the weights, the cyclic extension of the
 * net in V and U, and the knot vectors and parameter bounds of both
 * directions. Control points are kept abstract (type parameter `P`);
 * the evaluation and tessellation of the resulting surface belong to the
 * NURBS library and are not modelled.
 */
module NurbsSurface {
  import opened Wrappers
  import opened NurbsCommon
  import Arith

  datatype NetError =
    | ZeroUSize        // `len(vertices) // u_size` with u_size == 0
    | NoWeights        // padding an empty weight list reads `l[-1]`
    | EmptyNet         // `len(vertices[0])` of a net without rows
    | BadKnots(e: KnotError)

  /** A control net whose every row has exactly `width` entries. */
  predicate Rectangular<T>(rows: seq<seq<T>>, width: nat) {
    forall i :: 0 <= i < |rows| ==> |rows[i]| == width
  }

  /** The rows of a chunked list, concatenated back. */
  function Flatten<T>(rows: seq<seq<T>>): seq<T> {
    if |rows| == 0 then [] else rows[0] + Flatten(rows[1..])
  }

  /** Number of chunks of size n >= 1 needed to hold `len` items. */
  function CeilDiv(len: nat, n: nat): nat
    requires n >= 1
  {
    (len + n - 1) / n
  }

  /**
   * The `grouper` recipe: consecutive chunks of n items, the last one
   * padded with `fill`. With n == 0 the recipe zips no iterators at all
   * and yields no chunk. Flattening the chunks gives `xs` followed by
   * fewer than n copies of `fill`.
   */
  function Grouper<T>(xs: seq<T>, n: nat, fill: T): (rows: seq<seq<T>>)
    decreases |xs|
    ensures n == 0 ==> rows == []
    ensures Rectangular(rows, n)
    ensures n >= 1 ==> |xs| <= |Flatten(rows)| < |xs| + n
    ensures n >= 1 ==> Flatten(rows) == xs + Repeat(fill, |Flatten(rows)| - |xs|)
  {
    if n == 0 || |xs| == 0 then []
    else if |xs| <= n then
      var row := xs + Repeat(fill, n - |xs|);
      assert Flatten([row]) == row;
      [row]
    else
      var rest := Grouper(xs[n..], n, fill);
      var pad := |Flatten(rest)| - |xs[n..]|;
      assert Flatten([xs[..n]] + rest) == xs[..n] + Flatten(rest) by {
        assert ([xs[..n]] + rest)[1..] == rest;
      }
      assert xs[..n] + (xs[n..] + Repeat(fill, pad)) == xs + Repeat(fill, pad) by {
        assert xs[..n] + xs[n..] == xs;
      }
      [xs[..n]] + rest
  }

  /** A rectangular net of width n flattens to |rows| * n items. */
  lemma {:induction false} FlattenLength<T>(rows: seq<seq<T>>, n: nat)
    requires Rectangular(rows, n)
    ensures |Flatten(rows)| == |rows| * n
  {
    if |rows| > 0 {
      FlattenLength(rows[1..], n);
      Arith.MulSucc(|rows| - 1, n);
    }
  }

  /** The chunk count is ceil(len / n). */
  lemma GrouperCount<T>(xs: seq<T>, n: nat, fill: T)
    requires n >= 1
    ensures |Grouper(xs, n, fill)| == CeilDiv(|xs|, n)
  {
    var rows := Grouper(xs, n, fill);
    FlattenLength(rows, n);
    var k := |rows|;
    // |xs| <= k*n < |xs| + n pins k down to ceil(|xs| / n).
    Arith.DivModUnique(|xs| + n - 1, n, k, |xs| + n - 1 - k * n);
  }

  /** Chunk i of a list holding at least i+1 whole chunks is xs[i*n .. i*n+n]. */
  lemma {:induction false} GrouperChunk<T>(xs: seq<T>, n: nat, fill: T, i: nat)
    requires n >= 1 && i * n + n <= |xs|
    ensures i < |Grouper(xs, n, fill)| && Grouper(xs, n, fill)[i] == xs[i * n .. i * n + n]
    decreases i
  {
    if i == 0 {
      assert xs + Repeat(fill, 0) == xs;
    } else {
      Arith.MulSucc(i - 1, n);
      Arith.MulLe(1, i, n);
      var rest := Grouper(xs[n..], n, fill);
      GrouperChunk(xs[n..], n, fill, i - 1);
      assert Grouper(xs, n, fill)[i] == rest[i - 1];
      assert xs[n..][(i - 1) * n .. (i - 1) * n + n] == xs[i * n .. i * n + n];
    }
  }

  /** When n divides the length into k chunks, no padding is added and chunk i is xs[i*n .. i*n+n]. */
  lemma GrouperExact<T>(xs: seq<T>, n: nat, fill: T, k: nat)
    requires n >= 1 && |xs| == k * n
    ensures |Grouper(xs, n, fill)| == k
    ensures forall i :: 0 <= i < k ==> i * n + n <= |xs| && Grouper(xs, n, fill)[i] == xs[i * n .. i * n + n]
  {
    GrouperCount(xs, n, fill);
    Arith.DivModUnique(k * n + n - 1, n, k, n - 1);
    forall i | 0 <= i < k
      ensures i * n + n <= |xs| && Grouper(xs, n, fill)[i] == xs[i * n .. i * n + n]
    {
      Arith.MulLe(i + 1, k, n);
      Arith.MulSucc(i, n);
      GrouperChunk(xs, n, fill, i);
    }
  }

  /**
   * 1D input mode: the weights are padded to the point count first (no
   * weight at all fails there), then the flat point list is cut into rows
   * of n_u = len // u_size points (u_size = 0 fails there); the padded
   * weights are cut with the same n_u. Points of an incomplete last row
   * are `None`, as the recipe pads with None.
   */
  function Chunk1D<P>(vertices: seq<P>, weights: seq<real>, uSize: nat): (r: Result<(seq<seq<Option<P>>>, seq<seq<Option<real>>>), NetError>)
    ensures |weights| == 0 && |vertices| > 0 ==> r == Err(NoWeights)
    ensures uSize == 0 && (|weights| > 0 || |vertices| == 0) ==> r == Err(ZeroUSize)
    ensures r.Ok? <==> uSize >= 1 && (|weights| > 0 || |vertices| == 0)
    ensures r.Ok? ==> Rectangular(r.value.0, |vertices| / uSize) && Rectangular(r.value.1, |vertices| / uSize)
  {
    match FullList(weights, |vertices|)
    case None => Err(NoWeights)
    case Some(padded) =>
      if uSize == 0 then Err(ZeroUSize)
      else
        var nU := |vertices| / uSize;
        Ok((Grouper(Wrap(vertices), nU, None), Grouper(Wrap(padded), nU, None)))
  }

  /** Every element as present. */
  function Wrap<T>(xs: seq<T>): (r: seq<Option<T>>)
    ensures |r| == |xs|
    ensures forall i :: 0 <= i < |xs| ==> r[i] == Some(xs[i])
  {
    seq(|xs|, i requires 0 <= i < |xs| => Some(xs[i]))
  }

  /**
   * `rows` is `xs` cut into u_size rows of k items, none missing: row i
   * holds items i*k .. i*k+k-1.
   */
  ghost predicate ExactRows<T>(rows: seq<seq<Option<T>>>, xs: seq<T>, k: nat, uSize: nat) {
    && |rows| == uSize
    && Rectangular(rows, k)
    && forall i, j :: 0 <= i < uSize && 0 <= j < k ==>
         i * k + j < |xs| && rows[i][j] == Some(xs[i * k + j])
  }

  /**
   * When u_size divides the point count into rows of k >= 1 points, 1D
   * mode yields exactly u_size rows of k points, row i being points
   * i*k .. i*k+k-1 and no point missing, and the weight rows (weights
   * given for every point) line up with them one for one.
   */
  lemma Chunk1DExact<P>(vertices: seq<P>, weights: seq<real>, uSize: nat, k: nat)
    requires uSize >= 1 && k >= 1 && |vertices| == uSize * k && |weights| == |vertices|
    ensures Chunk1D(vertices, weights, uSize).Ok?
    ensures ExactRows(Chunk1D(vertices, weights, uSize).value.0, vertices, k, uSize)
    ensures ExactRows(Chunk1D(vertices, weights, uSize).value.1, weights, k, uSize)
  {
    Chunk1DDivides(vertices, weights, uSize, k);
    WrappedChunks(vertices, k, uSize);
    WrappedChunks(weights, k, uSize);
  }

  /** A fully present list of u_size * k items falls into u_size rows of k, row i holding items i*k … i*k+k-1. */
  lemma WrappedChunks<T>(xs: seq<T>, k: nat, uSize: nat)
    requires k >= 1 && |xs| == uSize * k
    ensures ExactRows(Grouper(Wrap(xs), k, None), xs, k, uSize)
  {
    var g := Grouper(Wrap(xs), k, None);
    GrouperExact(Wrap(xs), k, None, uSize);
    forall i, j | 0 <= i < uSize && 0 <= j < k
      ensures i * k + j < |xs| && g[i][j] == Some(xs[i * k + j])
    {
      WrappedChunkAt(xs, k, uSize, i, j);
    }
  }

  /** With u_size * k points, 1D mode chunks points and weights by k. */
  lemma Chunk1DDivides<P>(vertices: seq<P>, weights: seq<real>, uSize: nat, k: nat)
    requires uSize >= 1 && k >= 1 && |vertices| == uSize * k && |weights| == |vertices|
    ensures Chunk1D(vertices, weights, uSize) == Ok((Grouper(Wrap(vertices), k, None), Grouper(Wrap(weights), k, None)))
  {
    Arith.DivModUnique(|vertices|, uSize, k, 0);
    assert FullList(weights, |vertices|) == Some(weights);
  }

  /** Entry j of chunk i of a fully present list of u_size * k items is item i*k + j. */
  lemma WrappedChunkAt<T>(xs: seq<T>, k: nat, uSize: nat, i: nat, j: nat)
    requires k >= 1 && |xs| == uSize * k && i < uSize && j < k
    ensures i < |Grouper(Wrap(xs), k, None)| && j < |Grouper(Wrap(xs), k, None)[i]|
    ensures i * k + j < |xs| && Grouper(Wrap(xs), k, None)[i][j] == Some(xs[i * k + j])
  {
    Arith.MulLe(i + 1, uSize, k);
    Arith.MulSucc(i, k);
    GrouperChunk(Wrap(xs), k, None, i);
  }

  /**
   * When the row length n_u = len // u_size does not divide the point
   * count, there are ceil(len / n_u) rows (not u_size) and the last one
   * carries `None` padding (the later conversion of such a row fails).
   * Ten points with u_size 4 give n_u = 2 and five full rows: no padding.
   */
  lemma Chunk1DRagged<P>(vertices: seq<P>, weights: seq<real>, uSize: nat)
    requires uSize >= 1 && |weights| >= 1
    requires |vertices| / uSize >= 1 && |vertices| % (|vertices| / uSize) != 0
    ensures Chunk1D(vertices, weights, uSize).Ok?
    ensures None in Flatten(Chunk1D(vertices, weights, uSize).value.0)
  {
    var nU := |vertices| / uSize;
    var rows := Chunk1D(vertices, weights, uSize).value.0;
    var flat := Flatten(rows);
    FlattenLength(rows, nU);
    Arith.MulMod(|rows|, nU);
    assert |flat| > |vertices|;
    assert flat[|vertices|] == None;
  }

  /** Cyclic V: every row wraps around by its own first degree_v+1 entries. */
  function ExtendCyclicV<T>(rows: seq<seq<T>>, degreeV: nat): (r: seq<seq<T>>)
    ensures |r| == |rows|
    ensures forall i :: 0 <= i < |rows| ==> r[i] == ExtendRow(rows[i], degreeV)
  {
    seq(|rows|, i requires 0 <= i < |rows| => ExtendRow(rows[i], degreeV))
  }

  /** Cyclic U: the net wraps around by its first degree_u+1 rows. */
  function ExtendCyclicU<T>(rows: seq<seq<T>>, degreeU: nat): (r: seq<seq<T>>)
    ensures |r| == |rows| + (if degreeU + 1 < |rows| then degreeU + 1 else |rows|)
    ensures r[..|rows|] == rows
    ensures forall i :: |rows| <= i < |r| ==> r[i] == rows[i - |rows|]
  {
    ExtendRow(rows, degreeU)
  }

  /**
   * The AUTO-mode extension of the net: V first, then U, so the appended
   * rows are already V-extended.
   */
  function ExtendNet<T>(rows: seq<seq<T>>, cyclicU: bool, cyclicV: bool, degreeU: nat, degreeV: nat): seq<seq<T>> {
    var vExt := if cyclicV then ExtendCyclicV(rows, degreeV) else rows;
    if cyclicU then ExtendCyclicU(vExt, degreeU) else vExt
  }

  /**
   * Extension keeps a net rectangular: rows of width w >= degree_v+1 come
   * out with width w + degree_v + 1 (or w when V is not cyclic), and the
   * row count grows by degree_u+1 when there are more rows than that.
   */
  lemma ExtendNetRectangular<T>(rows: seq<seq<T>>, w: nat, cyclicU: bool, cyclicV: bool, degreeU: nat, degreeV: nat)
    requires Rectangular(rows, w) && degreeV + 1 < w && degreeU + 1 < |rows|
    ensures Rectangular(ExtendNet(rows, cyclicU, cyclicV, degreeU, degreeV), if cyclicV then w + degreeV + 1 else w)
    ensures |ExtendNet(rows, cyclicU, cyclicV, degreeU, degreeV)| == if cyclicU then |rows| + degreeU + 1 else |rows|
  {
    var vExt := if cyclicV then ExtendCyclicV(rows, degreeV) else rows;
    var w' := if cyclicV then w + degreeV + 1 else w;
    assert Rectangular(vExt, w');
    var r := ExtendNet(rows, cyclicU, cyclicV, degreeU, degreeV);
    forall i | 0 <= i < |r| ensures |r[i]| == w' {
      if cyclicU && i >= |vExt| {
        assert r[i] == vExt[i - |vExt|];
      } else {
        assert r[i] == vExt[i];
      }
    }
  }

  /**
   * Point (i, j) of the extended net is point (i mod n_u, j mod n_v) of
   * the input net: extension only wraps around, it never invents points.
   */
  lemma ExtendNetWraps<T>(rows: seq<seq<T>>, w: nat, cyclicU: bool, cyclicV: bool, degreeU: nat, degreeV: nat, i: nat, j: nat)
    requires Rectangular(rows, w) && degreeV + 1 < w && degreeU + 1 < |rows|
    requires i < |ExtendNet(rows, cyclicU, cyclicV, degreeU, degreeV)|
    requires j < (if cyclicV then w + degreeV + 1 else w)
    ensures WrapsAround(rows, w, cyclicU, cyclicV, degreeU, degreeV, i, j)
  {
    ExtendNetRectangular(rows, w, cyclicU, cyclicV, degreeU, degreeV);
    var vExt := if cyclicV then ExtendCyclicV(rows, degreeV) else rows;
    var r := ExtendNet(rows, cyclicU, cyclicV, degreeU, degreeV);
    var i0 := if i < |rows| then i else i - |rows|;
    assert r[i] == vExt[i0];
    if cyclicV {
      assert vExt[i0] == ExtendRow(rows[i0], degreeV);
    }
  }

  /** Entry (i, j) of the extended net is entry (i mod rows, j mod w) of the input. */
  ghost predicate WrapsAround<T>(rows: seq<seq<T>>, w: nat, cyclicU: bool, cyclicV: bool, degreeU: nat, degreeV: nat, i: nat, j: nat)
    requires Rectangular(rows, w) && degreeV + 1 < w && degreeU + 1 < |rows|
  {
    var r := ExtendNet(rows, cyclicU, cyclicV, degreeU, degreeV);
    var i0 := if i < |rows| then i else i - |rows|;
    var j0 := if j < w then j else j - w;
    i < |r| && j < |r[i]| && i0 < |rows| && j0 < w && r[i][j] == rows[i0][j0]
  }

  /** What the builder hands to the NURBS library. */
  datatype SurfaceNet<P> = SurfaceNet(
    points: seq<seq<P>>,
    weights: seq<seq<real>>,
    knotsU: seq<real>,
    knotsV: seq<real>,
    uBounds: (real, real),
    vBounds: (real, real))

  /**
   * Net extension, knots and bounds for one surface given as rows of
   * points and rows of weights. n_u_total and n_v_total are read off the
   * (extended) point net; its first row must exist.
   */
  function BuildSurface<P>(points: seq<seq<P>>, weights: seq<seq<real>>, degreeU: nat, degreeV: nat,
                           mode: KnotMode, cyclicU: bool, cyclicV: bool,
                           givenU: seq<real>, givenV: seq<real>, generate: KnotGenerator): (r: Result<SurfaceNet<P>, NetError>)
    ensures |points| == 0 ==> r == Err(EmptyNet)
    ensures r.Ok? && mode == Explicit ==> r.value.knotsU == givenU && r.value.knotsV == givenV && r.value.points == points
    ensures r.Ok? && mode == Auto ==> r.value.points == ExtendNet(points, cyclicU, cyclicV, degreeU, degreeV)
    ensures r.Ok? && mode == Auto ==> r.value.weights == ExtendNet(weights, cyclicU, cyclicV, degreeU, degreeV)
    ensures r.Ok? && mode == Explicit ==> r.value.weights == weights
    ensures r.Ok? ==> |r.value.points| > 0
    ensures r.Ok? ==> r.value.knotsU == ChooseKnots(mode, cyclicU, |r.value.points|, degreeU, givenU, generate)
    ensures r.Ok? ==> r.value.knotsV == ChooseKnots(mode, cyclicV, |r.value.points[0]|, degreeV, givenV, generate)
    ensures r.Ok? ==> Bounds(r.value.knotsU, degreeU, cyclicU) == Ok(r.value.uBounds)
    ensures r.Ok? ==> Bounds(r.value.knotsV, degreeV, cyclicV) == Ok(r.value.vBounds)
  {
    var pts := if mode == Auto then ExtendNet(points, cyclicU, cyclicV, degreeU, degreeV) else points;
    var wts := if mode == Auto then ExtendNet(weights, cyclicU, cyclicV, degreeU, degreeV) else weights;
    if |pts| == 0 then Err(EmptyNet)
    else
      var nU := |pts|;
      var nV := |pts[0]|;
      var ku := ChooseKnots(mode, cyclicU, nU, degreeU, givenU, generate);
      var kv := ChooseKnots(mode, cyclicV, nV, degreeV, givenV, generate);
      match (Bounds(ku, degreeU, cyclicU), Bounds(kv, degreeV, cyclicV))
      case (Err(e), _) => Err(BadKnots(e))
      case (_, Err(e)) => Err(BadKnots(e))
      case (Ok(ub), Ok(vb)) => Ok(SurfaceNet(pts, wts, ku, kv, ub, vb))
  }

  /**
   * AUTO mode, cyclic in both directions, on a rectangular net of
   * n_u x w points (degree+1 smaller than both): the builder succeeds, the
   * net grows to (n_u + degree_u + 1) x (w + degree_v + 1), both knot
   * vectors are uniform, and the bounds are (degree, n_total - 1) in each
   * direction.
   */
  lemma CyclicSurfaceBounds<P>(points: seq<seq<P>>, weights: seq<seq<real>>, w: nat, degreeU: nat, degreeV: nat,
                               givenU: seq<real>, givenV: seq<real>, generate: KnotGenerator)
    requires Rectangular(points, w) && degreeV + 1 < w && degreeU + 1 < |points|
    ensures BuildSurface(points, weights, degreeU, degreeV, Auto, true, true, givenU, givenV, generate).Ok?
    ensures var s := BuildSurface(points, weights, degreeU, degreeV, Auto, true, true, givenU, givenV, generate).value;
      var nU := |points| + degreeU + 1;
      var nV := w + degreeV + 1;
      |s.points| == nU && Rectangular(s.points, nV)
      && s.knotsU == CyclicKnots(nU, degreeU) && s.knotsV == CyclicKnots(nV, degreeV)
      && s.uBounds == (degreeU as real, (nU - 1) as real)
      && s.vBounds == (degreeV as real, (nV - 1) as real)
  {
    var pts := ExtendNet(points, true, true, degreeU, degreeV);
    var wts := ExtendNet(weights, true, true, degreeU, degreeV);
    var nU := |points| + degreeU + 1;
    var nV := w + degreeV + 1;
    ExtendNetRectangular(points, w, true, true, degreeU, degreeV);
    assert |pts| == nU && |pts[0]| == nV;
    CyclicAutoBounds(nU, degreeU);
    CyclicAutoBounds(nV, degreeV);
    assert BuildSurface(points, weights, degreeU, degreeV, Auto, true, true, givenU, givenV, generate)
      == Ok(SurfaceNet(pts, wts, CyclicKnots(nU, degreeU), CyclicKnots(nV, degreeV),
                       (degreeU as real, (nU - 1) as real), (degreeV as real, (nV - 1) as real)));
  }

  /**
   * In EXPLICIT knot mode the net is used as given, yet the bounds still
   * follow the cyclic flags: a cyclic flag reads the bounds at
   * knots[degree] and knots[-degree-2] of the given vector.
   */
  lemma ExplicitBoundsFollowCyclicFlag<P>(points: seq<seq<P>>, weights: seq<seq<real>>, degreeU: nat, degreeV: nat,
                                         givenU: seq<real>, givenV: seq<real>, generate: KnotGenerator)
    requires |points| > 0 && |givenU| >= degreeU + 2 && |givenV| > 0
    ensures BuildSurface(points, weights, degreeU, degreeV, Explicit, true, false, givenU, givenV, generate).Ok?
    ensures BuildSurface(points, weights, degreeU, degreeV, Explicit, true, false, givenU, givenV, generate).value.uBounds
      == (givenU[degreeU], givenU[|givenU| - degreeU - 2])
  {
  }
}

=== FILE: raycaster.dfy ===
/**
 * The surface raycaster (`SurfaceRaycaster`, utils/geom.py:137-254): a
 * coarse quad mesh over an s × s parameter grid, a BVH over it that gives
 * each ray a first guess (the hit quad's centre), and a per-ray policy
 * for rays that miss. The BVH and the 3-unknown refinement solver are
 * oracles; the grid topology, the guesses and the policy are exact.
 */
module Raycaster {
  import opened Wrappers
  import opened Vectors
  import opened Sampling
  import opened GeomErrors
  import opened SurfaceProjection
  import opened Arith

  // ---------------------------------------------------------------------
  // The parameter grid and its quads (`init_bvh`, `_make_faces`)
  // ---------------------------------------------------------------------

  /**
   * `meshgrid(us, vs)` flattened row by row: grid point row * s + col
   * carries us[col] and vs[row].
   */
  function GridUs(lin: seq<real>): (g: seq<real>)
    ensures |g| == |lin| * |lin|
  {
    seq(|lin| * |lin|, i requires 0 <= i < |lin| * |lin| => lin[i % |lin|])
  }

  function GridVs(lin: seq<real>): (g: seq<real>)
    ensures |g| == |lin| * |lin|
  {
    seq(|lin| * |lin|, i requires 0 <= i < |lin| * |lin| => lin[i / |lin|])
  }

  /** A quad of four grid-point indices. */
  datatype Quad = Quad(a: nat, b: nat, c: nat, d: nat)

  /**
   * The coarse mesh: quad k and its centre guess (centreUs[k],
   * centreVs[k]).
   */
  datatype Faces = Faces(centreUs: seq<real>, centreVs: seq<real>, quads: seq<Quad>)

  /** The quad whose lower-left corner is grid point (row, col). */
  function CellQuad(s: nat, row: nat, col: nat): Quad {
    var i := row * s + col;
    Quad(i, i + s, i + s + 1, i + 1)
  }

  /**
   * `_make_faces` for `samples` = s over [uMin, uMax] × [vMin, vMax]:
   * rows outer, columns inner, so quad k sits in row k / (s − 1) and
   * column k % (s − 1). Its centre guess is the grid point's parameters
   * shifted by (uMax − uMin) / 2s and (vMax − vMin) / 2s. Zero samples
   * divide by zero.
   */
  function MakeFaces(s: nat, uMin: real, uMax: real, vMin: real, vMax: real): (r: Result<Faces, GeomError>)
    ensures r.Err? <==> s == 0
    ensures r.Err? ==> r.error == ZeroSamples
    ensures r.Ok? ==> |r.value.quads| == |r.value.centreUs| == |r.value.centreVs| == (s - 1) * (s - 1)
    ensures r.Ok? && s >= 2 ==> forall k :: 0 <= k < |r.value.quads| ==> r.value.quads[k] == CellQuad(s, Row(s, k), Col(s, k))
    ensures r.Ok? && s >= 2 ==> forall k :: 0 <= k < |r.value.quads| ==>
              r.value.centreUs[k] == Linspace(uMin, uMax, s)[Col(s, k)] + (uMax - uMin) / (2 * s) as real
    ensures r.Ok? && s >= 2 ==> forall k :: 0 <= k < |r.value.quads| ==>
              r.value.centreVs[k] == Linspace(vMin, vMax, s)[Row(s, k)] + (vMax - vMin) / (2 * s) as real
  {
    if s == 0 then Err(ZeroSamples)
    else if s == 1 then Ok(Faces([], [], []))
    else
      var uh2 := (uMax - uMin) / (2 * s) as real;
      var vh2 := (vMax - vMin) / (2 * s) as real;
      Ok(Faces(CentreUs(Linspace(uMin, uMax, s), uh2), CentreVs(Linspace(vMin, vMax, s), vh2), Quads(s)))
  }

  /** The quads row by row, s − 1 to a row. */
  function Quads(s: nat): (qs: seq<Quad>)
    requires s >= 2
    ensures |qs| == (s - 1) * (s - 1)
    ensures forall k :: 0 <= k < |qs| ==> qs[k] == CellQuad(s, Row(s, k), Col(s, k))
  {
    var n := (s - 1) * (s - 1);
    seq(n, k requires 0 <= k < n => CellQuad(s, Row(s, k), Col(s, k)))
  }

  /** The u of each quad's lower-left corner, shifted by `h`. */
  function CentreUs(lin: seq<real>, h: real): (cs: seq<real>)
    requires |lin| >= 2
    ensures |cs| == (|lin| - 1) * (|lin| - 1)
    ensures forall k :: 0 <= k < |cs| ==> cs[k] == lin[Col(|lin|, k)] + h
  {
    var n := (|lin| - 1) * (|lin| - 1);
    seq(n, k requires 0 <= k < n => CornerU(lin, k) + h)
  }

  /** The v of each quad's lower-left corner, shifted by `h`. */
  function CentreVs(lin: seq<real>, h: real): (cs: seq<real>)
    requires |lin| >= 2
    ensures |cs| == (|lin| - 1) * (|lin| - 1)
    ensures forall k :: 0 <= k < |cs| ==> cs[k] == lin[Row(|lin|, k)] + h
  {
    var n := (|lin| - 1) * (|lin| - 1);
    seq(n, k requires 0 <= k < n => CornerV(lin, k) + h)
  }

  /** `us[i]` of the meshgrid at the lower-left corner i of quad k: the quad's column sample. */
  function CornerU(lin: seq<real>, k: nat): (u: real)
    requires |lin| >= 2 && k < (|lin| - 1) * (|lin| - 1)
    ensures u == lin[Col(|lin|, k)]
  {
    CornerParams(|lin|, k, lin, lin);
    GridUs(lin)[CellIndex(|lin|, k)]
  }

  /** `vs[i]` of the meshgrid at the lower-left corner i of quad k: the quad's row sample. */
  function CornerV(lin: seq<real>, k: nat): (v: real)
    requires |lin| >= 2 && k < (|lin| - 1) * (|lin| - 1)
    ensures v == lin[Row(|lin|, k)]
  {
    CornerParams(|lin|, k, lin, lin);
    GridVs(lin)[CellIndex(|lin|, k)]
  }

  /** The lower-left corner of quad k carries the quad's column and row samples. */
  lemma CornerParams(s: nat, k: nat, linU: seq<real>, linV: seq<real>)
    requires s >= 2 && k < (s - 1) * (s - 1) && |linU| == s && |linV| == s
    ensures CellIndex(s, k) < s * s
    ensures GridUs(linU)[CellIndex(s, k)] == linU[Col(s, k)]
    ensures GridVs(linV)[CellIndex(s, k)] == linV[Row(s, k)]
  {
    CellIndexDecodes(s, k);
    GridAt(linU, Row(s, k), Col(s, k));
    GridAt(linV, Row(s, k), Col(s, k));
  }

  /** Grid point row * s + col carries us[col] and vs[row]. */
  lemma GridAt(lin: seq<real>, row: nat, col: nat)
    requires row < |lin| && col < |lin|
    ensures row * |lin| + col < |lin| * |lin|
    ensures GridUs(lin)[row * |lin| + col] == lin[col]
    ensures GridVs(lin)[row * |lin| + col] == lin[row]
  {
    GridIndex(row, col, |lin|, |lin|);
  }

  /** Row of quad k: quads are laid out row by row, s − 1 to a row. */
  function Row(s: nat, k: nat): (row: nat)
    requires s >= 2 && k < (s - 1) * (s - 1)
    ensures row < s - 1
  {
    QuadRowInRange(s, k);
    k / (s - 1)
  }

  /** Column of quad k. */
  function Col(s: nat, k: nat): (col: nat)
    requires s >= 2
    ensures col < s - 1
  {
    k % (s - 1)
  }

  /** Grid point index of the lower-left corner of quad k. */
  function CellIndex(s: nat, k: nat): nat
    requires s >= 2 && k < (s - 1) * (s - 1)
  {
    Row(s, k) * s + Col(s, k)
  }

  lemma CellIndexDecodes(s: nat, k: nat)
    requires s >= 2 && k < (s - 1) * (s - 1)
    ensures CellIndex(s, k) < s * s
    ensures CellIndex(s, k) % s == Col(s, k)
    ensures CellIndex(s, k) / s == Row(s, k)
  {
    GridIndex(Row(s, k), Col(s, k), s, s);
  }

  /** Quad k of an s × s grid lies in a row below s − 1. */
  lemma QuadRowInRange(s: nat, k: nat)
    requires s >= 2 && k < (s - 1) * (s - 1)
    ensures k / (s - 1) < s - 1
  {
    var row := k / (s - 1);
    assert k == row * (s - 1) + k % (s - 1);
    if row >= s - 1 {
      MulLe(s - 1, row, s - 1);
      assert false;
    }
  }

  /** Every corner of every quad is a grid point: all indices are below s². */
  lemma QuadIndicesInGrid(s: nat, k: nat)
    requires s >= 2 && k < (s - 1) * (s - 1)
    ensures var q := CellQuad(s, Row(s, k), Col(s, k));
            q.a < s * s && q.b < s * s && q.c < s * s && q.d < s * s
  {
    var row, col := Row(s, k), Col(s, k);
    GridIndex(row + 1, col + 1, s, s);
    GridIndex(row, col, s, s);
  }

  /**
   * Quad k is the grid cell of its row and column: its corners run
   * (row, col), (row + 1, col), (row + 1, col + 1), (row, col + 1) in
   * the flattened meshgrid.
   */
  lemma QuadSpansCell(lin: seq<real>, k: nat)
    requires |lin| >= 2 && k < (|lin| - 1) * (|lin| - 1)
    ensures var row, col := Row(|lin|, k), Col(|lin|, k);
            var q := CellQuad(|lin|, row, col);
            && q.a < |GridUs(lin)| && q.b < |GridUs(lin)| && q.c < |GridUs(lin)| && q.d < |GridUs(lin)|
            && GridUs(lin)[q.a] == lin[col] && GridVs(lin)[q.a] == lin[row]
            && GridUs(lin)[q.b] == lin[col] && GridVs(lin)[q.b] == lin[row + 1]
            && GridUs(lin)[q.c] == lin[col + 1] && GridVs(lin)[q.c] == lin[row + 1]
            && GridUs(lin)[q.d] == lin[col + 1] && GridVs(lin)[q.d] == lin[row]
  {
    var s, row, col := |lin|, Row(|lin|, k), Col(|lin|, k);
    var q := CellQuad(s, row, col);
    MulSucc(row, s);
    assert q.b == (row + 1) * s + col && q.c == (row + 1) * s + (col + 1) && q.d == row * s + (col + 1);
    GridAt(lin, row, col);
    GridAt(lin, row + 1, col);
    GridAt(lin, row + 1, col + 1);
    GridAt(lin, row, col + 1);
  }

  /** Each grid cell (row, col) is quad row * (s − 1) + col, and no other. */
  lemma CellIsQuad(s: nat, row: nat, col: nat)
    requires s >= 2 && row < s - 1 && col < s - 1
    ensures var k := row * (s - 1) + col;
            k < (s - 1) * (s - 1) && Row(s, k) == row && Col(s, k) == col
  {
    GridIndex(row, col, s - 1, s - 1);
  }

  /**
   * Over a non-degenerate domain the centre guess of quad k lies strictly
   * inside its cell: the offset of half a step over s falls short of the
   * grid spacing over s − 1.
   */
  lemma CentreInsideCell(s: nat, lo: real, hi: real, k: nat)
    requires s >= 2 && lo < hi && k < s - 1
    ensures Linspace(lo, hi, s)[k] < Linspace(lo, hi, s)[k] + (hi - lo) / (2 * s) as real < Linspace(lo, hi, s)[k + 1]
  {
    LinspaceAt(lo, hi, s, k);
    LinspaceAt(lo, hi, s, k + 1);
    SampleStep(lo, hi, s, k);
    HalfStepBelowSpacing(hi - lo, s);
  }

  /** The centre guesses of `MakeFaces` lie strictly inside their cells. */
  lemma FaceCentresInsideCells(s: nat, uMin: real, uMax: real, vMin: real, vMax: real, k: nat)
    requires uMin < uMax && vMin < vMax
    requires MakeFaces(s, uMin, uMax, vMin, vMax).Ok? && k < |MakeFaces(s, uMin, uMax, vMin, vMax).value.quads|
    ensures var f := MakeFaces(s, uMin, uMax, vMin, vMax).value;
            var linU, linV := Linspace(uMin, uMax, s), Linspace(vMin, vMax, s);
            && linU[Col(s, k)] < f.centreUs[k] < linU[Col(s, k) + 1]
            && linV[Row(s, k)] < f.centreVs[k] < linV[Row(s, k) + 1]
  {
    CentreInsideCell(s, uMin, uMax, Col(s, k));
    CentreInsideCell(s, vMin, vMax, Row(s, k));
  }

  // ---------------------------------------------------------------------
  // The BVH and the first guesses (`init_bvh`, `_init_guess`)
  // ---------------------------------------------------------------------

  /** A BVH hit: the point on the coarse mesh, the quad's index, the ray distance. */
  datatype Hit = Hit(point: Vec3, face: nat, dist: real)

  /** `BVHTree.ray_cast(origin, direction)` over the coarse mesh. */
  type Bvh = (Vec3, Vec3) -> Option<Hit>

  /** Every hit of the BVH names one of the first `count` quads. */
  ghost predicate HitsBelow(bvh: Bvh, count: nat) {
    forall p, d :: bvh(p, d).Some? ==> bvh(p, d).value.face < count
  }

  /** The mesh and the BVH built over it, both set by `init_bvh`. */
  datatype Index = Index(faces: Faces, bvh: Bvh)

  datatype SurfaceRaycaster = SurfaceRaycaster(surface: Surface, index: Option<Index>)

  /** A raycaster before `init_bvh`. */
  function NewRaycaster(surface: Surface): SurfaceRaycaster {
    SurfaceRaycaster(surface, None)
  }

  /**
   * `init_bvh(samples)`: build the mesh over the surface's domain and
   * install `bvh`, the host's BVH over that mesh.
   */
  function InitBvh(rc: SurfaceRaycaster, samples: nat, bvh: Bvh): (r: Result<SurfaceRaycaster, GeomError>)
    ensures r.Err? <==> samples == 0
    ensures r.Ok? ==> r.value.surface == rc.surface && r.value.index.Some?
    ensures r.Ok? ==> r.value.index.value.bvh == bvh
    ensures r.Ok? ==> |r.value.index.value.faces.quads| == (samples - 1) * (samples - 1)
  {
    var s := rc.surface;
    var faces :- MakeFaces(samples, s.uMin, s.uMax, s.vMin, s.vMax);
    Ok(SurfaceRaycaster(s, Some(Index(faces, bvh))))
  }

  /**
   * The BVH was built from these quads, so every hit names one of them.
   */
  ghost predicate HitsKnownFaces(rc: SurfaceRaycaster) {
    rc.index.Some? ==>
      var idx := rc.index.value;
      |idx.faces.centreUs| == |idx.faces.quads| && |idx.faces.centreVs| == |idx.faces.quads|
      && HitsBelow(idx.bvh, |idx.faces.quads|)
  }

  /**
   * A BVH built over the quads of `init_bvh(samples)` names one of them
   * in every hit, so the raycaster it yields knows all faces it can hit.
   */
  lemma InitBvhKnowsFaces(rc: SurfaceRaycaster, samples: nat, bvh: Bvh)
    requires HitsBelow(bvh, (samples - 1) * (samples - 1))
    ensures InitBvh(rc, samples, bvh).Ok? ==> HitsKnownFaces(InitBvh(rc, samples, bvh).value)
  {
    if samples > 0 {
      var faces := MakeFaces(samples, rc.surface.uMin, rc.surface.uMax, rc.surface.vMin, rc.surface.vMax).value;
      assert |faces.quads| == (samples - 1) * (samples - 1);
    }
  }

  /** A first guess: the hit quad's centre, the ray distance and the hit point. */
  datatype InitHit = InitHit(u: real, v: real, t: real, point: Vec3)

  /** `RaycastInitGuess`: one entry per ray (`None` for a miss) and `all_good`. */
  datatype Guess = Guess(entries: seq<Option<InitHit>>, allGood: bool)

  function Min(a: nat, b: nat): nat {
    if a < b then a else b
  }

  /** The first guess of a hit: its quad's centre, its distance and its point. */
  function GuessOf(f: Faces, h: Hit): InitHit
    requires h.face < |f.centreUs| && h.face < |f.centreVs|
  {
    InitHit(f.centreUs[h.face], f.centreVs[h.face], h.dist, h.point)
  }

  /**
   * The ray loop of `_init_guess` over the pairs of `zip(srcs, dirs)`:
   * one entry per pair in order, a miss exactly where the BVH misses, and
   * `all_good` exactly when no ray missed.
   */
  function Guesses(idx: Index, srcs: seq<Vec3>, dirs: seq<Vec3>): (g: Guess)
    requires |idx.faces.centreUs| == |idx.faces.quads| && |idx.faces.centreVs| == |idx.faces.quads|
    requires HitsBelow(idx.bvh, |idx.faces.quads|)
    ensures |g.entries| == Min(|srcs|, |dirs|)
    ensures forall k :: 0 <= k < |g.entries| ==> g.entries[k] == Entry(idx, srcs[k], dirs[k])
    ensures g.allGood <==> forall k :: 0 <= k < |g.entries| ==> g.entries[k].Some?
  {
    var n := Min(|srcs|, |dirs|);
    var entries := seq(n, k requires 0 <= k < n => Entry(idx, srcs[k], dirs[k]));
    Guess(entries, AllHit(entries))
  }

  /** `all_good`: no ray missed. */
  function AllHit(entries: seq<Option<InitHit>>): (b: bool)
    ensures b <==> forall k :: 0 <= k < |entries| ==> entries[k].Some?
  {
    if |entries| == 0 then true
    else
      assert forall k :: 1 <= k < |entries| ==> entries[k] == entries[1..][k - 1];
      entries[0].Some? && AllHit(entries[1..])
  }

  /** The first guess of one ray: its hit's guess, or `None` for a miss. */
  function Entry(idx: Index, p: Vec3, d: Vec3): (e: Option<InitHit>)
    requires |idx.faces.centreUs| == |idx.faces.quads| && |idx.faces.centreVs| == |idx.faces.quads|
    requires HitsBelow(idx.bvh, |idx.faces.quads|)
    ensures e.None? <==> idx.bvh(p, d).None?
    ensures e.Some? ==> e.value == GuessOf(idx.faces, idx.bvh(p, d).value)
  {
    match idx.bvh(p, d)
    case None => None
    case Some(h) => Some(GuessOf(idx.faces, h))
  }

  /**
   * After `init_bvh` over a non-degenerate domain, the first guess of a
   * ray that hits lies strictly inside the parameter cell of the quad the
   * ray hit.
   */
  lemma GuessInsideHitCell(rc: SurfaceRaycaster, samples: nat, bvh: Bvh, p: Vec3, d: Vec3)
    requires rc.surface.uMin < rc.surface.uMax && rc.surface.vMin < rc.surface.vMax
    requires samples >= 1 && HitsBelow(bvh, (samples - 1) * (samples - 1))
    ensures InitBvh(rc, samples, bvh).Ok?
    ensures var idx := InitBvh(rc, samples, bvh).value.index.value;
      |idx.faces.centreUs| == |idx.faces.quads| && |idx.faces.centreVs| == |idx.faces.quads|
      && HitsBelow(idx.bvh, |idx.faces.quads|)
    ensures bvh(p, d).Some? ==> samples >= 2 && bvh(p, d).value.face < (samples - 1) * (samples - 1)
    ensures var idx := InitBvh(rc, samples, bvh).value.index.value;
      var e := Entry(idx, p, d);
      var linU, linV := Linspace(rc.surface.uMin, rc.surface.uMax, samples), Linspace(rc.surface.vMin, rc.surface.vMax, samples);
      e.Some? ==> (bvh(p, d).Some? &&
        var k := bvh(p, d).value.face;
        && linU[Col(samples, k)] < e.value.u < linU[Col(samples, k) + 1]
        && linV[Row(samples, k)] < e.value.v < linV[Row(samples, k) + 1])
  {
    InitBvhKnowsFaces(rc, samples, bvh);
    if bvh(p, d).Some? {
      var k := bvh(p, d).value.face;
      if samples < 2 {
        assert false;
      }
      FaceCentresInsideCells(samples, rc.surface.uMin, rc.surface.uMax, rc.surface.vMin, rc.surface.vMax, k);
    }
  }

  /**
   * `_init_guess`: raises before `init_bvh`, and otherwise gives the
   * guesses of `Guesses`.
   */
  function InitGuess(rc: SurfaceRaycaster, srcs: seq<Vec3>, dirs: seq<Vec3>): (r: Result<Guess, GeomError>)
    requires HitsKnownFaces(rc)
    ensures r.Err? <==> rc.index.None?
    ensures r.Err? ==> r.error == NoBvh
    ensures r.Ok? ==> r.value == Guesses(rc.index.value, srcs, dirs)
  {
    match rc.index
    case None => Err(NoBvh)
    case Some(idx) => Ok(Guesses(idx, srcs, dirs))
  }

  // ---------------------------------------------------------------------
  // Refinement and the miss policy (`raycast`)
  // ---------------------------------------------------------------------

  /** `on_init_fail`: what a ray that missed the coarse mesh does. */
  datatype Policy = Skip | Fail | ReturnNone | Unknown(name: string)

  /**
   * `scipy.optimize.root` on surface(u, v) = origin + t · direction from
   * the first guess (u, v, t); `None` when it reports no success.
   */
  type RaySolver = (Vec3, Vec3, InitHit) -> Option<(real, real, real)>

  /** What the ray loop collects: points (coarse mode only), uvs, us and vs. */
  datatype Outputs = Outputs(points: seq<Vec3>, uvs: seq<Vec3>, us: seq<real>, vs: seq<real>)

  /** The rays, from `from` on, whose first guess hit the mesh, in order. */
  function HitIndices(entries: seq<Option<InitHit>>, from: nat): (ks: seq<nat>)
    decreases |entries| - from
    ensures forall k {:trigger k in ks} :: k in ks <==> from <= k < |entries| && entries[k].Some?
    ensures forall i :: 0 <= i < |ks| ==> from <= ks[i] < |entries| && entries[ks[i]].Some?
    ensures Ascending(ks)
  {
    if from >= |entries| then []
    else
      var rest := HitIndices(entries, from + 1);
      assert forall i :: 0 <= i < |rest| ==> rest[i] > from by {
        forall i | 0 <= i < |rest| ensures rest[i] > from {
          assert rest[i] in rest;
        }
      }
      if entries[from].Some? then [from] + rest else rest
  }

  ghost predicate MissFrom(entries: seq<Option<InitHit>>, from: nat) {
    exists k :: from <= k < |entries| && entries[k].None?
  }

  ghost predicate RefineFailsFrom(entries: seq<Option<InitHit>>, srcs: seq<Vec3>, dirs: seq<Vec3>, solve: RaySolver, from: nat)
    requires |entries| <= |srcs| && |entries| <= |dirs|
  {
    exists k :: from <= k < |entries| && entries[k].Some? && solve(srcs[k], dirs[k], entries[k].value).None?
  }

  /** The (u, v) a hit ray reports: refined when precise, the quad centre otherwise. */
  function RayUV(src: Vec3, dir: Vec3, h: InitHit, precise: bool, solve: RaySolver): (r: Result<(real, real), GeomError>)
    ensures r.Err? <==> precise && solve(src, dir, h).None?
    ensures r.Err? ==> r.error == RefinementFailed
    ensures r.Ok? && precise ==> r.value.0 == solve(src, dir, h).value.0 && r.value.1 == solve(src, dir, h).value.1
    ensures r.Ok? && !precise ==> r.value == (h.u, h.v)
  {
    if !precise then Ok((h.u, h.v))
    else
      match solve(src, dir, h)
      case None => Err(RefinementFailed)
      case Some(x) => Ok((x.0, x.1))
  }

  /**
   * What the ray loop collected from ray `from` on: one u, v and uv per
   * hit ray, in order, each the (u, v) that ray reports, plus the coarse
   * hit points when not precise.
   */
  ghost predicate Collected(o: Outputs, entries: seq<Option<InitHit>>, srcs: seq<Vec3>, dirs: seq<Vec3>, precise: bool,
                            solve: RaySolver, from: nat)
    requires |entries| <= |srcs| && |entries| <= |dirs|
  {
    var hits := HitIndices(entries, from);
    && |o.us| == |hits| && |o.vs| == |hits| && |o.uvs| == |hits|
    && |o.points| == (if precise then 0 else |hits|)
    && (forall j :: 0 <= j < |hits| ==> o.uvs[j] == Vec3(o.us[j], o.vs[j], 0.0))
    && (forall j :: 0 <= j < |hits| ==>
          RayUV(srcs[hits[j]], dirs[hits[j]], entries[hits[j]].value, precise, solve) == Ok((o.us[j], o.vs[j])))
    && (!precise ==> forall j :: 0 <= j < |hits| ==> o.points[j] == entries[hits[j]].value.point)
  }

  /** Nothing is collected past the last ray. */
  lemma CollectedNothing(entries: seq<Option<InitHit>>, srcs: seq<Vec3>, dirs: seq<Vec3>, precise: bool,
                         solve: RaySolver, from: nat)
    requires |entries| <= |srcs| && |entries| <= |dirs| && from >= |entries|
    ensures Collected(Outputs([], [], [], []), entries, srcs, dirs, precise, solve, from)
  {
    assert HitIndices(entries, from) == [];
  }

  /** A skipped miss adds nothing. */
  lemma CollectedSkip(o: Outputs, entries: seq<Option<InitHit>>, srcs: seq<Vec3>, dirs: seq<Vec3>, precise: bool,
                      solve: RaySolver, from: nat)
    requires |entries| <= |srcs| && |entries| <= |dirs| && from < |entries| && entries[from].None?
    requires Collected(o, entries, srcs, dirs, precise, solve, from + 1)
    ensures Collected(o, entries, srcs, dirs, precise, solve, from)
  {
    assert HitIndices(entries, from) == HitIndices(entries, from + 1);
  }

  /** A hit ray puts its (u, v), and in coarse mode its hit point, in front. */
  lemma CollectedHit(o: Outputs, entries: seq<Option<InitHit>>, srcs: seq<Vec3>, dirs: seq<Vec3>, precise: bool,
                     solve: RaySolver, from: nat, uv: (real, real))
    requires |entries| <= |srcs| && |entries| <= |dirs| && from < |entries| && entries[from].Some?
    requires RayUV(srcs[from], dirs[from], entries[from].value, precise, solve) == Ok(uv)
    requires Collected(o, entries, srcs, dirs, precise, solve, from + 1)
    ensures Collected(Outputs(if precise then o.points else [entries[from].value.point] + o.points,
                              [Vec3(uv.0, uv.1, 0.0)] + o.uvs, [uv.0] + o.us, [uv.1] + o.vs),
                      entries, srcs, dirs, precise, solve, from)
  {
    var hits, rest := HitIndices(entries, from), HitIndices(entries, from + 1);
    assert hits == [from] + rest;
    var pts := if precise then o.points else [entries[from].value.point] + o.points;
    var o' := Outputs(pts, [Vec3(uv.0, uv.1, 0.0)] + o.uvs, [uv.0] + o.us, [uv.1] + o.vs);
    assert |o'.us| == |hits| && |o'.vs| == |hits| && |o'.uvs| == |hits|;
    assert |o'.points| == (if precise then 0 else |hits|);
    forall j | 0 <= j < |hits|
      ensures o'.uvs[j] == Vec3(o'.us[j], o'.vs[j], 0.0)
      ensures RayUV(srcs[hits[j]], dirs[hits[j]], entries[hits[j]].value, precise, solve) == Ok((o'.us[j], o'.vs[j]))
      ensures !precise ==> o'.points[j] == entries[hits[j]].value.point
    {
      if j > 0 {
        assert hits[j] == rest[j - 1] && o'.us[j] == o.us[j - 1] && o'.vs[j] == o.vs[j - 1] && o'.uvs[j] == o.uvs[j - 1];
        assert !precise ==> o'.points[j] == o.points[j - 1];
      }
    }
  }

  /** A miss from `from` on is a miss at `from` or from the next ray on. */
  lemma MissStep(entries: seq<Option<InitHit>>, from: nat)
    ensures from >= |entries| ==> !MissFrom(entries, from)
    ensures from < |entries| ==> (MissFrom(entries, from) <==> entries[from].None? || MissFrom(entries, from + 1))
  {
    if from < |entries| && entries[from].None? {
      assert from <= from < |entries| && entries[from].None?;
    }
  }

  /** Likewise for a failed refinement. */
  lemma RefineStep(entries: seq<Option<InitHit>>, srcs: seq<Vec3>, dirs: seq<Vec3>, solve: RaySolver, from: nat)
    requires |entries| <= |srcs| && |entries| <= |dirs|
    ensures from >= |entries| ==> !RefineFailsFrom(entries, srcs, dirs, solve, from)
    ensures from < |entries| ==>
              (RefineFailsFrom(entries, srcs, dirs, solve, from) <==>
                 (entries[from].Some? && solve(srcs[from], dirs[from], entries[from].value).None?)
                 || RefineFailsFrom(entries, srcs, dirs, solve, from + 1))
  {
    if from < |entries| && entries[from].Some? && solve(srcs[from], dirs[from], entries[from].value).None? {
      assert from <= from < |entries|;
    }
  }

  /**
   * The ray loop of `raycast` from ray `from` on. A missed ray is
   * dropped under `skip`, raises under `fail`, ends the whole batch with
   * `None` under `none` and raises for any other policy; a hit ray is
   * refined (when precise) and contributes one u, one v and one uv, plus
   * its coarse hit point when not precise. The first ray that fails
   * decides the outcome.
   */
  function Walk(entries: seq<Option<InitHit>>, srcs: seq<Vec3>, dirs: seq<Vec3>, precise: bool, policy: Policy,
                solve: RaySolver, from: nat): (r: Result<Option<Outputs>, GeomError>)
    requires |entries| <= |srcs| && |entries| <= |dirs|
    decreases |entries| - from
    ensures r.Err? ==> r.error in {NoInitialGuess, InvalidPolicy, RefinementFailed}
    ensures r == Err(NoInitialGuess) ==> policy == Fail && MissFrom(entries, from)
    ensures r == Err(InvalidPolicy) ==> policy.Unknown? && MissFrom(entries, from)
    ensures r == Err(RefinementFailed) ==> precise && RefineFailsFrom(entries, srcs, dirs, solve, from)
    ensures r == Ok(None) ==> policy == ReturnNone && MissFrom(entries, from)
    ensures (r.Ok? && r.value.Some?) <==>
              (policy == Skip || !MissFrom(entries, from)) && (!precise || !RefineFailsFrom(entries, srcs, dirs, solve, from))
    ensures r.Ok? && r.value.Some? ==> Collected(r.value.value, entries, srcs, dirs, precise, solve, from)
  {
    MissStep(entries, from);
    RefineStep(entries, srcs, dirs, solve, from);
    if from >= |entries| then
      CollectedNothing(entries, srcs, dirs, precise, solve, from);
      Ok(Some(Outputs([], [], [], [])))
    else
      match entries[from]
      case None =>
        if policy == Skip then
          var rest := Walk(entries, srcs, dirs, precise, policy, solve, from + 1);
          if rest.Ok? && rest.value.Some? then
            CollectedSkip(rest.value.value, entries, srcs, dirs, precise, solve, from);
            rest
          else rest
        else if policy == Fail then Err(NoInitialGuess)
        else if policy == ReturnNone then Ok(None)
        else Err(InvalidPolicy)
      case Some(h) =>
        var uv :- RayUV(srcs[from], dirs[from], h, precise, solve);
        var rest :- Walk(entries, srcs, dirs, precise, policy, solve, from + 1);
        match rest
        case None => Ok(None)
        case Some(o) =>
          CollectedHit(o, entries, srcs, dirs, precise, solve, from, uv);
          var pts := if precise then o.points else [h.point] + o.points;
          Ok(Some(Outputs(pts, [Vec3(uv.0, uv.1, 0.0)] + o.uvs, [uv.0] + o.us, [uv.1] + o.vs)))
  }

  /**
   * Ray k stops the loop: a miss under a policy other than `skip`, or a
   * hit whose refinement fails.
   */
  predicate Stops(entries: seq<Option<InitHit>>, srcs: seq<Vec3>, dirs: seq<Vec3>, precise: bool, policy: Policy,
                  solve: RaySolver, k: nat)
    requires k < |entries| <= |srcs| && |entries| <= |dirs|
  {
    if entries[k].None? then policy != Skip else precise && solve(srcs[k], dirs[k], entries[k].value).None?
  }

  /** Ray k is the first ray from `from` on that stops the loop. */
  ghost predicate FirstStop(entries: seq<Option<InitHit>>, srcs: seq<Vec3>, dirs: seq<Vec3>, precise: bool, policy: Policy,
                            solve: RaySolver, from: nat, k: nat)
    requires |entries| <= |srcs| && |entries| <= |dirs|
  {
    && from <= k < |entries|
    && Stops(entries, srcs, dirs, precise, policy, solve, k)
    && forall j :: from <= j < k ==> !Stops(entries, srcs, dirs, precise, policy, solve, j)
  }

  /**
   * How a stopping ray ends the loop: a miss raises under `fail`, gives
   * `None` under `none` and raises for an unknown policy; a failed
   * refinement raises.
   */
  function StopOutcome(miss: bool, policy: Policy): Result<Option<Outputs>, GeomError> {
    if !miss then Err(RefinementFailed)
    else if policy == Fail then Err(NoInitialGuess)
    else if policy == ReturnNone then Ok(None)
    else Err(InvalidPolicy)
  }

  /**
   * The first ray that stops the loop decides its outcome, whatever the
   * later rays would do.
   */
  lemma {:induction false} WalkFirstStop(entries: seq<Option<InitHit>>, srcs: seq<Vec3>, dirs: seq<Vec3>, precise: bool,
                                         policy: Policy, solve: RaySolver, from: nat, k: nat)
    requires |entries| <= |srcs| && |entries| <= |dirs|
    requires FirstStop(entries, srcs, dirs, precise, policy, solve, from, k)
    ensures Walk(entries, srcs, dirs, precise, policy, solve, from) == StopOutcome(entries[k].None?, policy)
    decreases |entries| - from
  {
    if from < k {
      assert !Stops(entries, srcs, dirs, precise, policy, solve, from);
      WalkFirstStop(entries, srcs, dirs, precise, policy, solve, from + 1, k);
    }
  }

  /** Without a miss the policy is never consulted. */
  lemma {:induction false} PolicyIrrelevantWithoutMiss(entries: seq<Option<InitHit>>, srcs: seq<Vec3>, dirs: seq<Vec3>,
                                                       precise: bool, p: Policy, q: Policy, solve: RaySolver, from: nat)
    requires |entries| <= |srcs| && |entries| <= |dirs|
    requires !MissFrom(entries, from)
    ensures Walk(entries, srcs, dirs, precise, p, solve, from) == Walk(entries, srcs, dirs, precise, q, solve, from)
    decreases |entries| - from
  {
    if from < |entries| {
      assert entries[from].Some?;
      assert !MissFrom(entries, from + 1);
      PolicyIrrelevantWithoutMiss(entries, srcs, dirs, precise, p, q, solve, from + 1);
    }
  }

  /** `RaycastResult`: the first guesses and the collected outputs. */
  datatype RaycastResult = RaycastResult(guess: Guess, points: seq<Vec3>, uvs: seq<Vec3>, us: seq<real>, vs: seq<real>)

  /**
   * `raycast`: first guesses for every ray, then the ray loop; when
   * precise and `calc_points` the points are the surface at the refined
   * (u, v), when precise without it there are none, and in coarse mode
   * they are the mesh hit points.
   */
  function Raycast(rc: SurfaceRaycaster, srcs: seq<Vec3>, dirs: seq<Vec3>, precise: bool, calcPoints: bool,
                   policy: Policy, solve: RaySolver): (r: Result<Option<RaycastResult>, GeomError>)
    requires HitsKnownFaces(rc)
    ensures r == Err(NoBvh) <==> rc.index.None?
    ensures rc.index.Some? ==>
              var g := Guesses(rc.index.value, srcs, dirs);
              var w := Walk(g.entries, srcs, dirs, precise, policy, solve, 0);
              && (w.Err? ==> r == Err(w.error))
              && (w == Ok(None) ==> r == Ok(None))
              && (w.Ok? && w.value.Some? ==>
                    && r.Ok? && r.value.Some?
                    && r.value.value.guess == g
                    && r.value.value.us == w.value.value.us && r.value.value.vs == w.value.value.vs
                    && r.value.value.uvs == w.value.value.uvs)
    ensures r.Ok? && r.value.Some? && precise && calcPoints ==>
              var res := r.value.value;
              |res.points| == |res.us| && forall j :: 0 <= j < |res.us| ==> res.points[j] == rc.surface.eval(res.us[j], res.vs[j])
    ensures r.Ok? && r.value.Some? && precise && !calcPoints ==> r.value.value.points == []
    ensures r.Ok? && r.value.Some? && !precise ==>
              var g := Guesses(rc.index.value, srcs, dirs);
              var hits := HitIndices(g.entries, 0);
              |r.value.value.points| == |hits| && forall j :: 0 <= j < |hits| ==> r.value.value.points[j] == g.entries[hits[j]].value.point
  {
    var g :- InitGuess(rc, srcs, dirs);
    var w :- Walk(g.entries, srcs, dirs, precise, policy, solve, 0);
    match w
    case None => Ok(None)
    case Some(o) =>
      var pts := if precise && calcPoints then seq(|o.us|, j requires 0 <= j < |o.us| && |o.vs| == |o.us| => rc.surface.eval(o.us[j], o.vs[j]))
                 else o.points;
      Ok(Some(RaycastResult(g, pts, o.uvs, o.us, o.vs)))
  }

  /**
   * With `skip` and coarse guesses, a raycast after `init_bvh` always
   * succeeds and reports, for each ray that hit in order, the centre of
   * the quad it hit.
   */
  lemma CoarseSkipReportsCentres(rc: SurfaceRaycaster, srcs: seq<Vec3>, dirs: seq<Vec3>, calcPoints: bool, solve: RaySolver)
    requires HitsKnownFaces(rc) && rc.index.Some?
    ensures var r := Raycast(rc, srcs, dirs, false, calcPoints, Skip, solve);
            var g := Guesses(rc.index.value, srcs, dirs);
            var hits := HitIndices(g.entries, 0);
            && r.Ok? && r.value.Some?
            && |r.value.value.us| == |hits|
            && forall j :: 0 <= j < |hits| ==>
                 var h := rc.index.value.bvh(srcs[hits[j]], dirs[hits[j]]).value;
                 && r.value.value.us[j] == rc.index.value.faces.centreUs[h.face]
                 && r.value.value.vs[j] == rc.index.value.faces.centreVs[h.face]
  {
    var g := Guesses(rc.index.value, srcs, dirs);
    var w := Walk(g.entries, srcs, dirs, false, Skip, solve, 0);
    var hits := HitIndices(g.entries, 0);
    forall j | 0 <= j < |hits|
      ensures RayUV(srcs[hits[j]], dirs[hits[j]], g.entries[hits[j]].value, false, solve)
                == Ok((g.entries[hits[j]].value.u, g.entries[hits[j]].value.v))
    {
    }
  }
}

=== FILE: sampling.dfy ===
/**
 * Evenly spaced parameter samples (numpy's `linspace`) and the
 * sign-change scan that turns sampled values into bracketing intervals.
 * The same scan serves the curve projector (utils/geom.py:49-57) and the
 * curve–plane intersector (utils/geom.py:336-339).
 */
module Sampling {

  predicate StrictlyIncreasing(s: seq<real>) {
    forall i, j :: 0 <= i < j < |s| ==> s[i] < s[j]
  }

  predicate Ascending(ks: seq<nat>) {
    forall i, j :: 0 <= i < j < |ks| ==> ks[i] < ks[j]
  }

  /** Sample `i` of `n` evenly spaced samples from `a` to `b` (n >= 2). */
  function Sample(a: real, b: real, n: nat, i: nat): real
    requires n >= 2
  {
    a + (i as real) * (b - a) / ((n - 1) as real)
  }

  lemma SampleMonotone(a: real, b: real, n: nat, i: nat, j: nat)
    requires n >= 2 && a < b && i < j
    ensures Sample(a, b, n, i) < Sample(a, b, n, j)
  {
    var h := (b - a) / ((n - 1) as real);
    assert h > 0.0;
    assert (i as real) * (b - a) / ((n - 1) as real) == (i as real) * h;
    assert (j as real) * (b - a) / ((n - 1) as real) == (j as real) * h;
    assert (j as real) * h - (i as real) * h == ((j - i) as real) * h;
  }

  lemma SampleInRange(a: real, b: real, n: nat, i: nat)
    requires n >= 2 && a <= b && i < n
    ensures a <= Sample(a, b, n, i) <= b
  {
    var h := (b - a) / ((n - 1) as real);
    assert h >= 0.0;
    assert (i as real) * (b - a) / ((n - 1) as real) == (i as real) * h;
    assert ((n - 1) as real) * h == b - a;
    assert (i as real) * h <= ((n - 1) as real) * h;
  }

  /**
   * `np.linspace(a, b, num=n)`: n samples, the first one `a` and the last
   * one exactly `b`; ascending and inside [a, b] when a < b.
   */
  function Linspace(a: real, b: real, n: nat): (r: seq<real>)
    ensures |r| == n
    ensures n >= 1 ==> r[0] == a
    ensures n >= 2 ==> r[n - 1] == b
    ensures a < b ==> StrictlyIncreasing(r)
    ensures a <= b ==> forall i :: 0 <= i < n ==> a <= r[i] <= b
  {
    if n == 0 then []
    else if n == 1 then [a]
    else
      var r := seq(n, i requires 0 <= i < n => Sample(a, b, n, i));
      assert r[n - 1] == b by {
        assert ((n - 1) as real) * (b - a) / ((n - 1) as real) == b - a;
      }
      assert a < b ==> StrictlyIncreasing(r) by {
        if a < b {
          forall i, j | 0 <= i < j < n ensures r[i] < r[j] {
            SampleMonotone(a, b, n, i, j);
          }
        }
      }
      assert a <= b ==> forall i :: 0 <= i < n ==> a <= r[i] <= b by {
        if a <= b {
          forall i | 0 <= i < n ensures a <= r[i] <= b {
            SampleInRange(a, b, n, i);
          }
        }
      }
      r
  }

  /** Every linspace sample sits at its evenly spaced position. */
  lemma LinspaceAt(a: real, b: real, n: nat, i: nat)
    requires n >= 2 && i < n
    ensures Linspace(a, b, n)[i] == Sample(a, b, n, i)
  {
  }

  /** Consecutive samples are one spacing (b − a)/(n − 1) apart. */
  lemma SampleStep(a: real, b: real, n: nat, i: nat)
    requires n >= 2
    ensures Sample(a, b, n, i + 1) == Sample(a, b, n, i) + (b - a) / ((n - 1) as real)
  {
    var h := (b - a) / ((n - 1) as real);
    assert (i as real) * (b - a) / ((n - 1) as real) == (i as real) * h;
    assert ((i + 1) as real) * (b - a) / ((n - 1) as real) == ((i + 1) as real) * h;
  }

  /** The two samples have strictly opposite signs; a zero never does. */
  predicate ChangesSign(p: real, q: real) {
    p * q < 0.0
  }

  lemma ChangesSignCases(p: real, q: real)
    ensures ChangesSign(p, q) <==> (p < 0.0 < q || q < 0.0 < p)
  {
    if p < 0.0 && q < 0.0 {
      assert p * q == (-p) * (-q);
    }
  }

  /**
   * Indices k >= from at which consecutive samples change sign, in the
   * order the scan meets them: k is listed exactly when
   * vals[k] * vals[k+1] < 0.
   */
  function SignChanges(vals: seq<real>, from: nat): (ks: seq<nat>)
    decreases |vals| - from
    ensures forall k {:trigger k in ks} :: k in ks <==> from <= k && k + 1 < |vals| && ChangesSign(vals[k], vals[k + 1])
    ensures Ascending(ks)
  {
    if from + 1 >= |vals| then []
    else
      var rest := SignChanges(vals, from + 1);
      assert forall i :: 0 <= i < |rest| ==> rest[i] > from by {
        forall i | 0 <= i < |rest| ensures rest[i] > from {
          assert rest[i] in rest;
        }
      }
      if ChangesSign(vals[from], vals[from + 1]) then [from] + rest
      else rest
  }

  datatype Interval = Interval(lo: real, hi: real)

  /**
   * The bracketing intervals (us[k], us[k+1]) of the sampled values, one
   * for each sign change and in the order the scan meets them.
   */
  function Brackets(us: seq<real>, vals: seq<real>): (r: seq<Interval>)
    requires |us| == |vals|
    ensures |r| == |SignChanges(vals, 0)|
    ensures forall i :: 0 <= i < |r| ==> SignChanges(vals, 0)[i] + 1 < |us|
    ensures forall i :: 0 <= i < |r| ==> ChangesSign(vals[SignChanges(vals, 0)[i]], vals[SignChanges(vals, 0)[i] + 1])
    ensures forall i :: 0 <= i < |r| ==> r[i] == Interval(us[SignChanges(vals, 0)[i]], us[SignChanges(vals, 0)[i] + 1])
  {
    var ks := SignChanges(vals, 0);
    assert forall i :: 0 <= i < |ks| ==> ks[i] + 1 < |us| && ChangesSign(vals[ks[i]], vals[ks[i] + 1]) by {
      forall i | 0 <= i < |ks| ensures ks[i] + 1 < |us| && ChangesSign(vals[ks[i]], vals[ks[i] + 1]) {
        assert ks[i] in ks;
      }
    }
    seq(|ks|, i requires 0 <= i < |ks| && ks[i] + 1 < |us| => Interval(us[ks[i]], us[ks[i] + 1]))
  }

  /**
   * Over ascending samples the brackets are proper intervals, come out in
   * increasing parameter order, and two of them share at most an endpoint.
   */
  lemma BracketsOrdered(us: seq<real>, vals: seq<real>)
    requires |us| == |vals| && StrictlyIncreasing(us)
    ensures forall i :: 0 <= i < |Brackets(us, vals)| ==> Brackets(us, vals)[i].lo < Brackets(us, vals)[i].hi
    ensures forall i, j :: 0 <= i < j < |Brackets(us, vals)| ==> Brackets(us, vals)[i].hi <= Brackets(us, vals)[j].lo
  {
    var r := Brackets(us, vals);
    var ks := SignChanges(vals, 0);
    forall i, j | 0 <= i < j < |r| ensures r[i].hi <= r[j].lo {
      assert ks[i] < ks[j];
      if ks[i] + 1 < ks[j] {
        assert us[ks[i] + 1] < us[ks[j]];
      }
    }
  }

  /** A sample whose value is exactly zero never bounds a bracket. */
  lemma ZeroSampleNeverBounds(vals: seq<real>, k: nat)
    requires k < |vals| && vals[k] == 0.0
    ensures k !in SignChanges(vals, 0)
    ensures k == 0 || k - 1 !in SignChanges(vals, 0)
  {
    var ks := SignChanges(vals, 0);
    if k + 1 < |vals| {
      assert !ChangesSign(vals[k], vals[k + 1]);
    }
    if k > 0 {
      assert !ChangesSign(vals[k - 1], vals[k]);
    }
  }
}

=== FILE: sdf.dfy ===
/**
 * The two exact helpers of utils/sdf.py: the grid layout of
 * `cartesian_product` and the iso-value offset of `scalar_field_to_sdf`.
 */
module Sdf {
  import opened Wrappers
  import opened Vectors
  import opened Arith

  /** ∏ len(a_i): the number of index tuples over the arrays. */
  function RowCount(arrays: seq<seq<real>>): nat {
    if |arrays| == 0 then 1 else |arrays[0]| * RowCount(arrays[1..])
  }

  /** An index tuple: one in-range index per array. */
  predicate ValidIndex(arrays: seq<seq<real>>, idx: seq<nat>) {
    |idx| == |arrays| && forall i :: 0 <= i < |idx| ==> idx[i] < |arrays[i]|
  }

  /** Reference definition of one row: (a_0[i_0], …, a_{k−1}[i_{k−1}]). */
  function Pick(arrays: seq<seq<real>>, idx: seq<nat>): (row: seq<real>)
    requires ValidIndex(arrays, idx)
    ensures |row| == |arrays|
  {
    seq(|arrays|, i requires 0 <= i < |arrays| => arrays[i][idx[i]])
  }

  /** Row-major position of an index tuple, the last index varying fastest. */
  function Flat(arrays: seq<seq<real>>, idx: seq<nat>): (p: nat)
    requires ValidIndex(arrays, idx)
    ensures p < RowCount(arrays)
  {
    if |arrays| == 0 then 0
    else
      var rest := Flat(arrays[1..], idx[1..]);
      GridIndex(idx[0], rest, |arrays[0]|, RowCount(arrays[1..]));
      BlockPosIs(idx[0], RowCount(arrays[1..]), rest);
      BlockPos(idx[0], RowCount(arrays[1..]), rest)
  }

  /** The first index counts whole blocks of the remaining arrays' rows. */
  lemma FlatStep(arrays: seq<seq<real>>, idx: seq<nat>)
    requires |arrays| > 0 && ValidIndex(arrays, idx)
    ensures Flat(arrays, idx) == idx[0] * RowCount(arrays[1..]) + Flat(arrays[1..], idx[1..])
  {
    BlockPosIs(idx[0], RowCount(arrays[1..]), Flat(arrays[1..], idx[1..]));
  }

  /** Every row of `rows` with `x` in front. */
  function Prepend(x: real, rows: seq<seq<real>>): (r: seq<seq<real>>)
    ensures |r| == |rows|
    ensures forall j :: 0 <= j < |rows| ==> r[j] == [x] + rows[j]
  {
    seq(|rows|, j requires 0 <= j < |rows| => [x] + rows[j])
  }

  /** One block of rows per element of `xs`, in order. */
  function Blocks(xs: seq<real>, rows: seq<seq<real>>): (r: seq<seq<real>>)
    ensures |r| == |xs| * |rows|
    ensures forall row :: row in r ==> |row| >= 1 && row[0] in xs && row[1..] in rows
  {
    if |xs| == 0 then []
    else
      var tail := Blocks(xs[1..], rows);
      MulSucc(|xs| - 1, |rows|);
      var head := Prepend(xs[0], rows);
      assert forall row :: row in head ==> |row| >= 1 && row[0] in xs && row[1..] in rows by {
        forall row | row in head ensures |row| >= 1 && row[0] in xs && row[1..] in rows {
          var j :| 0 <= j < |rows| && head[j] == row;
          assert row[1..] == rows[j];
        }
      }
      head + tail
  }

  /** Past the first block, `Blocks` continues with the blocks of the remaining elements. */
  lemma BlocksShift(xs: seq<real>, rows: seq<seq<real>>, m: nat)
    requires |xs| > 0 && m < |Blocks(xs[1..], rows)|
    ensures |rows| + m < |Blocks(xs, rows)|
    ensures Blocks(xs, rows)[|rows| + m] == Blocks(xs[1..], rows)[m]
  {
    assert Blocks(xs, rows) == Prepend(xs[0], rows) + Blocks(xs[1..], rows);
  }

  /** The first block of `Blocks` prefixes the first element. */
  lemma BlocksFirst(xs: seq<real>, rows: seq<seq<real>>, j: nat)
    requires |xs| > 0 && j < |rows|
    ensures j < |Blocks(xs, rows)|
    ensures Blocks(xs, rows)[j] == [xs[0]] + rows[j]
  {
    assert Blocks(xs, rows) == Prepend(xs[0], rows) + Blocks(xs[1..], rows);
  }

  /** Entry j of block i of `Blocks`. */
  lemma {:induction false} BlocksAt(xs: seq<real>, rows: seq<seq<real>>, i: nat, j: nat)
    requires i < |xs| && j < |rows|
    ensures BlockPos(i, |rows|, j) < |Blocks(xs, rows)|
    ensures Blocks(xs, rows)[BlockPos(i, |rows|, j)] == [xs[i]] + rows[j]
    decreases i
  {
    if i == 0 {
      BlocksFirst(xs, rows, j);
    } else {
      BlocksAt(xs[1..], rows, i - 1, j);
      BlocksShift(xs, rows, BlockPos(i - 1, |rows|, j));
      assert xs[1..][i - 1] == xs[i];
    }
  }

  /**
   * The product grid, built from the last array outwards: with no arrays
   * left there is one empty row.
   */
  function Product(arrays: seq<seq<real>>): (r: seq<seq<real>>)
    ensures |r| == RowCount(arrays)
    ensures forall row :: row in r ==> |row| == |arrays|
    ensures forall row, i :: row in r && 0 <= i < |arrays| ==> row[i] in arrays[i]
  {
    if |arrays| == 0 then [[]]
    else
      var rest := Product(arrays[1..]);
      var r := Blocks(arrays[0], rest);
      assert forall row, i :: row in r && 0 <= i < |arrays| ==> row[i] in arrays[i] by {
        forall row, i | row in r && 0 <= i < |arrays| ensures row[i] in arrays[i] {
          if i > 0 {
            assert row[i] == row[1..][i - 1];
          }
        }
      }
      r
  }

  /**
   * `cartesian_product(*arrays)`: the rows of the product grid. With no
   * arrays numpy finds no result type and raises.
   */
  function CartesianProduct(arrays: seq<seq<real>>): (r: Option<seq<seq<real>>>)
    ensures r.None? <==> |arrays| == 0
    ensures r.Some? ==> |r.value| == RowCount(arrays)
    ensures r.Some? ==> forall row :: row in r.value ==> |row| == |arrays|
    ensures r.Some? ==> forall row, i :: row in r.value && 0 <= i < |arrays| ==> row[i] in arrays[i]
  {
    if |arrays| == 0 then None else Some(Product(arrays))
  }

  /** A pick is the first array's entry followed by the pick over the rest. */
  lemma PickStep(arrays: seq<seq<real>>, idx: seq<nat>)
    requires |arrays| > 0 && ValidIndex(arrays, idx)
    ensures Pick(arrays, idx) == [arrays[0][idx[0]]] + Pick(arrays[1..], idx[1..])
  {
    var tail := Pick(arrays[1..], idx[1..]);
    forall i | 1 <= i < |arrays| ensures tail[i - 1] == arrays[i][idx[i]] {
      assert arrays[1..][i - 1] == arrays[i] && idx[1..][i - 1] == idx[i];
    }
  }

  /** The row at the row-major position of an index tuple is that tuple's pick. */
  lemma {:induction false} ProductAt(arrays: seq<seq<real>>, idx: seq<nat>)
    requires ValidIndex(arrays, idx)
    ensures Product(arrays)[Flat(arrays, idx)] == Pick(arrays, idx)
  {
    if |arrays| > 0 {
      var rest := Product(arrays[1..]);
      var f := Flat(arrays[1..], idx[1..]);
      assert Product(arrays) == Blocks(arrays[0], rest);
      assert Flat(arrays, idx) == BlockPos(idx[0], |rest|, f);
      ProductAt(arrays[1..], idx[1..]);
      BlocksAt(arrays[0], rest, idx[0], f);
      PickStep(arrays, idx);
    }
  }

  /** The index tuple at a row-major position. */
  function Unflat(arrays: seq<seq<real>>, p: nat): (idx: seq<nat>)
    requires p < RowCount(arrays)
    ensures ValidIndex(arrays, idx)
    ensures Flat(arrays, idx) == p
  {
    if |arrays| == 0 then []
    else
      var s := RowCount(arrays[1..]);
      assert s >= 1;
      var q := p / s;
      DivBelow(p, s, |arrays[0]|);
      DivModUnique(p, s, q, p % s);
      var rest := Unflat(arrays[1..], p % s);
      var idx := [q] + rest;
      assert idx[1..] == rest;
      assert forall i :: 1 <= i < |arrays| ==> arrays[i] == arrays[1..][i - 1] && idx[i] == rest[i - 1];
      FlatStep(arrays, idx);
      idx
  }

  /**
   * Row-major order: every row of `cartesian_product` is the pick of the
   * index tuple at its position.
   */
  lemma RowIsPick(arrays: seq<seq<real>>, p: nat)
    requires |arrays| > 0 && p < RowCount(arrays)
    ensures CartesianProduct(arrays).value[p] == Pick(arrays, Unflat(arrays, p))
  {
    ProductAt(arrays, Unflat(arrays, p));
  }

  /** Distinct index tuples sit at distinct positions. */
  lemma {:induction false} FlatInjective(arrays: seq<seq<real>>, a: seq<nat>, b: seq<nat>)
    requires ValidIndex(arrays, a) && ValidIndex(arrays, b)
    requires Flat(arrays, a) == Flat(arrays, b)
    ensures a == b
  {
    if |arrays| > 0 {
      var s := RowCount(arrays[1..]);
      var fa, fb := Flat(arrays[1..], a[1..]), Flat(arrays[1..], b[1..]);
      FlatStep(arrays, a);
      FlatStep(arrays, b);
      DivModUnique(Flat(arrays, a), s, a[0], fa);
      DivModUnique(Flat(arrays, b), s, b[0], fb);
      FlatInjective(arrays[1..], a[1..], b[1..]);
      assert a == [a[0]] + a[1..] && b == [b[0]] + b[1..];
    }
  }

  /** A scalar field over 3-space. */
  type Field = Vec3 -> real

  /**
   * `scalar_field_to_sdf(field, iso_value)` evaluated over a batch of
   * points: the field shifted by a constant, so that the zero set is the
   * field's iso-surface and the sign tells which side of it a point lies on.
   */
  function SdfValues(field: Field, iso: real, points: seq<Vec3>): (ds: seq<real>)
    ensures |ds| == |points|
    ensures forall i :: 0 <= i < |points| ==> (ds[i] == 0.0 <==> field(points[i]) == iso)
    ensures forall i :: 0 <= i < |points| ==> (ds[i] < 0.0 <==> field(points[i]) < iso)
    ensures forall i :: 0 <= i < |points| ==> (ds[i] > 0.0 <==> field(points[i]) > iso)
    ensures forall i, j :: 0 <= i < |points| && 0 <= j < |points| ==> ds[i] - ds[j] == field(points[i]) - field(points[j])
  {
    seq(|points|, i requires 0 <= i < |points| => field(points[i]) - iso)
  }
}

=== FILE: seqs.dfy ===
/**
 * Head-and-tail facts about sequence concatenation, stated once for any
 * element type so that the filters' inductive proofs can use them
 * without re-deriving sequence equality among their own contracts.
 */
module Seqs {

  /** A non-empty sequence is its head followed by its tail. */
  lemma HeadTail<T>(a: seq<T>)
    requires |a| > 0
    ensures a == [a[0]] + a[1..]
  {
  }

  /** The head and tail of a concatenation with a non-empty left part. */
  lemma SplitHead<T>(a: seq<T>, b: seq<T>)
    requires |a| > 0
    ensures (a + b)[0] == a[0] && (a + b)[1..] == a[1..] + b
    ensures a + b == [a[0]] + (a[1..] + b)
  {
  }
}

=== FILE: solid_mesh.dfy ===
/**
 * `mesh_from_faces` of the Voronoi-on-solid node
 * (nodes/spatial/voronoi_on_solid_surface.py:41-85), over integer vertex
 * ids: the solid's vertices are already numbered, an edge or a face is the
 * list of ids of its vertices. The edge filter keeps proper two-vertex
 * edges; each face's vertex list is re-ordered by walking its edges.
 *
 * Python's set iteration order is not specified by the language, so the
 * order in which a neighbour set is listed (`list(incident_verts[v])`) is
 * a parameter of the model; the properties hold for every such order.
 */
module SolidMesh {
  import opened Wrappers
  import opened Seqs

  /** The vertex ids of one topological edge or face. */
  type Ids = seq<nat>

  /** One face of the solid: its edges and its vertices (in the kernel's order). */
  datatype SolidFace = SolidFace(edges: seq<Ids>, verts: Ids)

  /** How a set of ids is listed when iterated. */
  type Listing = set<nat> -> seq<nat>

  /** A listing that lists members of the set only. */
  ghost predicate ListsMembers(listing: Listing) {
    forall s: set<nat>, x: nat :: x in listing(s) ==> x in s
  }

  /**
   * The emitted edges: exactly the edges with two vertices, in order and
   * with repeats: each such edge occurs as often as in the input.
   */
  function TwoVertexEdges(edges: seq<Ids>): (r: seq<Ids>)
    ensures forall e :: multiset(r)[e] == if |e| == 2 then multiset(edges)[e] else 0
    ensures forall e :: e in r <==> e in edges && |e| == 2
    ensures |r| <= |edges|
  {
    if |edges| == 0 then []
    else
      var rest := TwoVertexEdges(edges[1..]);
      assert edges == [edges[0]] + edges[1..];
      assert forall e :: multiset(edges)[e] == multiset([edges[0]])[e] + multiset(edges[1..])[e];
      assert forall e :: e in edges <==> e == edges[0] || e in edges[1..];
      if |edges[0]| == 2 then [edges[0]] + rest else rest
  }

  /** The filter keeps edge order: filtering a concatenation concatenates the filtered parts. */
  lemma {:induction false} TwoVertexEdgesAppend(a: seq<Ids>, b: seq<Ids>)
    ensures TwoVertexEdges(a + b) == TwoVertexEdges(a) + TwoVertexEdges(b)
    decreases |a|
  {
    if |a| > 0 {
      assert (a + b)[1..] == a[1..] + b;
      TwoVertexEdgesAppend(a[1..], b);
    } else {
      assert a + b == b;
    }
  }

  /** Reference definition: the ids joined to `v` by a two-vertex edge of the list. */
  function Neighbours(edges: seq<Ids>, v: nat): set<nat> {
    (set e | e in edges && |e| == 2 && e[0] == v :: e[1]) + (set e | e in edges && |e| == 2 && e[1] == v :: e[0])
  }

  /** `incident_verts[v]` of the default-dict: empty for an id never inserted. */
  function Lookup(inc: map<nat, set<nat>>, v: nat): set<nat> {
    if v in inc then inc[v] else {}
  }

  /** Record edge (i, j) in both directions. */
  function Link(inc: map<nat, set<nat>>, i: nat, j: nat): (r: map<nat, set<nat>>)
    ensures forall v :: Lookup(r, v) == Lookup(inc, v) + (if v == i then {j} else {}) + (if v == j then {i} else {})
  {
    var a := inc[i := Lookup(inc, i) + {j}];
    a[j := Lookup(a, j) + {i}]
  }

  /**
   * The incidence loop over a face's edges, processed in order; edges
   * with other than two vertices are skipped. Each id's entry holds
   * exactly its neighbours along the face's edges.
   */
  function Incidence(edges: seq<Ids>): (inc: map<nat, set<nat>>)
    decreases |edges|
    ensures forall v :: Lookup(inc, v) == Neighbours(edges, v)
  {
    if |edges| == 0 then map[]
    else
      var init := edges[..|edges| - 1];
      var e := edges[|edges| - 1];
      var prev := Incidence(init);
      var inc := if |e| == 2 then Link(prev, e[0], e[1]) else prev;
      assert forall v :: Lookup(inc, v) == Neighbours(edges, v) by {
        forall v ensures Lookup(inc, v) == Neighbours(edges, v) {
          NeighboursSnoc(edges, v);
        }
      }
      inc
  }

  /** Neighbours through one more edge at the end of the list. */
  lemma NeighboursSnoc(edges: seq<Ids>, v: nat)
    requires |edges| > 0
    ensures var e := edges[|edges| - 1];
      Neighbours(edges, v) == Neighbours(edges[..|edges| - 1], v)
        + (if |e| == 2 && e[0] == v then {e[1]} else {}) + (if |e| == 2 && e[1] == v then {e[0]} else {})
  {
    var init := edges[..|edges| - 1];
    assert forall x :: x in edges <==> x in init || x == edges[|edges| - 1];
  }

  /** The incidence relation of a face is symmetric. */
  lemma IncidenceSymmetric(edges: seq<Ids>, u: nat, v: nat)
    ensures v in Lookup(Incidence(edges), u) <==> u in Lookup(Incidence(edges), v)
  {
    var n1 := Neighbours(edges, u);
    var n2 := Neighbours(edges, v);
    if v in n1 {
      var e :| e in edges && |e| == 2 && ((e[0] == u && e[1] == v) || (e[1] == u && e[0] == v));
      if e[0] == u {
        assert u in (set e | e in edges && |e| == 2 && e[1] == v :: e[0]);
      } else {
        assert u in (set e | e in edges && |e| == 2 && e[0] == v :: e[1]);
      }
    }
    if u in n2 {
      var e :| e in edges && |e| == 2 && ((e[0] == v && e[1] == u) || (e[1] == v && e[0] == u));
      if e[0] == v {
        assert v in (set e | e in edges && |e| == 2 && e[1] == u :: e[0]);
      } else {
        assert v in (set e | e in edges && |e| == 2 && e[0] == u :: e[1]);
      }
    }
  }

  /** The ids of `xs` that are not yet in `path`, in listing order. */
  function Unvisited(xs: seq<nat>, path: Ids): (r: seq<nat>)
    ensures forall x :: x in r <==> x in xs && x !in path
  {
    if |xs| == 0 then []
    else
      var rest := Unvisited(xs[1..], path);
      assert forall x :: x in xs <==> x == xs[0] || x in xs[1..];
      if xs[0] !in path then [xs[0]] + rest else rest
  }

  predicate NoDuplicates(path: Ids) {
    forall i, j :: 0 <= i < j < |path| ==> path[i] != path[j]
  }

  /** Consecutive ids of the path are incident. */
  predicate Chained(inc: map<nat, set<nat>>, path: Ids) {
    forall i :: 0 <= i < |path| - 1 ==> path[i + 1] in Lookup(inc, path[i])
  }

  /**
   * The walk: from the last id of the path, step to the first listed
   * neighbour not yet on the path, at most `steps` times, stopping early
   * when every neighbour is already on it. The path keeps its prefix,
   * gains at most `steps` ids, never repeats an id and stays chained.
   */
  function Walk(inc: map<nat, set<nat>>, listing: Listing, path: Ids, steps: nat): (r: Ids)
    requires |path| > 0 && NoDuplicates(path) && Chained(inc, path)
    requires ListsMembers(listing)
    decreases steps
    ensures |path| <= |r| <= |path| + steps
    ensures r[..|path|] == path
    ensures NoDuplicates(r) && Chained(inc, r)
  {
    if steps == 0 then path
    else
      var v := path[|path| - 1];
      var others := Unvisited(listing(Lookup(inc, v)), path);
      if |others| == 0 then path
      else
        var next := others[0];
        assert next in others;
        var path' := path + [next];
        assert NoDuplicates(path');
        assert Chained(inc, path');
        var r := Walk(inc, listing, path', steps - 1);
        assert r[..|path|] == r[..|path'|][..|path|];
        r
  }

  /**
   * A walk that stops early has met a dead end: every neighbour of its
   * last id is already on the path.
   */
  lemma WalkStopsAtDeadEnd(inc: map<nat, set<nat>>, listing: Listing, path: Ids, steps: nat)
    requires |path| > 0 && NoDuplicates(path) && Chained(inc, path)
    requires ListsMembers(listing)
    requires forall s: set<nat>, x :: x in s ==> x in listing(s)
    requires |Walk(inc, listing, path, steps)| < |path| + steps
    ensures var r := Walk(inc, listing, path, steps);
      forall x :: x in Lookup(inc, r[|r| - 1]) ==> x in r
    decreases steps
  {
    var v := path[|path| - 1];
    var others := Unvisited(listing(Lookup(inc, v)), path);
    if |others| == 0 {
      forall x | x in Lookup(inc, v) ensures x in path {
        assert x in listing(Lookup(inc, v));
      }
    } else {
      var next := others[0];
      assert next in others;
      var path' := path + [next];
      assert NoDuplicates(path');
      assert Chained(inc, path');
      WalkStopsAtDeadEnd(inc, listing, path', steps - 1);
    }
  }

  /**
   * Re-order one face: start at its first vertex and walk its edges for at
   * most len(face) steps. A face without vertices has no `face[0]`.
   */
  function OrderFace(f: SolidFace, listing: Listing): (r: Option<Ids>)
    requires ListsMembers(listing)
    ensures r.None? <==> |f.verts| == 0
    ensures r.Some? ==> |r.value| >= 1 && r.value[0] == f.verts[0]
    ensures r.Some? ==> |r.value| <= |f.verts| + 1
    ensures r.Some? ==> NoDuplicates(r.value)
    ensures r.Some? ==> forall i :: 0 <= i < |r.value| - 1 ==> r.value[i + 1] in Neighbours(f.edges, r.value[i])
  {
    if |f.verts| == 0 then None
    else
      var inc := Incidence(f.edges);
      var w := Walk(inc, listing, [f.verts[0]], |f.verts|);
      assert w[..1] == [f.verts[0]];
      Some(w)
  }

  /**
   * The faces `mesh_from_faces` emits: each ordered face with more than
   * two vertices, in face order; a face without vertices raises.
   */
  function OrderedFaces(faces: seq<SolidFace>, listing: Listing): (r: Option<seq<Ids>>)
    requires ListsMembers(listing)
    ensures r.None? <==> exists i :: 0 <= i < |faces| && |faces[i].verts| == 0
    ensures r.Some? ==> forall g :: g in r.value ==> |g| > 2 && NoDuplicates(g)
    ensures r.Some? ==> forall g :: g in r.value ==> exists i :: 0 <= i < |faces| && OrderFace(faces[i], listing) == Some(g)
    ensures r.Some? ==> forall i :: 0 <= i < |faces| ==>
      OrderFace(faces[i], listing).Some? && (|OrderFace(faces[i], listing).value| > 2 ==> OrderFace(faces[i], listing).value in r.value)
    ensures r.Some? ==> |r.value| <= |faces|
  {
    var r := KeepLong(faces, f => OrderFace(f, listing));
    assert r.None? ==> exists i :: 0 <= i < |faces| && |faces[i].verts| == 0;
    r
  }

  /**
   * The ordering loop, one face at a time: each face's ordering, kept when
   * it has more than two ids; the first face that cannot be ordered aborts.
   */
  function LongOrders(faces: seq<SolidFace>, order: SolidFace -> Option<Ids>): Option<seq<Ids>> {
    if |faces| == 0 then Some([])
    else
      match order(faces[0])
      case None => None
      case Some(g) =>
        var rest := LongOrders(faces[1..], order);
        if rest.None? then None
        else if |g| > 2 then Some([g] + rest.value) else rest
  }

  /** What the ordering loop keeps and when it aborts. */
  lemma {:induction false} LongOrdersKeeps(faces: seq<SolidFace>, order: SolidFace -> Option<Ids>)
    ensures var r := LongOrders(faces, order);
      && (r.None? <==> exists i :: 0 <= i < |faces| && order(faces[i]).None?)
      && (r.Some? ==> forall g :: g in r.value ==> |g| > 2 && exists i :: 0 <= i < |faces| && order(faces[i]) == Some(g))
      && (r.Some? ==> forall i :: 0 <= i < |faces| ==> order(faces[i]).Some? && (|order(faces[i]).value| > 2 ==> order(faces[i]).value in r.value))
      && (r.Some? ==> |r.value| <= |faces|)
  {
    if |faces| > 0 {
      LongOrdersKeeps(faces[1..], order);
      assert forall i :: 1 <= i < |faces| ==> faces[i] == faces[1..][i - 1];
      if order(faces[0]).Some? && LongOrders(faces[1..], order).None? {
        var j :| 0 <= j < |faces[1..]| && order(faces[1..][j]).None?;
        assert order(faces[j + 1]).None?;
      }
    }
  }

  /** The ordering loop over a concatenation runs over each part in turn. */
  lemma {:induction false} LongOrdersAppend(a: seq<SolidFace>, b: seq<SolidFace>, order: SolidFace -> Option<Ids>)
    ensures LongOrders(a + b, order).None? <==> LongOrders(a, order).None? || LongOrders(b, order).None?
    ensures LongOrders(a + b, order).Some? ==> LongOrders(a + b, order).value == LongOrders(a, order).value + LongOrders(b, order).value
    decreases |a|
  {
    if |a| > 0 {
      LongOrdersAppend(a[1..], b, order);
      SplitHead(a, b);
    } else {
      assert a + b == b;
    }
  }

  /**
   * Each face's ordering, kept when it has more than two ids, in face
   * order; the first face that cannot be ordered aborts.
   */
  function KeepLong(faces: seq<SolidFace>, order: SolidFace -> Option<Ids>): (r: Option<seq<Ids>>)
    ensures r.None? <==> exists i :: 0 <= i < |faces| && order(faces[i]).None?
    ensures r.Some? ==> forall g :: g in r.value ==> |g| > 2 && exists i :: 0 <= i < |faces| && order(faces[i]) == Some(g)
    ensures r.Some? ==> forall i :: 0 <= i < |faces| ==> order(faces[i]).Some? && (|order(faces[i]).value| > 2 ==> order(faces[i]).value in r.value)
    ensures r.Some? ==> |r.value| <= |faces|
  {
    LongOrdersKeeps(faces, order);
    LongOrders(faces, order)
  }

  /**
   * The kept orderings follow face order: over a concatenation of face
   * lists, the result aborts iff either part aborts, and otherwise is the
   * first part's orderings followed by the second's.
   */
  lemma KeepLongAppend(a: seq<SolidFace>, b: seq<SolidFace>, order: SolidFace -> Option<Ids>)
    ensures KeepLong(a + b, order).None? <==> KeepLong(a, order).None? || KeepLong(b, order).None?
    ensures KeepLong(a + b, order).Some? ==> KeepLong(a + b, order).value == KeepLong(a, order).value + KeepLong(b, order).value
  {
    LongOrdersAppend(a, b, order);
  }

  /** The mesh of the fragments: two-vertex edges and re-ordered faces. */
  function MeshFromFaces(edges: seq<Ids>, faces: seq<SolidFace>, listing: Listing): (r: Option<(seq<Ids>, seq<Ids>)>)
    requires ListsMembers(listing)
    ensures r.None? <==> exists i :: 0 <= i < |faces| && |faces[i].verts| == 0
    ensures r.Some? ==> r.value.0 == TwoVertexEdges(edges) && Some(r.value.1) == OrderedFaces(faces, listing)
  {
    match OrderedFaces(faces, listing)
    case None => None
    case Some(fs) => Some((TwoVertexEdges(edges), fs))
  }
}

=== FILE: surface_projection.dfy ===
/**
 * Orthogonal projection of a point onto a surface by alternating
 * projections onto iso-parameter curves (`ortho_project_surface`,
 * utils/geom.py:76-112). Only the iteration budget, the axis toggling
 * and the exits are modelled; convergence itself is not.
 */
module SurfaceProjection {
  import opened Wrappers
  import opened Vectors
  import opened Sampling
  import opened GeomErrors
  import opened CurveProjection

  /**
   * A parametric surface as the kernel sees it: evaluation, the two
   * partial derivatives (which give iso-curve tangents) and the domain.
   */
  datatype Surface = Surface(
    eval: (real, real) -> Vec3,
    du: (real, real) -> Vec3,
    dv: (real, real) -> Vec3,
    uMin: real, uMax: real, vMin: real, vMax: real)

  datatype Axis = U | V

  function Other(a: Axis): Axis {
    if a == U then V else U
  }

  /**
   * The iso-parameter curve with `axis` held at `value` (the host's
   * `SvIsoUvCurve`): holding U runs along v over the v-domain, and
   * holding V runs along u over the u-domain.
   */
  function IsoCurve(s: Surface, axis: Axis, value: real): (c: Curve)
    ensures axis == U ==> c.uMin == s.vMin && c.uMax == s.vMax && forall t :: c.eval(t) == s.eval(value, t)
    ensures axis == V ==> c.uMin == s.uMin && c.uMax == s.uMax && forall t :: c.eval(t) == s.eval(t, value)
  {
    if axis == U then Curve(t => s.eval(value, t), t => s.dv(value, t), s.vMin, s.vMax)
    else Curve(t => s.eval(t, value), t => s.du(t, value), s.uMin, s.uMax)
  }

  /**
   * One step of the loop: project onto the iso-curve at the held value
   * and keep the nearest root's parameter and point, which lies on that
   * iso-curve. A curve-projection failure is passed on unchanged.
   */
  function ProjectOnIso(src: Vec3, s: Surface, axis: Axis, value: real, samples: nat, solve: RootFinder): (r: Result<(real, Vec3), GeomError>)
    ensures r.Err? ==> r.error == NoProjection || r.error == RootFailed
    ensures r.Ok? ==> r.value.1 == (if axis == U then s.eval(value, r.value.0) else s.eval(r.value.0, value))
  {
    var c := IsoCurve(s, axis, value);
    match OrthoProjectCurve(src, c, samples, solve)
    case Err(e) => Err(e)
    case Ok(p) => Ok((p.nearestU, p.nearest))
  }

  datatype SurfacePoint = SurfacePoint(u: real, v: real, point: Vec3)

  /**
   * The outcome of the alternating loop together with the fixed axis of
   * every curve projection it performed, in order.
   */
  datatype Run = Run(outcome: Result<SurfacePoint, GeomError>, axes: seq<Axis>)

  /** The parameters read off after the loop: the held value goes to the held axis. */
  function Finish(axis: Axis, prevFixed: real, fixedValue: real): (real, real) {
    if axis == U then (prevFixed, fixedValue) else (fixedValue, prevFixed)
  }

  /** The held axes start at `first` and toggle after every projection. */
  predicate Alternates(axes: seq<Axis>, first: Axis)
    decreases |axes|
  {
    |axes| == 0 || (axes[0] == first && Alternates(axes[1..], Other(first)))
  }

  /** Toggling from U means U at every even position and V at every odd one. */
  lemma {:induction false} AlternatesParity(axes: seq<Axis>, first: Axis)
    requires Alternates(axes, first)
    ensures forall k :: 0 <= k < |axes| ==> axes[k] == (if k % 2 == 0 then first else Other(first))
    decreases |axes|
  {
    if |axes| > 0 {
      AlternatesParity(axes[1..], Other(first));
      assert Other(Other(first)) == first;
      forall k | 1 <= k < |axes| ensures axes[k] == (if k % 2 == 0 then first else Other(first)) {
        assert axes[k] == axes[1..][k - 1];
      }
    }
  }

  /** How many curve projections round `i` may still perform. */
  function Budget(maxiter: int, i: nat): nat {
    if maxiter + 1 - i > 0 then maxiter + 1 - i else 0
  }

  /**
   * Round `i` of the loop: raise once the round number exceeds
   * `maxiter`, otherwise project onto the iso-curve at the held value,
   * stop when the projected point moved less than `tol`, and else toggle
   * the held axis and continue from the parameter just found.
   */
  function ProjectLoop(src: Vec3, s: Surface, samples: nat, maxiter: int, tol: real, solve: RootFinder,
                       i: nat, axis: Axis, fixedValue: real, prevFixed: real, prevPoint: Vec3): (run: Run)
    decreases Budget(maxiter, i)
    ensures |run.axes| <= Budget(maxiter, i)
    ensures Alternates(run.axes, axis)
    ensures run.outcome == Err(NoConvergence) ==> |run.axes| == Budget(maxiter, i)
  {
    if i > maxiter then Run(Err(NoConvergence), [])
    else
      match ProjectOnIso(src, s, axis, fixedValue, samples, solve)
      case Err(e) => Run(Err(e), [axis])
      case Ok((found, point)) =>
        if Near(point, prevPoint, tol) then
          var uv := Finish(axis, prevFixed, found);
          Run(Ok(SurfacePoint(uv.0, uv.1, point)), [axis])
        else
          var rest := ProjectLoop(src, s, samples, maxiter, tol, solve, i + 1, Other(axis), found, found, point);
          assert ([axis] + rest.axes)[1..] == rest.axes;
          Run(rest.outcome, [axis] + rest.axes)
  }

  function MidU(s: Surface): real {
    (s.uMin + s.uMax) / 2.0
  }

  function MidV(s: Surface): real {
    (s.vMin + s.vMax) / 2.0
  }

  /**
   * The loop exactly as written: U is held at the u-midpoint, but the
   * value remembered for the held axis starts as the v-midpoint.
   */
  function OrthoProjectSurfaceAsWritten(src: Vec3, s: Surface, samples: nat, maxiter: int, tol: real, solve: RootFinder): (run: Run)
    ensures |run.axes| <= Budget(maxiter, 0)
    ensures run.outcome == Err(NoConvergence) ==> |run.axes| == Budget(maxiter, 0)
  {
    ProjectLoop(src, s, samples, maxiter, tol, solve, 0, U, MidU(s), MidV(s), s.eval(MidU(s), MidV(s)))
  }

  /**
   * Whenever the remembered value equals the held value on entry, a
   * successful loop returns a point that is the surface at the returned
   * (u, v).
   */
  lemma {:induction false} ProjectLoopOnSurface(src: Vec3, s: Surface, samples: nat, maxiter: int, tol: real, solve: RootFinder,
                                                i: nat, axis: Axis, fixedValue: real, prevPoint: Vec3)
    ensures var run := ProjectLoop(src, s, samples, maxiter, tol, solve, i, axis, fixedValue, fixedValue, prevPoint);
            run.outcome.Ok? ==> run.outcome.value.point == s.eval(run.outcome.value.u, run.outcome.value.v)
    decreases Budget(maxiter, i)
  {
    if i <= maxiter {
      var r := ProjectOnIso(src, s, axis, fixedValue, samples, solve);
      if r.Ok? && !Near(r.value.1, prevPoint, tol) {
        ProjectLoopOnSurface(src, s, samples, maxiter, tol, solve, i + 1, Other(axis), r.value.0, r.value.1);
      }
    }
  }

  /**
   * `ortho_project_surface` with the remembered value starting at the
   * held u-midpoint: at most maxiter + 1 curve projections, raising
   * "No convergence" only after all of them; the held axis is U, V, U, …
   * in turn; and a result point is the surface at the result (u, v).
   */
  function OrthoProjectSurface(src: Vec3, s: Surface, samples: nat, maxiter: int, tol: real, solve: RootFinder): (run: Run)
    ensures |run.axes| <= Budget(maxiter, 0)
    ensures run.outcome == Err(NoConvergence) ==> |run.axes| == Budget(maxiter, 0)
    ensures forall k :: 0 <= k < |run.axes| ==> run.axes[k] == (if k % 2 == 0 then U else V)
    ensures run.outcome.Ok? ==> run.outcome.value.point == s.eval(run.outcome.value.u, run.outcome.value.v)
  {
    ProjectLoopOnSurface(src, s, samples, maxiter, tol, solve, 0, U, MidU(s), s.eval(MidU(s), MidV(s)));
    var run := ProjectLoop(src, s, samples, maxiter, tol, solve, 0, U, MidU(s), MidU(s), s.eval(MidU(s), MidV(s)));
    AlternatesParity(run.axes, U);
    run
  }

  /** A flat patch z = 0 over u in [0, 1], v in [0, 2]. */
  function FlatPatch(): Surface {
    Surface((u, v) => Vec3(u, v, 0.0), (u, v) => Vec3(1.0, 0.0, 0.0), (u, v) => Vec3(0.0, 1.0, 0.0),
            0.0, 1.0, 0.0, 2.0)
  }

  /** A root finder that answers with its initial guess (the bracket midpoint). */
  function EchoGuess(g: real -> real, lo: real, hi: real, x0: real): Option<real> {
    Some(x0)
  }

  /**
   * As written, projecting the patch's own centre point (0.5, 1, 0)
   * converges on the first step, whatever the iteration budget and
   * tolerance, and reports (u, v) = (1, 1), whose surface point is
   * (1, 1, 0), not the returned point.
   */
  lemma AsWrittenFirstStepSwapsAxes(src: Vec3, s: Surface, samples: nat, maxiter: int, tol: real)
    requires src == Vec3(0.5, 1.0, 0.0) && s == FlatPatch() && samples == 2
    requires maxiter >= 0 && tol > 0.0
    ensures OrthoProjectSurfaceAsWritten(src, s, samples, maxiter, tol, EchoGuess).outcome == Ok(SurfacePoint(1.0, 1.0, src))
  {
    FlatPatchCentre(src, s);
    FlatPatchCentreStep(src, s, samples);
    FirstStepReportsRemembered(src, s, samples, maxiter, tol, EchoGuess, 0.5, 1.0, 1.0, src);
  }

  /** On the same input the corrected loop reports (u, v) = (0.5, 1). */
  lemma CorrectedFirstStepOnSurface(src: Vec3, s: Surface, samples: nat, maxiter: int, tol: real)
    requires src == Vec3(0.5, 1.0, 0.0) && s == FlatPatch() && samples == 2
    requires maxiter >= 0 && tol > 0.0
    ensures OrthoProjectSurface(src, s, samples, maxiter, tol, EchoGuess).outcome == Ok(SurfacePoint(0.5, 1.0, src))
  {
    FlatPatchCentre(src, s);
    FlatPatchCentreStep(src, s, samples);
    FirstStepReportsRemembered(src, s, samples, maxiter, tol, EchoGuess, 0.5, 1.0, 1.0, src);
  }

  /**
   * Projecting the centre of the flat patch onto its U = 0.5 iso-curve
   * finds v = 1 and the centre itself.
   */
  lemma FlatPatchCentreStep(src: Vec3, s: Surface, samples: nat)
    requires src == Vec3(0.5, 1.0, 0.0) && s == FlatPatch() && samples == 2
    ensures ProjectOnIso(src, s, U, 0.5, samples, EchoGuess) == Ok((1.0, src))
  {
    var c := IsoCurve(s, U, 0.5);
    FlatPatchCurve(src, s, c);
    SingleBracketProjection(src, c, samples);
  }

  /**
   * The patch's centre is (u, v) = (0.5, 1) at the point (0.5, 1, 0);
   * the surface point at (1, 1) is (1, 1, 0).
   */
  lemma FlatPatchCentre(src: Vec3, s: Surface)
    requires src == Vec3(0.5, 1.0, 0.0) && s == FlatPatch()
    ensures MidU(s) == 0.5 && MidV(s) == 1.0
    ensures s.eval(0.5, 1.0) == src
    ensures s.eval(1.0, 1.0) == Vec3(1.0, 1.0, 0.0)
  {
  }

  /**
   * When the first projection (holding U at its midpoint `mu`) returns
   * the surface centre itself, the loop stops at once: as written it
   * reports the v-midpoint `mv` as u, corrected the u-midpoint; v is the
   * parameter found either way.
   */
  lemma FirstStepReportsRemembered(src: Vec3, s: Surface, samples: nat, maxiter: int, tol: real, solve: RootFinder,
                                   mu: real, mv: real, found: real, centre: Vec3)
    requires maxiter >= 0 && tol > 0.0
    requires mu == MidU(s) && mv == MidV(s) && centre == s.eval(mu, mv)
    requires ProjectOnIso(src, s, U, mu, samples, solve) == Ok((found, centre))
    ensures OrthoProjectSurfaceAsWritten(src, s, samples, maxiter, tol, solve).outcome == Ok(SurfacePoint(mv, found, centre))
    ensures OrthoProjectSurface(src, s, samples, maxiter, tol, solve).outcome == Ok(SurfacePoint(mu, found, centre))
  {
    NearSelf(centre, tol);
  }

  /** The U = 0.5 iso-curve of the patch: domain [0, 2], goal 1 − v. */
  lemma FlatPatchCurve(src: Vec3, s: Surface, c: Curve)
    requires src == Vec3(0.5, 1.0, 0.0) && s == FlatPatch() && c == IsoCurve(s, U, 0.5)
    ensures c.uMin == 0.0 && c.uMax == 2.0
    ensures Goal(src, c, 0.0) == 1.0 && Goal(src, c, 2.0) == -1.0
    ensures c.eval(1.0) == src
  {
    FlatPatchIsoAt(s, c, 0.0);
    FlatPatchIsoAt(s, c, 1.0);
    FlatPatchIsoAt(s, c, 2.0);
    GoalOnLine(src, c, 0.0, 1.0);
    GoalOnLine(src, c, 2.0, -1.0);
  }

  lemma FlatPatchIsoAt(s: Surface, c: Curve, t: real)
    requires s == FlatPatch() && c == IsoCurve(s, U, 0.5)
    ensures c.eval(t) == Vec3(0.5, t, 0.0)
    ensures c.tangent(t) == Vec3(0.0, 1.0, 0.0)
  {
  }

  /** On the line x = 0.5 running along y, the goal from (0.5, 1, 0) is 1 − t. */
  lemma GoalOnLine(src: Vec3, c: Curve, t: real, g: real)
    requires src == Vec3(0.5, 1.0, 0.0)
    requires c.eval(t) == Vec3(0.5, t, 0.0) && c.tangent(t) == Vec3(0.0, 1.0, 0.0)
    requires g == 1.0 - t
    ensures Goal(src, c, t) == g
  {
  }

  /**
   * A curve on [0, 2] whose goal falls from 1 to −1 has the single
   * bracket [0, 2]; a solver that answers with the bracket midpoint
   * gives the single root 1.
   */
  lemma SingleBracketProjection(src: Vec3, c: Curve, samples: nat)
    requires samples == 2 && c.uMin == 0.0 && c.uMax == 2.0
    requires Goal(src, c, 0.0) == 1.0 && Goal(src, c, 2.0) == -1.0
    ensures var r := OrthoProjectCurve(src, c, samples, EchoGuess);
            r.Ok? && r.value.nearestU == 1.0 && r.value.nearest == c.eval(1.0)
  {
    var solve: RootFinder := EchoGuess;
    assert Linspace(0.0, 2.0, 2) == [0.0, 2.0];
    var vals := SampleGoals(src, c, samples);
    assert vals == [1.0, -1.0];
    TwoSampleBracket([0.0, 2.0], vals);
    var bs := CurveBrackets(src, c, samples);
    assert bs == [Interval(0.0, 2.0)];
    assert solve(GoalFn(src, c), bs[0].lo, bs[0].hi, Mid(bs[0])) == Some(1.0);
    var r := OrthoProjectCurve(src, c, samples, solve);
    assert r.Ok? by {
      assert SolveBrackets(GoalFn(src, c), bs, solve).Ok?;
    }
    assert r.value.us == [1.0];
  }

  lemma TwoSampleBracket(us: seq<real>, vals: seq<real>)
    requires |us| == 2 && |vals| == 2 && vals[0] == 1.0 && vals[1] == -1.0
    ensures Brackets(us, vals) == [Interval(us[0], us[1])]
  {
    assert SignChanges(vals, 1) == [];
    assert SignChanges(vals, 0) == [0];
  }
}

=== FILE: vectors.dfy ===
/**
 * Points and vectors of three real coordinates, with the handful of
 * operations the kernel uses. Lengths are compared through their squares,
 * so no square root is needed: `‖d‖ < tol` holds exactly when
 * `tol > 0 && d·d < tol²`.
 */
module Vectors {

  datatype Vec3 = Vec3(x: real, y: real, z: real)

  const Zero := Vec3(0.0, 0.0, 0.0)

  function Add(a: Vec3, b: Vec3): Vec3 {
    Vec3(a.x + b.x, a.y + b.y, a.z + b.z)
  }

  function Sub(a: Vec3, b: Vec3): Vec3 {
    Vec3(a.x - b.x, a.y - b.y, a.z - b.z)
  }

  function Scale(k: real, a: Vec3): Vec3 {
    Vec3(k * a.x, k * a.y, k * a.z)
  }

  function Neg(a: Vec3): Vec3 {
    Vec3(-a.x, -a.y, -a.z)
  }

  function Dot(a: Vec3, b: Vec3): real {
    a.x * b.x + a.y * b.y + a.z * b.z
  }

  function NormSq(a: Vec3): real {
    Dot(a, a)
  }

  function DistSq(a: Vec3, b: Vec3): real {
    NormSq(Sub(a, b))
  }

  /** `‖a − b‖ < tol`, the convergence test of every alternating loop. */
  predicate Near(a: Vec3, b: Vec3, tol: real) {
    tol > 0.0 && DistSq(a, b) < tol * tol
  }

  lemma DistSelf(p: Vec3)
    ensures DistSq(p, p) == 0.0
  {
    assert Sub(p, p) == Zero;
  }

  /** A point is within every positive tolerance of itself. */
  lemma NearSelf(p: Vec3, tol: real)
    requires tol > 0.0
    ensures Near(p, p, tol)
  {
    calc {
      DistSq(p, p);
      == { DistSelf(p); }
      0.0;
      < tol * tol;
    }
  }
}

=== FILE: voronoi3d.dfy ===
/**
 * The combinatorial part of the 3D Voronoi node
 * (nodes/spatial/voronoi3d.py): grouping the diagram's ridges into the
 * faces of each site's region, the open-site rule, the clip box around
 * the sites and the RIDGES output filter. The diagram itself (scipy's
 * `Voronoi`) is the input; building, bisecting and clipping the bmesh
 * regions is host geometry and is not modelled.
 */
module Voronoi3D {
  import opened Wrappers
  import opened Vectors
  import opened MinMax
  import opened Seqs

  /** A ridge face: Voronoi vertex indices, `-1` standing for the vertex at infinity. */
  type Face = seq<int>

  /** One ridge of the diagram: the two sites it separates and its face. */
  datatype Ridge = Ridge(site1: nat, site2: nat, face: Face)

  /** A ridge reaching infinity. */
  predicate IsOpen(face: Face) {
    -1 in face
  }

  /** What one ridge adds to the face list of `site`: its face once per side it bounds. */
  function Contribution(r: Ridge, site: nat): seq<Face> {
    if IsOpen(r.face) then []
    else (if r.site1 == site then [r.face] else []) + (if r.site2 == site then [r.face] else [])
  }

  /** Reference definition: the faces of `site`'s region, in ridge order. */
  function FacesOf(ridges: seq<Ridge>, site: nat): seq<Face>
    decreases |ridges|
  {
    if |ridges| == 0 then []
    else FacesOf(ridges[..|ridges| - 1], site) + Contribution(ridges[|ridges| - 1], site)
  }

  /** Reference definition: a site is open when one of its ridges reaches infinity. */
  ghost predicate OpenSite(ridges: seq<Ridge>, site: nat) {
    exists i :: 0 <= i < |ridges| && IsOpen(ridges[i].face) && (ridges[i].site1 == site || ridges[i].site2 == site)
  }

  /**
   * The state of the grouping loop: `faces` is the default-dict of face
   * lists, `order` its keys in insertion order, `open` the open sites.
   */
  datatype Groups = Groups(order: seq<nat>, faces: map<nat, seq<Face>>, open: set<nat>)

  /** Append one face to a site's list, creating the key on first use. */
  function AddFace(g: Groups, site: nat, face: Face): (h: Groups)
    ensures h.open == g.open
    ensures site in h.faces && h.faces[site] == (if site in g.faces then g.faces[site] else []) + [face]
    ensures forall s :: s != site ==> (s in h.faces <==> s in g.faces) && (s in g.faces ==> h.faces[s] == g.faces[s])
    ensures h.order == if site in g.faces then g.order else g.order + [site]
    ensures WellKeyed(g) ==> WellKeyed(h)
  {
    if site in g.faces then Groups(g.order, g.faces[site := g.faces[site] + [face]], g.open)
    else Groups(g.order + [site], g.faces[site := [face]], g.open)
  }

  /** One iteration of the ridge loop. */
  function Step(g: Groups, r: Ridge): (h: Groups)
    ensures WellKeyed(g) ==> WellKeyed(h)
    ensures forall s :: s in h.open <==> s in g.open || (IsOpen(r.face) && (r.site1 == s || r.site2 == s))
    ensures forall s :: s in h.faces <==> s in g.faces || |Contribution(r, s)| > 0
    ensures forall s :: s in h.faces ==> h.faces[s] == (if s in g.faces then g.faces[s] else []) + Contribution(r, s)
  {
    if IsOpen(r.face) then Groups(g.order, g.faces, g.open + {r.site1, r.site2})
    else
      var h2 := AddFace(AddFace(g, r.site1, r.face), r.site2, r.face);
      AddBothFaces(g, r);
      h2
  }

  /** Filing a finite ridge's face under both its sites appends that site's contribution to every list. */
  lemma AddBothFaces(g: Groups, r: Ridge)
    requires !IsOpen(r.face)
    ensures var h := AddFace(AddFace(g, r.site1, r.face), r.site2, r.face);
      forall s :: s in h.faces ==> h.faces[s] == (if s in g.faces then g.faces[s] else []) + Contribution(r, s)
  {
    var h1 := AddFace(g, r.site1, r.face);
    var h2 := AddFace(h1, r.site2, r.face);
    forall s | s in h2.faces
      ensures h2.faces[s] == (if s in g.faces then g.faces[s] else []) + Contribution(r, s)
    {
      var before := if s in g.faces then g.faces[s] else [];
      if s == r.site1 && s == r.site2 {
        assert h2.faces[s] == before + [r.face] + [r.face];
      } else if s == r.site1 {
        assert h2.faces[s] == before + [r.face];
      } else if s == r.site2 {
        assert h2.faces[s] == before + [r.face];
      }
    }
  }


  /** The keys are listed once each, and exactly the keys are listed. */
  ghost predicate WellKeyed(g: Groups) {
    (forall s :: s in g.order <==> s in g.faces)
    && DistinctKeys(g.order)
  }

  /** Adding a ridge at the end: its faces come after the earlier ones. */
  lemma FacesOfSnoc(ridges: seq<Ridge>, s: nat)
    requires |ridges| > 0
    ensures FacesOf(ridges, s) == FacesOf(ridges[..|ridges| - 1], s) + Contribution(ridges[|ridges| - 1], s)
  {
  }

  /** Adding a ridge at the end: it may open its own two sites, no other. */
  lemma OpenSnoc(ridges: seq<Ridge>, s: nat)
    requires |ridges| > 0
    ensures OpenSite(ridges, s) <==>
      (OpenSite(ridges[..|ridges| - 1], s)
       || (IsOpen(ridges[|ridges| - 1].face) && (ridges[|ridges| - 1].site1 == s || ridges[|ridges| - 1].site2 == s)))
  {
    var init := ridges[..|ridges| - 1];
    if OpenSite(init, s) {
      var i :| 0 <= i < |init| && IsOpen(init[i].face) && (init[i].site1 == s || init[i].site2 == s);
      assert ridges[i] == init[i];
    }
    if OpenSite(ridges, s) {
      var i :| 0 <= i < |ridges| && IsOpen(ridges[i].face) && (ridges[i].site1 == s || ridges[i].site2 == s);
      if i < |init| {
        assert init[i] == ridges[i];
      }
    }
  }

  /**
   * The ridge loop of `make_regions`. A site is open exactly when one of
   * its ridges reaches infinity; a site has a face list exactly when a
   * finite ridge bounds it, and that list holds the faces of its finite
   * ridges in ridge order (twice for a ridge bounding it on both sides).
   */
  function GroupRidges(ridges: seq<Ridge>): (g: Groups)
    decreases |ridges|
    ensures WellKeyed(g)
    ensures forall s :: s in g.open <==> OpenSite(ridges, s)
    ensures forall s :: s in g.faces <==> |FacesOf(ridges, s)| > 0
    ensures forall s :: s in g.faces ==> g.faces[s] == FacesOf(ridges, s)
  {
    if |ridges| == 0 then Groups([], map[], {})
    else
      var g := Step(GroupRidges(ridges[..|ridges| - 1]), ridges[|ridges| - 1]);
      assert forall s :: s in g.open <==> OpenSite(ridges, s) by {
        forall s ensures s in g.open <==> OpenSite(ridges, s) {
          OpenSnoc(ridges, s);
        }
      }
      assert forall s :: FacesOf(ridges, s) == FacesOf(ridges[..|ridges| - 1], s) + Contribution(ridges[|ridges| - 1], s) by {
        forall s ensures FacesOf(ridges, s) == FacesOf(ridges[..|ridges| - 1], s) + Contribution(ridges[|ridges| - 1], s) {
          FacesOfSnoc(ridges, s);
        }
      }
      g
  }

  /** A site that bounds no finite ridge has no region candidate. */
  lemma NoFiniteRidgeNoFaces(ridges: seq<Ridge>, site: nat)
    requires forall i :: 0 <= i < |ridges| ==> IsOpen(ridges[i].face) || (ridges[i].site1 != site && ridges[i].site2 != site)
    ensures site !in GroupRidges(ridges).faces
  {
    FacesOfEmpty(ridges, site);
  }

  lemma {:induction false} FacesOfEmpty(ridges: seq<Ridge>, site: nat)
    requires forall i :: 0 <= i < |ridges| ==> IsOpen(ridges[i].face) || (ridges[i].site1 != site && ridges[i].site2 != site)
    ensures FacesOf(ridges, site) == []
    decreases |ridges|
  {
    if |ridges| > 0 {
      FacesOfEmpty(ridges[..|ridges| - 1], site);
    }
  }

  /** Every face in a site's list is a finite ridge face of that site. */
  lemma {:induction false} FacesOfAreFinite(ridges: seq<Ridge>, site: nat, f: Face)
    requires f in FacesOf(ridges, site)
    ensures !IsOpen(f)
    ensures exists i :: 0 <= i < |ridges| && ridges[i].face == f && (ridges[i].site1 == site || ridges[i].site2 == site)
    decreases |ridges|
  {
    var init := ridges[..|ridges| - 1];
    if f in FacesOf(init, site) {
      FacesOfAreFinite(init, site, f);
      var i :| 0 <= i < |init| && init[i].face == f && (init[i].site1 == site || init[i].site2 == site);
      assert ridges[i] == init[i];
    } else {
      assert f in Contribution(ridges[|ridges| - 1], site);
    }
  }

  /** A candidate region: the site and the faces of its cell. */
  datatype Region = Region(site: nat, faces: seq<Face>)

  /** Region test of the loop body: skipped when closed_only and open or not closed. */
  predicate Kept(g: Groups, k: nat, closedOnly: bool, closedMesh: seq<Face> -> bool)
    requires k in g.faces
  {
    !closedOnly || (k !in g.open && closedMesh(g.faces[k]))
  }

  /**
   * The region loop over the keys in insertion order. With closed_only,
   * an open site is skipped before its mesh is built, and a built mesh
   * with a boundary vertex is dropped; `closedMesh` stands for that
   * boundary test on the bmesh built from the faces.
   */
  function CollectRegions(g: Groups, keys: seq<nat>, closedOnly: bool, closedMesh: seq<Face> -> bool): (rs: seq<Region>)
    requires forall k :: k in keys ==> k in g.faces
    ensures forall r :: r in rs ==> r.site in keys && r.faces == g.faces[r.site] && Kept(g, r.site, closedOnly, closedMesh)
    ensures forall k :: k in keys ==> (Region(k, g.faces[k]) in rs <==> Kept(g, k, closedOnly, closedMesh))
  {
    if |keys| == 0 then []
    else
      var k := keys[0];
      var rest := CollectRegions(g, keys[1..], closedOnly, closedMesh);
      assert forall j :: j in keys ==> j == k || j in keys[1..];
      if Kept(g, k, closedOnly, closedMesh) then [Region(k, g.faces[k])] + rest else rest
  }

  /** No two regions share a site. */
  predicate DistinctSites(rs: seq<Region>) {
    forall i, j :: 0 <= i < j < |rs| ==> rs[i].site != rs[j].site
  }

  /** No key repeats. */
  predicate DistinctKeys(keys: seq<nat>) {
    forall i, j :: 0 <= i < j < |keys| ==> keys[i] != keys[j]
  }

  /** Past the first key, distinct keys stay distinct and never repeat the first. */
  lemma DistinctKeysTail(keys: seq<nat>)
    requires |keys| > 0 && DistinctKeys(keys)
    ensures DistinctKeys(keys[1..]) && keys[0] !in keys[1..]
  {
    assert forall j :: 0 <= j < |keys[1..]| ==> keys[1..][j] == keys[j + 1];
  }

  /** A region whose site no later region has keeps the sites distinct. */
  lemma DistinctSitesCons(r: Region, rest: seq<Region>)
    requires DistinctSites(rest) && forall x :: x in rest ==> x.site != r.site
    ensures DistinctSites([r] + rest)
  {
    var rs := [r] + rest;
    forall i, j | 0 <= i < j < |rs| ensures rs[i].site != rs[j].site {
      assert rs[j] == rest[j - 1] && rest[j - 1] in rest;
      if i > 0 {
        assert rs[i] == rest[i - 1];
      }
    }
  }

  /** Distinct keys give at most one region per site. */
  lemma {:induction false} CollectRegionsDistinct(g: Groups, keys: seq<nat>, closedOnly: bool, closedMesh: seq<Face> -> bool)
    requires forall k :: k in keys ==> k in g.faces
    requires DistinctKeys(keys)
    ensures DistinctSites(CollectRegions(g, keys, closedOnly, closedMesh))
  {
    if |keys| > 0 {
      var k := keys[0];
      DistinctKeysTail(keys);
      CollectRegionsDistinct(g, keys[1..], closedOnly, closedMesh);
      var rest := CollectRegions(g, keys[1..], closedOnly, closedMesh);
      if Kept(g, k, closedOnly, closedMesh) {
        DistinctSitesCons(Region(k, g.faces[k]), rest);
        assert CollectRegions(g, keys, closedOnly, closedMesh) == [Region(k, g.faces[k])] + rest;
      } else {
        assert CollectRegions(g, keys, closedOnly, closedMesh) == rest;
      }
    }
  }

  /**
   * The regions `make_regions` builds a mesh for, before the host
   * geometry: a site yields its region exactly when it bounds a finite
   * ridge and, under closed_only, is not open and its mesh is closed.
   * Each site yields at most one region.
   */
  function MakeRegions(ridges: seq<Ridge>, closedOnly: bool, closedMesh: seq<Face> -> bool): (rs: seq<Region>)
    ensures forall r :: r in rs ==> r.faces == FacesOf(ridges, r.site) && |r.faces| > 0
    ensures forall site :: Region(site, FacesOf(ridges, site)) in rs <==>
      |FacesOf(ridges, site)| > 0 && (!closedOnly || (!OpenSite(ridges, site) && closedMesh(FacesOf(ridges, site))))
    ensures DistinctSites(rs)
  {
    var g := GroupRidges(ridges);
    CollectRegionsDistinct(g, g.order, closedOnly, closedMesh);
    CollectRegions(g, g.order, closedOnly, closedMesh)
  }

  /** The clip box: per axis, (min - clipping, max + clipping) over the sites. */
  datatype Box = Box(xMin: real, xMax: real, yMin: real, yMax: real, zMin: real, zMax: real)

  predicate InBox(p: Vec3, b: Box) {
    b.xMin <= p.x <= b.xMax && b.yMin <= p.y <= b.yMax && b.zMin <= p.z <= b.zMax
  }

  /** One axis of the box: (min - clipping, max + clipping), both attained. */
  function AxisBounds(vals: seq<real>, clipping: real): (r: (real, real))
    requires |vals| > 0
    ensures forall i :: 0 <= i < |vals| ==> r.0 + clipping <= vals[i] <= r.1 - clipping
    ensures clipping >= 0.0 ==> forall i :: 0 <= i < |vals| ==> r.0 <= vals[i] <= r.1
    ensures exists i :: 0 <= i < |vals| && vals[i] == r.0 + clipping
    ensures exists i :: 0 <= i < |vals| && vals[i] == r.1 - clipping
  {
    var lo, hi := SeqMin(vals), SeqMax(vals);
    assert exists i :: 0 <= i < |vals| && vals[i] == lo;
    assert exists i :: 0 <= i < |vals| && vals[i] == hi;
    (lo - clipping, hi + clipping)
  }

  datatype Coordinate = X | Y | Z

  function Coord(p: Vec3, c: Coordinate): real {
    match c
    case X => p.x
    case Y => p.y
    case Z => p.z
  }

  /** One axis of the box over the sites' coordinate `c`. */
  function SiteBounds(sites: seq<Vec3>, c: Coordinate, clipping: real): (r: (real, real))
    requires |sites| > 0
    ensures forall i :: 0 <= i < |sites| ==> r.0 + clipping <= Coord(sites[i], c) <= r.1 - clipping
    ensures clipping >= 0.0 ==> forall i :: 0 <= i < |sites| ==> r.0 <= Coord(sites[i], c) <= r.1
    ensures exists i :: 0 <= i < |sites| && Coord(sites[i], c) == r.0 + clipping
    ensures exists i :: 0 <= i < |sites| && Coord(sites[i], c) == r.1 - clipping
  {
    var vals := seq(|sites|, i requires 0 <= i < |sites| => Coord(sites[i], c));
    assert forall i :: 0 <= i < |sites| ==> vals[i] == Coord(sites[i], c);
    AxisBounds(vals, clipping)
  }

  /**
   * `calc_bounds`; `min` over no site raises, modelled as None. Every
   * site lies at least `clipping` inside each face of the box, and each
   * face sits exactly `clipping` beyond some site: the box is per axis
   * (min - clipping, max + clipping).
   */
  function CalcBounds(sites: seq<Vec3>, clipping: real): (b: Option<Box>)
    ensures b.None? <==> |sites| == 0
    ensures b.Some? ==> forall i :: 0 <= i < |sites| ==>
      b.value.xMin + clipping <= sites[i].x <= b.value.xMax - clipping &&
      b.value.yMin + clipping <= sites[i].y <= b.value.yMax - clipping &&
      b.value.zMin + clipping <= sites[i].z <= b.value.zMax - clipping
    ensures b.Some? && clipping >= 0.0 ==> forall i :: 0 <= i < |sites| ==> InBox(sites[i], b.value)
    ensures b.Some? ==> exists i :: 0 <= i < |sites| && sites[i].x == b.value.xMin + clipping
    ensures b.Some? ==> exists i :: 0 <= i < |sites| && sites[i].x == b.value.xMax - clipping
    ensures b.Some? ==> exists i :: 0 <= i < |sites| && sites[i].y == b.value.yMin + clipping
    ensures b.Some? ==> exists i :: 0 <= i < |sites| && sites[i].y == b.value.yMax - clipping
    ensures b.Some? ==> exists i :: 0 <= i < |sites| && sites[i].z == b.value.zMin + clipping
    ensures b.Some? ==> exists i :: 0 <= i < |sites| && sites[i].z == b.value.zMax - clipping
  {
    if |sites| == 0 then None
    else
      var x := SiteBounds(sites, X, clipping);
      var y := SiteBounds(sites, Y, clipping);
      var z := SiteBounds(sites, Z, clipping);
      Some(Box(x.0, x.1, y.0, y.1, z.0, z.1))
  }

  /** No face of the list reaches infinity. */
  predicate AllFinite(faces: seq<Face>) {
    forall i :: 0 <= i < |faces| ==> !IsOpen(faces[i])
  }

  lemma AllFiniteCons(faces: seq<Face>)
    requires |faces| > 0
    ensures AllFinite(faces) <==> !IsOpen(faces[0]) && AllFinite(faces[1..])
  {
    assert forall i :: 1 <= i < |faces| ==> faces[i] == faces[1..][i - 1];
  }

  /** The RIDGES comprehension, one face at a time. */
  function KeepFinite(faces: seq<Face>): seq<Face> {
    if |faces| == 0 then [] else (if IsOpen(faces[0]) then [] else [faces[0]]) + KeepFinite(faces[1..])
  }

  /** What the comprehension keeps, counted face by face. */
  lemma {:induction false} KeepFiniteCounts(faces: seq<Face>)
    ensures forall f :: multiset(KeepFinite(faces))[f] == if IsOpen(f) then 0 else multiset(faces)[f]
    ensures forall f :: f in KeepFinite(faces) <==> f in faces && !IsOpen(f)
    ensures |KeepFinite(faces)| <= |faces|
    ensures |KeepFinite(faces)| == |faces| <==> AllFinite(faces)
  {
    if |faces| > 0 {
      KeepFiniteCounts(faces[1..]);
      HeadTail(faces);
      assert forall f :: multiset(faces)[f] == multiset([faces[0]])[f] + multiset(faces[1..])[f];
      assert forall f :: f in faces <==> f == faces[0] || f in faces[1..];
      AllFiniteCons(faces);
    }
  }

  /** The comprehension of a concatenation is the concatenation of the comprehensions. */
  lemma {:induction false} KeepFiniteAppend(a: seq<Face>, b: seq<Face>)
    ensures KeepFinite(a + b) == KeepFinite(a) + KeepFinite(b)
    decreases |a|
  {
    if |a| > 0 {
      KeepFiniteAppend(a[1..], b);
      SplitHead(a, b);
    } else {
      assert a + b == b;
    }
  }

  /**
   * The RIDGES output: the ridge faces that do not reach infinity, in
   * diagram order and with repeats: each finite face occurs as often as
   * in the diagram, an open one not at all.
   */
  function FiniteRidges(faces: seq<Face>): (r: seq<Face>)
    ensures forall f :: multiset(r)[f] == if IsOpen(f) then 0 else multiset(faces)[f]
    ensures forall f :: f in r <==> f in faces && !IsOpen(f)
    ensures |r| <= |faces|
    ensures |r| == |faces| <==> AllFinite(faces)
  {
    KeepFiniteCounts(faces);
    KeepFinite(faces)
  }

  /**
   * The filter keeps diagram order: filtering a concatenation
   * concatenates the filtered parts.
   */
  lemma FiniteRidgesAppend(a: seq<Face>, b: seq<Face>)
    ensures FiniteRidges(a + b) == FiniteRidges(a) + FiniteRidges(b)
  {
    KeepFiniteAppend(a, b);
  }

  /** Filtering twice changes nothing. */
  lemma FiniteRidgesIdempotent(faces: seq<Face>)
    ensures FiniteRidges(FiniteRidges(faces)) == FiniteRidges(faces)
  {
    var r := FiniteRidges(faces);
    FiniteRidgesKeepsAll(r);
  }

  /** A list with no open face passes the filter unchanged. */
  lemma {:induction false} FiniteRidgesKeepsAll(faces: seq<Face>)
    requires forall f :: f in faces ==> !IsOpen(f)
    ensures FiniteRidges(faces) == faces
  {
    if |faces| > 0 {
      assert faces[0] in faces;
      assert forall f :: f in faces[1..] ==> f in faces;
      FiniteRidgesKeepsAll(faces[1..]);
      HeadTail(faces);
    }
  }
}

=== FILE: wrappers.dfy ===
/**
 * Failure-carrying wrappers shared by every module: `Option` for the
 * places where the Python code returns `None`, `Result` for the places
 * where it raises an exception.
 */
module Wrappers {

  datatype Option<+T> = None | Some(value: T)

  datatype Result<+T, +E> = Ok(value: T) | Err(error: E) {

    predicate IsFailure() {
      Err?
    }

    function PropagateFailure<U>(): Result<U, E>
      requires Err?
    {
      Err(error)
    }

    function Extract(): T
      requires Ok?
    {
      value
    }
  }
}
